=== FILE: README.md ===
# Snake game core, modelled in Dafny

The repository holds two versions of a browser snake game.

- **The prototype**, under `src/`, is a steering snake. Left and right keys turn its heading. It chases a single food item on a screen-sized field and moves through a fixed sequence of four colour themes as the score rises. It also has a particle system for explosions.
- **The expanded game**, under `js/`, has a 4000 × 4000 world that wraps at its edges. It holds 300 foods and a four-way keyboard snake with an input queue. Up to ten AI enemy snakes hunt food, flee bigger snakes and avoid bodies. Enemies that crash into a snake die and leave food behind. Power-ups can be collected for speed, slow motion, ghost mode, a magnet or a score multiplier. The expanded game also has ten themes, a virtual joystick for touch screens, and a loader for `.env` settings.

The model follows the source class by class.

- **Classes that update their fields in place** become Dafny classes with the same fields, and their methods carry `modifies` clauses. These are the snakes, the enemy snake, food, theme managers, the particle system, both games, the touch controller and the env loader.
- **Pure decisions** become functions, and the lemmas relate them. Examples are steering, the enemy's state machine, angle normalisation, the power-up effects, the env parser and theme progression.
- **The frame loops** (food, power-ups, active effects, particles, enemies) are `while` loops. Each is proved equal to a specification function over the frame's starting state, and the properties of that function are proved as lemmas.

How the model stands in for the browser:

- Doubles are `real`.
- `Math.random()` is an `Rng` object. It reads an arbitrary stream of numbers in [0, 1) through a cursor, so the model counts which draws each modelled operation consumes. The draws made inside the left-out voice calls are the exception: see `Games.Game.KillEnemy` under "## Left out".
- `Math.sqrt`, `Math.atan2`, `Math.cos` and `Math.sin` are the fields of a `MathFns` value. `Lawful()` asks only that `sqrt` is the true non-negative square root and that `cos` and `sin` lie in [-1, 1]. Every distance test is therefore proved equivalent to a comparison of squared distances (`Geometry.Within` and `Geometry.Beyond`).
- `Date.now()`, `performance.now()`, animation-frame timestamps and the `.env` fetch response are parameters.

In several places the code behaves differently from what its comments or its menus suggest. The model follows the code, and the following lemmas record those places.

- `Games.FirstSpeedOptionUnreachable`: `parseInt(value) || 3` can never pick speed option 0 ("Slow"), because 0 is falsy in JavaScript.
- `Touch.TouchReversesKeyboardVelocity`: the joystick writes unit velocities while the keyboard writes speed-scaled ones. A drag straight against a keyboard heading therefore passes the 180-degree guard.
- `Collisions.WrappedBodyEscapesEarlyExit`: the head-distance early exit of `checkCollisionWithSnake` misses body segments that have wrapped across the world edge.
- `Games.SecondKillTakesSuccessor`: `killEnemy` splices the array that `forEach` is walking. A second kill in the same callback therefore removes the following enemy.
- `Themes.AdvancesFromSixOnAnyScore`: the last three themes of the expanded game have threshold 0. Theme 7 is reached on the first food after theme 6, and so on.
- `Effects.ExpiryIgnoresOverlap`: expiry does not look at other active effects. Ending one of two overlapping ghost effects clears ghost mode, and ending one of two multiplier effects resets the multiplier to 1.

## Model

| member | source | states |
|---|---|---|
| Body.BuildColumn | js/classes/Snake.js:35-37 | the reset loop pushes n points (x, y + 2i) in order: the result is exactly that column |
| Body.Advance | js/classes/Snake.js:60-69 | one body step: the new head goes in front and every old segment shifts back by one; pending growth raises the target length by one; the tail is trimmed exactly when the body would exceed its target length |
| Body.AdvanceKeepsBounded | src/Snake.js:60-74 | a body no longer than its target length stays so after a step, with the new head in front |
| Body.AdvanceAllConverges | src/Snake.js:63-74 | after k steps the target length has grown by min(growAmount, k), the pending growth has dropped by the same amount, and the trail has grown one segment per step until it reached the target |
| Common.Rng.Next | js/classes/Food.js:23-24 | Math.random(): the next number of the stream, in [0, 1), advancing the cursor by one |
| Config.TableWellFormed | js/config.js:146-181 | every power-up entry is well formed: speed and slow entries carry a positive speed multiplier, the multiplier entry a score multiplier of at least 1 |
| Geometry.Abs | js/classes/Game.js:401 | Math.abs: non-negative and equal to the value or its negation |
| Geometry.Sign | js/classes/Snake.js:57-58 | Math.sign: 1, -1 or 0 according to the sign |
| Geometry.Min | js/classes/TouchController.js:97 | Math.min: a lower bound equal to one of its arguments |
| Geometry.Scale | js/classes/EnemySnake.js:39 | a draw in [0, 1) scaled by a positive width lies in [0, width) |
| Geometry.WithinIsDistanceBelow | js/classes/Snake.js:76-81 | a distance below r is the same as a squared distance below r² |
| Geometry.BeyondIsDistanceAbove | js/classes/Game.js:438-441 | a distance above r is the same as a squared distance above r² |
| Geometry.SqrtBelow | js/classes/Snake.js:79-80 | with a lawful sqrt, sqrt(dx²+dy²) < r holds exactly when the points are within r |
| Geometry.SqrtAbove | js/classes/Game.js:438-439 | with a lawful sqrt, sqrt(dx²+dy²) > r holds exactly when the points are beyond r |
| Geometry.SqrtMonotone | js/classes/EnemySnake.js:93-94 | with a lawful sqrt, comparing square roots of non-negative numbers is comparing the numbers |
| Geometry.NearerIsSmallerSquare | js/classes/EnemySnake.js:113 | comparing two distances is comparing their squares, so the nearest-by-distance scan is the nearest-by-square scan |
| Geometry.BoxCheckSound | js/classes/Game.js:447-449 | the box pre-check never rejects a point that is within r: both coordinate gaps are below r |
| Geometry.WithinSymmetric | js/classes/PowerUp.js:26-29 | being within r does not depend on the order of the two points |
| Geometry.WrapCoord | js/classes/Game.js:533-536 | one wrapped coordinate ends in [0, size]; unchanged inside; below 0 it becomes size, above size it becomes 0 |
| Geometry.Wrap | js/classes/Game.js:531-537 | the wrapped head lies in the world rectangle and is unchanged when it was already inside |
| Nearest.NearestAmong | js/classes/EnemySnake.js:88-98 | the chosen index is in range and eligible |
| Nearest.NearestAmongIsFirstNearest | js/classes/EnemySnake.js:101-119 | the scan returns nothing exactly when nothing is eligible, and otherwise the first eligible item at minimal squared distance (strict `<` keeps the earliest of equals) |
| Nearest.FirstNearestUnique | js/classes/EnemySnake.js:92-98 | the first nearest eligible item is unique |
| Enemies.SizeClassOf | js/classes/EnemySnake.js:12-27 | boss (length 100, thickness ×1.5, speed ×0.7) iff the draw is above 0.8; small (15, ×0.8, ×1.1) iff below 0.3; normal (40, base thickness, ×0.9) otherwise |
| Enemies.RaiseAngleFacts | js/classes/EnemySnake.js:54 | adding whole turns while below -π ends at or above -π, below π when it started below -π, leaves an angle already at or above -π alone, and differs from the input by whole turns |
| Enemies.LowerAngleFacts | js/classes/EnemySnake.js:55 | subtracting whole turns while above π from an angle at or above -π ends in [-π, π], differs by whole turns and leaves an angle in range alone |
| Enemies.NormalizedAngleFacts | js/classes/EnemySnake.js:54-55 | the two normalising loops put any angle difference in [-π, π], change it only by whole turns, and leave it alone when already in range |
| Enemies.NormalizeAngle | js/classes/EnemySnake.js:54-55 | the two while loops compute exactly NormalizedAngle of the difference |
| Enemies.ClampTurn | js/classes/EnemySnake.js:57 | the turn is at most turnSpeed in size, equals the difference when that is small enough, and is ±turnSpeed otherwise |
| Enemies.FoodMask | js/classes/EnemySnake.js:93-94 | a food is a candidate exactly when it is within 1000 of the head |
| Enemies.ThreatMask | js/classes/EnemySnake.js:104-119 | another snake is a candidate threat exactly when it is not this snake, its head is within 400 and its length exceeds 1.2 × ours |
| Enemies.Heads | js/classes/EnemySnake.js:107 | the heads of the snakes, one per snake in order |
| Enemies.PlanStates | js/classes/EnemySnake.js:121-141 | fleeing iff some threat's head is within 200; hunting iff not fleeing and some food is within 1000; wandering otherwise; only wandering moves the timer, which resets and re-draws the wander angle after 50 frames; wandering targets the wander angle |
| Enemies.WrapHead | js/classes/EnemySnake.js:79-83 | wall wrapping moves only the head, into the world, and keeps length and pending growth |
| Enemies.EnemySnake.constructor | js/classes/EnemySnake.js:4-40 | two draws: the size class from the first, the wander angle (in [0, 2π)) from the second; a column body of the class length, velocity (0, -SNAKE_SPEED), turn speed 0.15, hunting, no target |
| Enemies.EnemySnake.Grow | js/classes/Snake.js:72-74 | pending growth rises by GROWTH_AMOUNT |
| Enemies.EnemySnake.NearestFood | js/classes/EnemySnake.js:88-98 | the loop returns exactly the first nearest food within 1000 |
| Enemies.EnemySnake.NearestThreat | js/classes/EnemySnake.js:101-119 | the loop returns exactly the first nearest threatening snake |
| Enemies.EnemySnake.CollisionImminent | js/classes/EnemySnake.js:147-172 | true exactly when some other snake with its head within 500 has an even-indexed segment within thickness + its thickness + 20 of the point 100 ahead |
| Enemies.EnemySnake.AvoidObstacles | js/classes/EnemySnake.js:174-177 | the target angle turns by π/2 exactly when a collision is imminent, and is kept otherwise |
| Enemies.EnemySnake.Targets | js/classes/EnemySnake.js:86-119 | the two scans yield the nearest threat's head and the nearest food |
| Enemies.EnemySnake.ChooseTarget | js/classes/EnemySnake.js:121-141 | state, target angle, timer and wander angle are those of the plan; a random number is drawn only when the wander timer fires |
| Enemies.EnemySnake.DecideMove | js/classes/EnemySnake.js:86-145 | the decision is the plan of the two scans, followed by obstacle avoidance |
| Enemies.EnemySnake.TurnTowardsTarget | js/classes/EnemySnake.js:50-62 | the new velocity points at the current heading plus the clamped, normalised difference to the target, at the snake's speed |
| Enemies.EnemySnake.Move | js/classes/EnemySnake.js:64-83 | the body advances by velocity × deltaTime and the head is wrapped into the world |
| Enemies.EnemySnake.Update | js/classes/EnemySnake.js:42-84 | one enemy frame: state, timer and wander angle are the plan's; the target is the plan's target plus π/2 exactly when a collision is imminent; one draw is consumed exactly when the wander timer fires; the velocity turns toward that target; the body advances and wraps; speed and thickness are kept |
| Enemies.EnemySnake.AdvanceBody | js/classes/EnemySnake.js:68-77 | the body changes exactly as Advance says |
| Snakes.SteerTurnsOrKeeps | js/classes/Snake.js:45-54 | a queued key turns a vertical snake horizontal (and the other way round) at the same speed and leaves it alone otherwise, so the snake stays on an axis |
| Snakes.SteerIgnoresReversal | js/classes/Snake.js:47-53 | a key pointing straight back leaves the velocity unchanged |
| Snakes.DisplaceAlongAxis | js/classes/Snake.js:56-58 | a move along one axis does not change the other coordinate |
| Snakes.ResetBodyClear | js/classes/Snake.js:26-38 | the fresh 30-segment column does not collide with itself beyond the safe zone at thickness - 2 |
| Snakes.CheckFoodCollision | js/classes/Snake.js:76-81 | a hit exactly when the head is within thickness + food radius of the food |
| Snakes.Snake.constructor | js/classes/Snake.js:4-14 | a 30-segment column, speed SNAKE_SPEED, thickness SNAKE_THICKNESS, velocity (0, -speed), empty queue, no ghost mode |
| Snakes.Snake.Reset | js/classes/Snake.js:26-38 | the column of 30 segments, no growth, velocity (0, -speed), empty queue; speed, thickness and ghost mode are kept |
| Snakes.Snake.Update | js/classes/Snake.js:44-70 | one queued key is consumed and steers; the body advances by speed × deltaTime along the sign of the velocity |
| Snakes.Snake.TakeInput | js/classes/Snake.js:45-54 | the first queued key is removed and applied as Steer says |
| Snakes.Snake.AdvanceBody | js/classes/Snake.js:60-69 | the body changes exactly as Advance says |
| Snakes.Snake.Grow | js/classes/Snake.js:72-74 | pending growth rises by GROWTH_AMOUNT |
| Snakes.Snake.CheckSelfCollision | js/classes/Snake.js:83-95 | a hit exactly when a segment at or beyond SAFE_COLLISION_ZONE is within thickness - 2 of the head |
| ProtoSnakes.TurnCases | src/Snake.js:51-52 | left alone turns by -turnSpeed·dt, right alone by +turnSpeed·dt, both or neither keep the angle |
| ProtoSnakes.StepBounded | src/Snake.js:55-57 | with lawful cos and sin the head moves at most speed·dt along each axis |
| ProtoSnakes.ShortSnakeNeverSelfCollides | src/Snake.js:88-102 | a snake no longer than its reset length of 20 cannot collide with itself, because the scan starts at segment 20 |
| ProtoSnakes.ProtoSnake.constructor | src/Snake.js:2-17 | a 20-segment column facing up, turn speed 4, speed and base speed 150, thickness 12, gap 8, no keys held |
| ProtoSnakes.ProtoSnake.Reset | src/Snake.js:31-43 | the column of 20, facing up, no growth; tuning and held keys are kept |
| ProtoSnakes.ProtoSnake.Update | src/Snake.js:49-75 | the angle turns as Turn says and the body advances to the head moved by speed·dt along the new angle |
| ProtoSnakes.ProtoSnake.Steer | src/Snake.js:50-52 | the angle turns as Turn says |
| ProtoSnakes.ProtoSnake.AdvanceBody | src/Snake.js:59-74 | the body changes exactly as Advance says |
| ProtoSnakes.ProtoSnake.Grow | src/Snake.js:77-79 | pending growth rises by 10 |
| ProtoSnakes.ProtoSnake.CheckFoodCollision | src/Snake.js:81-86 | a hit exactly when the head is within thickness + food radius |
| ProtoSnakes.ProtoSnake.CheckSelfCollision | src/Snake.js:88-102 | a hit exactly when a segment from index 20 on is within thickness of the head |
| ProtoFoods.ProtoScanClear | src/Food.js:20-29 | valid exactly when no fifth segment lies within 20 of the candidate |
| ProtoFoods.ProtoFood.constructor | src/Food.js:2-9 | the given field size, position (0, 0), radius 6 |
| ProtoFoods.ProtoFood.Spawn | src/Food.js:11-31 | k + 1 attempts of two draws each; every earlier candidate was refused and the kept one is clear of the snake |
| ProtoFoods.ProtoFood.Attempt | src/Food.js:14-29 | one attempt: two draws, the k-th candidate, and whether it is clear |
| ProtoThemes.ProtoThemesIncrease | src/ThemeManager.js:3-32 | the four thresholds 0, 100, 200, 300 strictly increase |
| ProtoThemes.ProgressRunReached | src/ThemeManager.js:41-49 | with increasing thresholds, every theme up to the one reached has a threshold no greater than the best score seen |
| ProtoThemes.ProtoThemeManager.constructor | src/ThemeManager.js:2-35 | the four themes, index 0 |
| ProtoThemes.ProtoThemeManager.CheckProgression | src/ThemeManager.js:41-49 | the index advances by at most one as Progress says, never past 3, never on a negative score |
| ProtoGames.WrapFront | src/Game.js:91-97 | only the head moves, into the field |
| ProtoGames.ProtoGame.constructor | src/Game.js:7-30 | not running, score 0, snake at the centre, food for the field, theme 0, no particles |
| ProtoGames.ProtoGame.Start | src/Game.js:32-44 | running, score 0, snake reset at the centre, food spawned clear of it, particles cleared, lastTime = now |
| ProtoGames.ProtoGame.Stop | src/Game.js:46-49 | not running |
| ProtoGames.ProtoGame.Loop | src/Game.js:51-61 | when not running nothing changes and no frame is scheduled; otherwise lastTime takes the timestamp and the next frame is scheduled |
| ProtoGames.ProtoGame.Update | src/Game.js:63-89 | the body moves and wraps; when the head reaches the food, score +10, growth +10, the food respawns clear and the theme is checked; the game stops exactly on a self-collision |
| ProtoGames.ProtoGame.Move | src/Game.js:64-68 | the snake's body becomes the advanced and wrapped body |
| ProtoGames.ProtoGame.EndOnSelfCollision | src/Game.js:85-88 | running is cleared exactly on a self-collision |
| ProtoGames.ProtoGame.HandleWallWrapping | src/Game.js:91-97 | the head wraps into the field, the rest of the body is kept |
| ProtoGames.ProtoGame.EatFood | src/Game.js:71-82 | on contact the meal is scored; otherwise score, food and growth are kept |
| ProtoGames.ProtoGame.Feed | src/Game.js:72-81 | score +10, growth +10, food clear of the snake, theme as Progress says, 20 particles appended |
| ProtoGames.TenFoodsPerTheme | src/ThemeManager.js:41-49 | after n foods of 10 points the prototype shows theme min(n / 10, 3) |
| ProtoGames.ProgressRunSnoc | src/Game.js:81 | checking progression after one more score is one more Progress step |
| Particles.LaunchSpeed | src/ParticleSystem.js:39 | the launch speed lies in [50, 150) |
| Particles.DecayRate | src/ParticleSystem.js:43 | the decay rate lies in [0.5, 1) |
| Particles.LifeAfterIsLinear | src/ParticleSystem.js:46-50 | after any sequence of updates, life = 1 - decay × (total time) |
| Particles.DeadAfterTwoSeconds | src/ParticleSystem.js:42-49 | every particle is dead after two seconds of updates |
| Particles.Particle.constructor | src/ParticleSystem.js:34-44 | three draws: angle, speed (velocity = speed along the angle), decay; life 1 |
| Particles.Particle.Update | src/ParticleSystem.js:46-50 | moves by velocity × dt and loses decay × dt of life |
| Particles.Alive | src/ParticleSystem.js:16-24 | the survivors are at most as many as before |
| Particles.AliveMembers | src/ParticleSystem.js:20-22 | every survivor was a particle and has positive life |
| Particles.AliveKeepsLiving | src/ParticleSystem.js:20-22 | no living particle is removed |
| Particles.AliveDistinct | src/ParticleSystem.js:16-24 | removal keeps the particles distinct |
| Particles.SweepStep | src/ParticleSystem.js:18-22 | one backward iteration moves particle i by its velocity × dt, decays it, and splices it out when dead |
| Particles.Sweep | src/ParticleSystem.js:16-24 | every particle is moved by its velocity × dt and decayed exactly once, and exactly the living ones remain, in order |
| Particles.ParticleSystem.constructor | src/ParticleSystem.js:2-4 | no particles |
| Particles.ParticleSystem.Reset | src/ParticleSystem.js:6-8 | no particles |
| Particles.ParticleSystem.CreateExplosion | src/ParticleSystem.js:10-14 | 20 fresh particles are appended after the old ones, using 60 draws. The j-th is at (x, y) with life 1; its velocity comes from draws 3j and 3j+1 (angle and speed) and its decay from draw 3j+2 |
| Particles.ParticleSystem.Update | src/ParticleSystem.js:16-24 | every particle is moved by its velocity × dt and decayed, and exactly the living ones remain, in order |
| Themes.ProgressStep | js/classes/ThemeManager.js:27-37 | the index stays in range, rises by at most one, and rises exactly when it is not the last and the score reaches the next threshold |
| Themes.ProgressRun | js/classes/ThemeManager.js:27-37 | repeated checks keep the index in range |
| Themes.ProgressRunFacts | js/classes/ThemeManager.js:27-37 | n checks raise the index by at most n, and the theme reached has a threshold no greater than the best score seen |
| Themes.AdvancesFromSixOnAnyScore | js/config.js:81-107 | from theme 6, any non-negative score moves to theme 7, because its threshold is 0 |
| Themes.ThemeManager.constructor | js/classes/ThemeManager.js:4-7 | the THEMES table, index 0 |
| Themes.ThemeManager.SetTheme | js/classes/ThemeManager.js:13-25 | an index in range is taken and any other is ignored |
| Themes.ThemeManager.CheckProgression | js/classes/ThemeManager.js:27-37 | the index advances as Progress says |
| Touch.OctantIsEightWay | js/classes/TouchController.js:132-163 | each 45° sector maps to its unit direction, both ways, and the result is never (0, 0) |
| Touch.TouchSteerBlocksUnitReversal | js/classes/TouchController.js:165-172 | a direction exactly opposite the velocity is ignored, and any other direction replaces it |
| Touch.TouchReversesKeyboardVelocity | js/classes/TouchController.js:165-172 | against the keyboard's velocity (0, -250) a downward drag is not treated as a reversal and is applied |
| Touch.StickComponent | js/classes/TouchController.js:97-110 | each component of the normalised direction lies in [-1, 1] |
| Touch.StickDirection | js/classes/TouchController.js:83-110 | the direction of a drag is its length, capped at 50, along its atan2 angle, divided by 50; both components lie in [-1, 1] |
| Touch.TouchController.constructor | js/classes/TouchController.js:3-16 | inactive, start and current positions and direction all zero |
| Touch.TouchController.HandleTouchStart | js/classes/TouchController.js:58-71 | active, with start and current positions at the touch |
| Touch.TouchController.HandleTouchEnd | js/classes/TouchController.js:116-120 | inactive, direction zero |
| Touch.TouchController.HandleTouchMove | js/classes/TouchController.js:73-114 | nothing changes while inactive; inside the dead zone the direction becomes zero; otherwise the direction is StickDirection of the drag from the start position, and the snake is steered by its octant |
| Touch.TouchController.UpdateSnakeDirection | js/classes/TouchController.js:122-173 | the snake's velocity becomes TouchSteer of the octant of the direction |
| EnvLoading.IndexOf | js/env.js:27 | none exactly when the character is absent; otherwise its first position |
| EnvLoading.Split | js/env.js:21 | at least one part, and no part contains the separator |
| EnvLoading.JoinSplit | js/env.js:27-29 | joining the split parts with the separator gives back the line |
| EnvLoading.SplitAtFirst | js/env.js:27-29 | the key is the text before the first '=' and the rejoined value parts are the text after it |
| EnvLoading.TrimStartFacts | js/env.js:25 | the result is a suffix, every dropped character is whitespace, and it does not start with whitespace |
| EnvLoading.TrimEndFacts | js/env.js:25 | the result is a prefix, every dropped character is whitespace, and it does not end with whitespace |
| EnvLoading.TrimFacts | js/env.js:25-29 | trim returns a slice of the input with no whitespace at either end |
| EnvLoading.AlreadyTrimmed | js/env.js:29 | a string without whitespace at its ends trims to itself |
| EnvLoading.IgnoredLines | js/env.js:25-28 | comment lines, blank lines and lines without '=' leave the settings unchanged |
| EnvLoading.KeyValueLine | js/env.js:27-29 | a line key=value with a non-empty key binds trim(key) to trim(value) |
| EnvLoading.EverythingAfterFirstEquals | js/env.js:27-29 | the value keeps later '=' signs: "A=b=c" binds A to "b=c" |
| EnvLoading.BindsUpdates | js/env.js:29 | a binding line overwrites that key |
| EnvLoading.ParseLinesSnoc | js/env.js:23-31 | the loop processes lines in order, so one more line is one more ParseLine |
| EnvLoading.ParseLinesLast | js/env.js:23-31 | the settings after all lines are the last line applied to the settings before it |
| EnvLoading.LaterLineWins | js/env.js:23-31 | when a key is bound again by the last line, the last value wins |
| EnvLoading.NatToStringInjective | js/env.js:50 | different indexes print differently |
| EnvLoading.NumberedKeyInjective | js/env.js:50 | PREFIX_i names differ for different i |
| EnvLoading.NumberedKeysCount | js/env.js:46-56 | PREFIX_1 to PREFIX_n are n different keys |
| EnvLoading.NumberedKeysWithin | js/env.js:50-53 | once PREFIX_1..PREFIX_i are all settings, i is at most the number of settings |
| EnvLoading.EnvLoader.constructor | js/env.js:5-8 | no settings, not loaded |
| EnvLoading.EnvLoader.Load | js/env.js:10-40 | a second load returns the cached settings; a failed or missing response leaves them unchanged and not loaded; otherwise the lines of the text are parsed in order and the loader is marked loaded |
| EnvLoading.EnvLoader.Get | js/env.js:42-44 | a truthy (present, non-empty) value is returned, otherwise the fallback |
| EnvLoading.EnvLoader.GetArray | js/env.js:46-56 | the values of PREFIX_1, PREFIX_2, ... in order, stopping at the first missing or empty one; never more than there are settings |
| Foods.CandidateInWorld | js/classes/Food.js:23-24 | a drawn candidate lies at least 20 inside every edge |
| Foods.DrawCandidate | js/classes/Food.js:23-24 | two draws give the k-th candidate |
| Foods.ScanClear | js/classes/Food.js:29-39 | valid exactly when no tenth segment lies within 50 of the candidate |
| Foods.Food.constructor | js/classes/Food.js:4-11 | the given size, position (0, 0), radius FOOD_RADIUS |
| Foods.Food.Spawn | js/classes/Food.js:13-42 | explicit coordinates are taken without a draw; otherwise between 1 and 50 attempts of two draws each, every earlier candidate refused, and the last one kept, accepted or after the 50th attempt |
| PowerUps.FindKind | js/classes/PowerUp.js:14 | none exactly when no entry has the name; otherwise an entry of that name |
| PowerUps.NewPowerUp | js/classes/PowerUp.js:4-18 | construction fails exactly when the table has no entry of that name (the source throws); otherwise the position, kind, radius 15, creation time and LIFETIME are set |
| PowerUps.TablePowerUp | js/classes/Game.js:475-481 | the power-up of table entry i, created now |
| PowerUps.TablePowerUpIsNew | js/classes/PowerUp.js:4-18 | constructing with a table entry never fails |
| PowerUps.ExpiryIsStrict | js/classes/PowerUp.js:20-22 | a power-up is not expired at exactly its lifetime and is expired one millisecond later |
| PowerUps.ExpiryIsMonotone | js/classes/PowerUp.js:20-22 | once expired, it stays expired |
| PowerUps.CheckCollision | js/classes/PowerUp.js:24-30 | a hit exactly when the head is within radius + thickness / 2 |
| Collisions.CheckCollisionWithSnake | js/classes/Game.js:436-453 | a hit exactly when the point is not beyond length × thickness × 2 of the head and some segment is within thickness of it |
| Collisions.WrappedBodyEscapesEarlyExit | js/classes/Game.js:438-441 | a point on a body segment that wrapped across the edge is reported as no hit |
| Collisions.EvenPositions | js/classes/Game.js:458-466 | a killed enemy leaves one food per even-indexed segment, at that segment, in order |
| Effects.ApplyChangesOneThing | js/classes/Game.js:498-507 | speed ×1.5, slow ×0.5, ghost sets ghost mode, multiplier sets the score multiplier to 2, magnet changes nothing; each kind touches only its own field |
| Effects.CollectThenExpireRestoresSpeed | js/classes/Game.js:385-386 | expiring a speed or slow effect undoes its collection exactly |
| Effects.ExpiryIgnoresOverlap | js/classes/Game.js:387-391 | the first of two overlapping ghost or multiplier effects to expire ends the boost for both |
| Effects.EffectsOf | js/classes/Game.js:486-493 | one effect per collected kind, starting now, lasting EFFECT_DURATION |
| Effects.Staying | js/classes/Game.js:367-376 | the pass keeps at most the power-ups it had |
| Effects.Collected | js/classes/Game.js:367-376 | everything collected is a table kind |
| Effects.PowerUpPassStep | js/classes/Game.js:368-375 | one backward iteration: keep, drop as expired, or collect power-up i |
| Effects.ApplyOneMore | js/classes/Game.js:373 | collecting one more kind applies its effect last and appends its record |
| Effects.PowerUpPassPartition | js/classes/Game.js:367-376 | every power-up is kept, collected or expired, exactly once; kept ones are neither expired nor touched; collected ones were touched and unexpired |
| Effects.Ongoing | js/classes/Game.js:379-395 | the expiry pass keeps at most the effects it had |
| Effects.Lapsing | js/classes/Game.js:379-395 | every lapsing kind is a table kind |
| Effects.ExpiryPassStep | js/classes/Game.js:380-393 | one backward iteration: keep effect i, or revert and drop it |
| Effects.RevertOneMore | js/classes/Game.js:385-391 | one more lapsed kind is reverted last |
| Effects.ExpiryPassPartition | js/classes/Game.js:379-395 | every effect either stays and has not lapsed or lapses, exactly once |
| Effects.FreshEffectsLast | js/classes/Game.js:381-383 | effects collected now are all kept for EFFECT_DURATION |
| Effects.OngoingKeepsUnlapsed | js/classes/Game.js:383 | with no effect lapsed the pass keeps them all |
| Effects.CollectKeepsGhostBacked | js/classes/Game.js:499-507 | ghost mode on only while a ghost effect is active stays so when power-ups are collected |
| Effects.RevertAllClearsGhost | js/classes/Game.js:387-388 | expiring any ghost effect clears ghost mode |
| Effects.RevertAllKeepsGhost | js/classes/Game.js:385-391 | expiring other kinds leaves ghost mode alone |
| Effects.EffectFate | js/classes/Game.js:379-395 | a lapsed effect is reverted and an unlapsed one is kept |
| Effects.ExpiryKeepsGhostBacked | js/classes/Game.js:379-395 | ghost mode on only while a ghost effect is active stays so through the expiry pass |
| Effects.StaleGhostStays | js/classes/Game.js:367-395 | a ghost flag without a ghost effect survives every later collection and expiry of other kinds |
| Effects.StartBoostsAsWritten | js/classes/Game.js:134-141 | start() as written keeps the ghost flag |
| Effects.StartAsWrittenLeavesGhostUnbacked | js/classes/Game.js:134-141 | a round started while a ghost effect was on begins in ghost mode with no effect to end it |
| Effects.StartBoosts | js/classes/Game.js:134-153 | start() as intended: the chosen speed, multiplier 1, ghost mode off |
| Feeding.BoxCheckIdle | js/classes/Game.js:401-402 | with thickness + radius at most 50, the box pre-check decides nothing: contact is the distance test alone |
| Feeding.CountTouching | js/classes/Game.js:398-422 | at most every food is touched |
| Feeding.EnemyFeedsFacts | js/classes/Game.js:332-342 | the enemy's food loop keeps the number of foods, eats exactly the touched ones at two draws each, leaves the others in place and respawns the touched ones from later draws |
| Feeding.KindIndex | js/classes/Game.js:475 | floor(draw × 5) is a valid table index |
| Feeding.SpawnedFrom | js/classes/Game.js:473-483 | at most one power-up, of a table kind, created now |
| Feeding.SpawnedPowerUpInWorld | js/classes/Game.js:478-479 | a spawned power-up lies at least 50 inside every edge |
| Feeding.EatOneIs | js/classes/Game.js:402-419 | one meal: food respawned from two draws, score + FOOD_VALUE × multiplier, theme checked, spawnPowerUp, one taunt draw |
| Feeding.EatOnePowerUps | js/classes/Game.js:416 | one meal appends at most one fresh power-up of a table kind |
| Feeding.PlayerFeedsFoods | js/classes/Game.js:398-422 | the player's loop keeps the number of foods, eats exactly the touched ones, leaves the others and respawns the eaten ones from later draws |
| Feeding.PlayerFeedsScore | js/classes/Game.js:403-404 | the score rises by FOOD_VALUE × multiplier per food eaten |
| Feeding.PlayerFeedsCursor | js/classes/Game.js:408-419 | each food eaten uses between 4 and 7 random draws |
| Feeding.PlayerFeedsPowerUps | js/classes/Game.js:416 | at most one new power-up per food eaten, appended after the old ones, each of a table kind and created now |
| Feeding.PlayerFeedsTheme | js/classes/Game.js:415 | the theme index rises by at most one per food eaten and stays in range |
| Games.ColorIndex | js/classes/Game.js:290-291 | floor(draw × 6) picks one of the six colours |
| Games.Without | js/classes/Game.js:470 | splice(k, 1): one element shorter, the prefix kept, the rest shifted down, nothing new |
| Games.SecondKillTakesSuccessor | js/classes/Game.js:345-363 | a second kill at the same index in one callback removes the enemy that followed |
| Games.SpliceAtPrefixEnd | js/classes/Game.js:371-374 | splicing the element just before the processed suffix leaves the prefix and that suffix |
| Games.ViewsOf | js/classes/Game.js:325 | one view per enemy, in order |
| Games.ScanOthers | js/classes/Game.js:356-363 | a hit exactly when the head hits some other enemy than index k |
| Games.SpeedIndex | js/classes/Game.js:152 | a non-zero choice is taken; a missing or zero choice becomes 3 |
| Games.FirstSpeedOptionUnreachable | js/classes/Game.js:151-153 | the chosen speed index is never 0 |
| Games.InitialFoods | js/classes/Game.js:157-162 | FOOD_COUNT foods, the k-th from the k-th pair of draws |
| Games.InitialFoodsInWorld | js/classes/Game.js:157-162 | every initial food lies at least 20 inside the world |
| Games.Game.constructor | js/classes/Game.js:14-76 | not running, score 0, multiplier 1, counters and lists empty, theme 0, snake at the world's centre |
| Games.Game.Stop | js/classes/Game.js:180-191 | not running |
| Games.Game.TogglePause | js/classes/Game.js:216-232 | ignored while not running; otherwise paused flips, and unpausing resets lastTime and schedules a frame |
| Games.Game.HandleWallWrapping | js/classes/Game.js:531-537 | the player's head wraps into the world, the rest of the body is kept |
| Games.Game.KillEnemy | js/classes/Game.js:455-471 | food at every even segment appended, score +500, the enemy spliced out |
| Games.Game.CollectPowerUp | js/classes/Game.js:485-510 | the effect is recorded and its boost applied as Apply says |
| Games.Game.RevertEffect | js/classes/Game.js:384-391 | the boost is reverted as Revert says |
| Games.Game.SpawnPowerUp | js/classes/Game.js:473-483 | with probability SPAWN_CHANCE one power-up of a random kind is appended; draws are used exactly as SpawnDraws says |
| Games.Game.DrawPowerUp | js/classes/Game.js:475-481 | three draws give the kind and position |
| Games.Game.SpawnEnemy | js/classes/Game.js:282-294 | nothing at MAX_ENEMIES; otherwise one fresh enemy with a drawn colour at the spawn point is appended |
| Games.Game.PowerUpPass | js/classes/Game.js:367-376 | the power-ups left are Staying, the effects of the Collected ones are appended, and their boosts applied in collection order |
| Games.Game.PowerUpStep | js/classes/Game.js:368-375 | one iteration extends the processed suffix by index i |
| Games.Game.CollectAndDrop | js/classes/Game.js:373-374 | collect power-up i and splice it out |
| Games.Game.ExpiryPass | js/classes/Game.js:379-395 | the effects left are Ongoing and the Lapsing ones are reverted in order |
| Games.Game.ExpiryStep | js/classes/Game.js:380-393 | one iteration extends the processed suffix by index i |
| Games.Game.RevertAndDrop | js/classes/Game.js:385-392 | revert effect i and splice it out |
| Games.Game.DropEffect | js/classes/Game.js:392 | splice(i, 1) on the active effects |
| Games.Game.DropPowerUp | js/classes/Game.js:371 | splice(i, 1) on the power-ups |
| Games.Game.EnemyBitesPlayer | js/classes/Game.js:345-348 | the enemy is killed exactly when its head hits the player's body |
| Games.Game.PlayerBitesEnemy | js/classes/Game.js:351-353 | the game stops exactly when the player is not a ghost and its head hits the enemy |
| Games.Game.EnemyClash | js/classes/Game.js:356-363 | index k is killed when the head hits another enemy; when k is already past the end (after an earlier kill) the source would crash, and that is reported |
| Games.Game.EnemyTurn | js/classes/Game.js:328-364 | one forEach callback: enemies only leave, each one removed adds KILL_BONUS to the score (`Paid`), the score never drops, and the game can only stop, never while the player is a ghost; when it throws, the list has no enemy left at the visited index |
| Games.Game.EnemyMoves | js/classes/Game.js:328-342 | the enemy moves and eats |
| Games.Game.EnemyFights | js/classes/Game.js:345-363 | the three body tests: enemies only leave, each one removed adds KILL_BONUS (`Paid`), the score never drops, the game can only stop, never while the player is a ghost; when it throws, no enemy is left at the visited index |
| Games.Game.UpdateEnemies | js/classes/Game.js:325-364 | the forEach over the live array: enemies only leave, each one removed adds KILL_BONUS (`Paid`), the score never drops, the game can only stop, never while the player is a ghost; a frame that throws has killed at least one enemy and scored its bonus |
| Games.Game.EnemyEats | js/classes/Game.js:332-342 | the enemy's food loop ends exactly as EnemyFeeds says, and the enemy grows once per food eaten |
| Games.Game.PlayerEats | js/classes/Game.js:398-422 | the player's food loop ends exactly as PlayerFeeds says, and the snake grows once per food eaten |
| Games.Game.PlayerEatStep | js/classes/Game.js:399-421 | one backward iteration of the player's food loop |
| Games.Game.EatFood | js/classes/Game.js:402-419 | one meal, as EatOne says |
| Games.Game.ScoreFood | js/classes/Game.js:403-415 | score + FOOD_VALUE × multiplier, growth, food respawned from two draws, theme checked |
| Games.Game.Start | js/classes/Game.js:121-178 | on a portrait phone nothing happens; otherwise running, unpaused, score 0, multiplier 1, lists emptied, snake reset, ghost mode off, theme set when valid, speed from the chosen option, FOOD_COUNT foods placed, lastTime = now |
| Games.Game.ResetRound | js/classes/Game.js:134-148 | the round reset, with ghost mode cleared |
| Games.Game.PlaceFoods | js/classes/Game.js:157-162 | the initial foods, two draws each |
| Games.Game.Update | js/classes/Game.js:309-434 | one frame: the frame counter rises by one, the game can only stop, the score never drops; when it throws, there are no more enemies than before and the score rose by at least KILL_BONUS |
| Games.Game.MovePlayer | js/classes/Game.js:310-315 | the frame is counted and the player moves and wraps; ghost mode and thickness are kept |
| Games.Game.TickSpawner | js/classes/Game.js:318-322 | after more than 2 seconds the timer resets and at most one fresh enemy is appended; otherwise the time accumulates |
| Games.Game.PlayerPhase | js/classes/Game.js:367-428 | power-ups, effects, meals and the self test: the game can only stop, the score never drops |
| Games.Game.EffectPhase | js/classes/Game.js:367-395 | the power-ups left are those Staying; the effects left are the Ongoing ones among the old effects plus those collected; the boosts are the collected kinds applied, then the lapsing ones reverted; both passes keep ghost mode backed by an active ghost effect |
| Games.Game.ScoreMeal | js/classes/Game.js:398-422 | the score never drops and the number of foods is kept |
| Games.Game.Loop | js/classes/Game.js:296-307 | stopped or paused: nothing changes and no frame is scheduled; otherwise lastTime takes the timestamp and one frame is computed. When the next frame is missing, there are no more enemies than before and the score rose by at least KILL_BONUS |
| Games.Game.EndOnSelfCollision | js/classes/Game.js:425-428 | the game stops exactly when the player is not a ghost and collides with itself |

## Left out

- js/classes/ParticleSystem.js is not part of this model. The expanded game's explosions are therefore not modelled; those calls draw no random numbers in the model.
- Rendering is left out: every `draw` method, the grid, the camera, the joystick's DOM elements and `updatePowerUpIndicators`. These are output only.
- Audio, speech and the Gemini taunt pool are left out (`preloadTaunts`, `fillPool`, `triggerTaunt`). Their network requests and the speech they produce finish after an `await`, outside the calling operation. The one random draw of the food taunt test (js/classes/Game.js:419) is consumed.
- Games.Game.KillEnemy and Games.Game.CollectPowerUp do not consume the random draw of the voice request. `audioManager.speak` runs synchronously up to its first `await`. When voice is on, sound is not muted and API keys are configured, it therefore calls `AudioManager.getRandomKey()` inside the frame (js/classes/AudioManager.js:17-18, 70-75, 85-86). This happens on every kill (js/classes/Game.js:347) and every collected power-up (js/classes/Game.js:495). In the source, every later draw of such a frame comes one position further along the stream than in the model.
- Games.Game.constructor does not consume the draw of its own `preloadTaunts()` call (js/classes/Game.js:67), which reaches `generateTauntBatch` synchronously as described below.
- Games.Game.Start, Games.Game.Stop (and the frames that stop the game: Games.Game.PlayerBitesEnemy, Games.Game.EndOnSelfCollision) and Games.Game.EatFood do not consume the random draw of the taunt request. `triggerTaunt` (js/classes/Game.js:193-214) runs synchronously up to its first `await`, whatever the voice and mute settings. This path is taken at start (js/classes/Game.js:170), at game over (js/classes/Game.js:183) and after a food whose taunt test passes (js/classes/Game.js:419). It calls `GeminiService.getRandomKey()`, which always draws once (js/classes/GeminiService.js:10-11), in two cases:
  - when the category's pool is empty, it reaches the draw through `generateTaunt` (js/classes/GeminiService.js:14-15);
  - otherwise, when the game is not already preloading and some pool is below its target size (2, 3, 2), it reaches the draw through `preloadTaunts`, `fillPool` and `generateTauntBatch` (js/classes/Game.js:78-96, js/classes/GeminiService.js:69-70).
  The speech itself starts only after an `await`. In the source, every later draw of such a frame comes one position further along the stream than in the model.
- DOM events, the resize listener, `bindControls` and the `scoreupdate`/`gameover` events are left out. Keys reach the snake through its `inputQueue` and `keys` fields.
- `saveState` and `loadState` are left out because localStorage is I/O. `js/main.js`'s Save & Quit appears only in the findings.
- `MobileController` is reduced to a `portraitMobile` flag passed to `Games.Game.Start`. `setupMobileControls` is left out.
- `Touch.TouchController` holds the player's snake rather than the game. The source only ever reads `game.snake`.
- Games.Game.SpawnEnemy: the position is a parameter, so the rejection loop that draws positions at least 500 from the player is not modelled. Its draws are not consumed.
- Enemies.EnemySnake.constructor: the `super()` call also binds keyboard listeners, which is not modelled.
- Every frame reads one `now` in place of repeated `Date.now()` calls.
- Foods are kept as positions. Their pulse animation is not modelled.
- `snake.type` is left out. It only selects a drawing style.
- Games.Game.Start does not reset `frameCount` or `enemySpawnTimer`, and neither does the source.
- Games.Game.Start and Games.Game.ResetRound: the snake is reset without keeping a ghost flag. This is the corrected behaviour from the findings.
- ProtoFoods.ProtoFood.Spawn requires a clear candidate to exist among the draws ahead (`ClearSpotAhead`). src/Food.js:11-31 loops without a bound until one appears. The same requirement is therefore carried by ProtoGames.ProtoGame.Start, Loop, Update, EatFood and Feed.
- Games.Game.Update states only the frame counter, that running can only stop, that the score never drops and what a throwing frame implies. The effect of each phase is stated by the phase methods it calls.
- Games.Game.Loop: when the next frame is missing, the contract states only that the enemy list did not grow and that the score rose by at least KILL_BONUS. Several foods eaten under a multiplier can also raise the score that much, so this does not prove a kill. The exact condition under which update throws is stated only by Games.Game.EnemyClash, for a single enemy, and by Games.Game.UpdateEnemies, where a throw implies a kill.
- Games.Game.EnemyTurn, Games.Game.EnemyFights and Games.Game.UpdateEnemies: these state monotonicity, the kill bonus for each removed enemy, and a necessary condition for a throw. Per-enemy outcomes are stated by EnemyBitesPlayer, PlayerBitesEnemy, EnemyClash and EnemyEats.
- Games.Game.EnemyMoves states only that the snakes stay valid. Its eating is stated by EnemyEats.
- Games.Game.PlayerPhase and Games.Game.ScoreMeal state monotonicity only. The meals are stated by PlayerEats.
- EnvLoading.EnvLoader.Load: the settings are a string map with no JavaScript prototype keys, so a `__proto__=x` line is bound here, whereas the source's plain object `{}` does not store it. Loads run one after another; two overlapping asynchronous `load()` calls, which would both fetch, are not modelled.
- EnvLoading.EnvLoader.Get: a missing key gives the fallback. In the source an inherited name such as `constructor` or `toString` returns the truthy inherited function instead. GetArray inherits this through get.
- Doubles are exact reals. Rounding is not modelled.
- `Math.cos`, `Math.sin` and `Math.atan2` are uninterpreted, except the bound |cos|, |sin| ≤ 1 used by `ProtoSnakes.StepBounded`.

## Findings

| source | as written | input that shows it | evidently intended | confidence | as-written member | corrected member |
|---|---|---|---|---|---|---|
| js/classes/Game.js:134-141 | `start()` empties `activePowerUps` but leaves `snake.ghostMode` as it was, and `Snake.reset` (js/classes/Snake.js:26-38) does not clear it either | collect a ghost power-up, then press Save & Quit (js/main.js:63-73) and start a new game; or die in the frame that collects a ghost power-up and restart: the new round plays in ghost mode with no effect left to expire it | a new round starts with ghost mode off | not executed | Effects.StartAsWrittenLeavesGhostUnbacked | Effects.StartBoosts |

=== FILE: body.dfy ===
/** The segment body model shared by the player snake, the enemy snake and
    the prototype snake: an ordered trail of past head positions (head at
    index 0), a target length and a pending-growth counter. Each of the three
    classes performs the same unshift / grow / pop sequence in place; Advance
    is the value-level statement of that sequence, and the lemmas below are
    what the sequence guarantees. */
module Body {
  import opened Geometry

  /** The pre-filled body built by every reset: n points spaced 2 apart,
      going down from (x, y). */
  function Column(x: real, y: real, n: nat): seq<Point>
  {
    seq(n, i => Point(x, y + 2.0 * i as real))
  }

  /** The filling loop of reset: n points pushed one by one. */
  method BuildColumn(x: real, y: real, n: int) returns (segments: seq<Point>)
    requires 0 <= n
    ensures segments == Column(x, y, n as nat)
    ensures |segments| == n
    ensures forall i :: 0 <= i < n ==> segments[i] == Point(x, y + 2.0 * i as real)
  {
    segments := [];
    var i := 0;
    while i < n
      invariant 0 <= i <= n
      invariant segments == Column(x, y, i as nat)
    {
      segments := segments + [Point(x, y + 2.0 * i as real)];
      i := i + 1;
    }
  }

  datatype Body = Body(segments: seq<Point>, length: int, growAmount: int)

  /** One step of the body: the new head goes to the front, one unit of
      pending growth is spent by raising the target length, and the tail is
      trimmed once if the body is now longer than its target. */
  function Advance(b: Body, head: Point): (r: Body)
    ensures |r.segments| >= 1 ==> r.segments[0] == head
    ensures |r.segments| == |b.segments| + 1 || |r.segments| == |b.segments|
    ensures forall i :: 1 <= i < |r.segments| ==> r.segments[i] == b.segments[i - 1]
    ensures b.growAmount > 0 ==> r.length == b.length + 1 && r.growAmount == b.growAmount - 1
    ensures b.growAmount <= 0 ==> r.length == b.length && r.growAmount == b.growAmount
    ensures |r.segments| == |b.segments| <==> |b.segments| + 1 > r.length
  {
    var segs := [head] + b.segments;
    var (len, grow) := if b.growAmount > 0 then (b.length + 1, b.growAmount - 1)
                       else (b.length, b.growAmount);
    var trimmed := if |segs| > len then segs[..|segs| - 1] else segs;
    Body(trimmed, len, grow)
  }

  /** The invariant the body keeps: a head exists and the trail is no longer
      than the target length. */
  predicate Bounded(b: Body)
  {
    1 <= |b.segments| <= b.length && 0 <= b.growAmount
  }

  lemma AdvanceKeepsBounded(b: Body, head: Point)
    requires Bounded(b)
    ensures Bounded(Advance(b, head))
    ensures Advance(b, head).segments[0] == head
  {
  }

  /** Many steps, one new head each. */
  function AdvanceAll(b: Body, heads: seq<Point>): Body
    decreases |heads|
  {
    if heads == [] then b else AdvanceAll(Advance(b, heads[0]), heads[1..])
  }

  function MinInt(a: int, b: int): int { if a < b then a else b }

  /** Convergence of the body: starting within its target length, after k
      steps the target length has grown by the growth spent, min(growAmount, k),
      and the trail has grown by one per step until it reached that target. */
  lemma {:induction false} AdvanceAllConverges(b: Body, heads: seq<Point>)
    requires |b.segments| <= b.length && 0 <= b.growAmount
    ensures AdvanceAll(b, heads).length == b.length + MinInt(b.growAmount, |heads|)
    ensures AdvanceAll(b, heads).growAmount == b.growAmount - MinInt(b.growAmount, |heads|)
    ensures |AdvanceAll(b, heads).segments|
         == MinInt(|b.segments| + |heads|, b.length + MinInt(b.growAmount, |heads|))
    decreases |heads|
  {
    if heads != [] {
      var b' := Advance(b, heads[0]);
      AdvanceAllConverges(b', heads[1..]);
    }
  }

  /** What the artificial intelligence and the collision tests see of any
      snake: the object itself (for the source's identity test), its trail,
      its target length and its thickness. */
  datatype SnakeView = SnakeView(owner: object, segments: seq<Point>, length: int, thickness: real)

  predicate AllHaveHeads(views: seq<SnakeView>)
  {
    forall k :: 0 <= k < |views| ==> |views[k].segments| > 0
  }
}

=== FILE: common.dfy ===
/** Shared building blocks: an optional value, the random-number oracle that
    stands in for Math.random, and the floating-point functions of Math that
    the game calls (atan2, cos, sin, sqrt), passed in as uninterpreted
    functions. */
module Common {

  datatype Option<T> = None | Some(value: T)

  /** A stream of draws of Math.random: each lies in [0, 1). */
  ghost predicate UnitStream(stream: nat -> real)
  {
    forall n: nat :: 0.0 <= stream(n) < 1.0
  }

  /** Math.random as an oracle: the n-th draw of the game is stream(n). */
  class Rng {
    const stream: nat -> real
    var cursor: nat

    /** Every draw lies in [0, 1), as Math.random promises. */
    ghost predicate Valid() {
      UnitStream(stream)
    }

    constructor (stream: nat -> real)
      ensures this.stream == stream && cursor == 0
    {
      this.stream := stream;
      cursor := 0;
    }

    /** One call of Math.random(). */
    method Next() returns (r: real)
      requires Valid()
      modifies this`cursor
      ensures cursor == old(cursor) + 1
      ensures r == stream(old(cursor))
      ensures 0.0 <= r < 1.0
    {
      r := stream(cursor);
      cursor := cursor + 1;
    }
  }

  /** The Math functions the simulation calls. */
  datatype MathFns = MathFns(
    sqrt: real -> real,
    atan2: (real, real) -> real,
    cos: real -> real,
    sin: real -> real)
  {
    /** The only facts about them that the proofs rely on. */
    ghost predicate Lawful() {
      && (forall a: real :: 0.0 <= a ==> 0.0 <= sqrt(a) && sqrt(a) * sqrt(a) == a)
      && (forall a: real :: -1.0 <= cos(a) <= 1.0)
      && (forall a: real :: -1.0 <= sin(a) <= 1.0)
    }
  }
}

=== FILE: config.dfy ===
/** The constant configuration of the expanded game (js/config.js): game
    balance numbers, the world size, the theme score thresholds and the
    power-up type table. API keys and prompt text are not part of the model. */
module Config {
  import opened Common

  const SNAKE_SPEED: real := 250.0
  const SNAKE_THICKNESS: real := 20.0
  const FOOD_RADIUS: real := 8.0
  const GROWTH_AMOUNT: int := 1
  const FOOD_VALUE: int := 10
  const WIN_SCORE: int := 5000
  const SAFE_COLLISION_ZONE: nat := 10
  const FOOD_COUNT: nat := 300
  const MAX_ENEMIES: nat := 10
  /** Values of the four speed options Slow, Normal, Fast and Insane. */
  const SPEED_OPTIONS: seq<real> := [120.0, 180.0, 240.0, 320.0]
  const DEFAULT_SPEED_INDEX: nat := 3

  const WORLD_WIDTH: real := 4000.0
  const WORLD_HEIGHT: real := 4000.0

  /** A visual theme; only its name and the score that unlocks it matter to
      the simulation. */
  datatype Theme = Theme(name: string, score: int)

  const THEMES: seq<Theme> := [
    Theme("Neon Night", 0),
    Theme("Cyber Red", 100),
    Theme("Deep Ocean", 200),
    Theme("Solar Flare", 300),
    Theme("Cotton Candy", 400),
    Theme("Matrix", 500),
    Theme("High Contrast", 600),
    Theme("Nano Cyber", 0),
    Theme("Nano Abstract", 0),
    Theme("Nano Jungle", 0)
  ]

  /** One entry of the power-up type table. A field the table leaves out of an
      entry is None. */
  datatype PowerUpKind = PowerUpKind(
    name: string,
    icon: string,
    color: string,
    description: string,
    speedMultiplier: Option<real>,
    magnetRadius: Option<real>,
    scoreMultiplier: Option<int>)

  const SPAWN_CHANCE: real := 0.2
  const LIFETIME: int := 15000
  const EFFECT_DURATION: int := 8000

  const POWERUP_TYPES: seq<PowerUpKind> := [
    PowerUpKind("speed", "\U{26A1}", "#ffff00", "Speed Boost", Some(1.5), None, None),
    PowerUpKind("slow", "\U{1F40C}", "#00ffff", "Slow Motion", Some(0.5), None, None),
    PowerUpKind("ghost", "\U{1F47B}", "#ffffff", "Ghost Mode", None, None, None),
    PowerUpKind("magnet", "\U{1F9F2}", "#ff00ff", "Food Magnet", None, Some(150.0), None),
    PowerUpKind("multiplier", "\U{2716}\U{FE0F}", "#ff8800", "Score x2", None, None, Some(2))
  ]

  /** What collecting and expiring a power-up of this kind relies on: a speed
      or slow entry carries a non-zero speed multiplier, a multiplier entry a
      score multiplier of at least 1. */
  predicate WellFormedKind(k: PowerUpKind)
  {
    && ((k.name == "speed" || k.name == "slow") ==>
          k.speedMultiplier.Some? && k.speedMultiplier.value > 0.0)
    && (k.name == "multiplier" ==> k.scoreMultiplier.Some? && k.scoreMultiplier.value >= 1)
  }

  /** Every entry of the table is well formed. */
  lemma TableWellFormed(k: PowerUpKind)
    requires k in POWERUP_TYPES
    ensures WellFormedKind(k)
  {
  }
}

=== FILE: enemy_snake.dfy ===
/** The computer-controlled snakes of the expanded game
    (js/classes/EnemySnake.js). An enemy has the player's body and growth
    rules, but steers by an angle: each frame it chooses a target angle
    (flee the nearest threatening snake, hunt the nearest food, or wander),
    turns towards it by at most turnSpeed, moves, and wraps around the world
    edges. */
module Enemies {
  import opened Common
  import opened Geometry
  import opened Body
  import opened Nearest
  import Config

  datatype EnemyState = Hunting | Fleeing | Wandering

  /** Size class: target length, thickness and speed. */
  datatype SizeClass = SizeClass(length: int, thickness: real, speed: real)

  /** The size class a draw of Math.random selects: above 0.8 a big slow
      snake, below 0.3 a small fast one, otherwise a normal one. */
  function SizeClassOf(r: real): (c: SizeClass)
    ensures c.length == 100 <==> r > 0.8
    ensures c.length == 15 <==> r < 0.3
    ensures c.length == 40 <==> 0.3 <= r <= 0.8
    ensures c.length == 100 ==> c.thickness == Config.SNAKE_THICKNESS * 1.5 && c.speed == Config.SNAKE_SPEED * 0.7
    ensures c.length == 15 ==> c.thickness == Config.SNAKE_THICKNESS * 0.8 && c.speed == Config.SNAKE_SPEED * 1.1
    ensures c.length == 40 ==> c.thickness == Config.SNAKE_THICKNESS && c.speed == Config.SNAKE_SPEED * 0.9
  {
    if r > 0.8 then SizeClass(100, Config.SNAKE_THICKNESS * 1.5, Config.SNAKE_SPEED * 0.7)
    else if r < 0.3 then SizeClass(15, Config.SNAKE_THICKNESS * 0.8, Config.SNAKE_SPEED * 1.1)
    else SizeClass(40, Config.SNAKE_THICKNESS, Config.SNAKE_SPEED * 0.9)
  }

  const TWO_PI: real := 2.0 * PI

  /** A whole number of turns. */
  function Turns(k: int): real
  {
    (k as real) * TWO_PI
  }

  /** The first normalisation loop: add full turns while below -pi. */
  function RaiseAngle(d: real): real
    decreases (-PI - d).Floor
  {
    if d < -PI then RaiseAngle(d + PI * 2.0) else d
  }

  /** The second normalisation loop: subtract full turns while above pi. */
  function LowerAngle(d: real): real
    decreases (d - PI).Floor
  {
    if d > PI then LowerAngle(d - PI * 2.0) else d
  }

  function NormalizedAngle(d: real): real
  {
    LowerAngle(RaiseAngle(d))
  }

  lemma {:induction false} RaiseAngleFacts(d: real)
    ensures -PI <= RaiseAngle(d)
    ensures d < -PI ==> RaiseAngle(d) < PI
    ensures -PI <= d ==> RaiseAngle(d) == d
    ensures exists k: int :: RaiseAngle(d) == d + Turns(k)
    decreases (-PI - d).Floor
  {
    if d < -PI {
      RaiseAngleFacts(d + PI * 2.0);
      var k: int :| RaiseAngle(d + PI * 2.0) == d + PI * 2.0 + Turns(k);
      assert RaiseAngle(d) == d + Turns(k + 1);
    } else {
      assert RaiseAngle(d) == d + Turns(0);
    }
  }

  lemma {:induction false} LowerAngleFacts(d: real)
    requires -PI <= d
    ensures -PI <= LowerAngle(d) <= PI
    ensures d <= PI ==> LowerAngle(d) == d
    ensures exists k: int :: LowerAngle(d) == d + Turns(k)
    decreases (d - PI).Floor
  {
    if d > PI {
      LowerAngleFacts(d - PI * 2.0);
      var k: int :| LowerAngle(d - PI * 2.0) == d - PI * 2.0 + Turns(k);
      assert LowerAngle(d) == d + Turns(k - 1);
    } else {
      assert LowerAngle(d) == d + Turns(0);
    }
  }

  /** After the two loops the angle difference lies in [-pi, pi], differs
      from the original by whole turns, and is untouched when it was already
      in range. */
  lemma NormalizedAngleFacts(d: real)
    ensures -PI <= NormalizedAngle(d) <= PI
    ensures exists k: int :: NormalizedAngle(d) == d + Turns(k)
    ensures -PI <= d <= PI ==> NormalizedAngle(d) == d
  {
    RaiseAngleFacts(d);
    LowerAngleFacts(RaiseAngle(d));
    var k1: int :| RaiseAngle(d) == d + Turns(k1);
    var k2: int :| LowerAngle(RaiseAngle(d)) == RaiseAngle(d) + Turns(k2);
    assert NormalizedAngle(d) == d + Turns(k1 + k2);
  }

  /** Math.max(-turnSpeed, Math.min(turnSpeed, diff)). */
  function ClampTurn(turnSpeed: real, diff: real): (turn: real)
    requires 0.0 <= turnSpeed
    ensures Abs(turn) <= turnSpeed
    ensures Abs(diff) <= turnSpeed ==> turn == diff
    ensures diff > turnSpeed ==> turn == turnSpeed
    ensures diff < -turnSpeed ==> turn == -turnSpeed
  {
    var hi := if turnSpeed < diff then turnSpeed else diff;
    if -turnSpeed > hi then -turnSpeed else hi
  }

  /** The velocity of heading angle + turn at the given speed. */
  function Heading(m: MathFns, angle: real, turn: real, speed: real): Point
  {
    Point(m.cos(angle + turn) * speed, m.sin(angle + turn) * speed)
  }

  /** A point moved by velocity v for dt seconds. */
  function MoveBy(p: Point, v: Point, dt: real): Point
  {
    Point(p.x + v.x * dt, p.y + v.y * dt)
  }

  /** Whether food f counts for hunting: strictly within 1000 of the head. */
  function FoodMask(head: Point, foods: seq<Point>): (mask: seq<bool>)
    ensures |mask| == |foods|
    ensures forall j :: 0 <= j < |foods| ==> (mask[j] <==> Within(foods[j], head, 1000.0))
  {
    seq(|foods|, j requires 0 <= j < |foods| => Within(foods[j], head, 1000.0))
  }

  /** A snake threatens the enemy `self` when it is another snake whose head
      is strictly within 400 and whose length exceeds 1.2 times self's. */
  predicate Threatens(self: object, head: Point, length: int, other: SnakeView)
  {
    && other.owner != self
    && |other.segments| > 0
    && Within(other.segments[0], head, 400.0)
    && other.length as real > length as real * 1.2
  }

  function ThreatMask(self: object, head: Point, length: int, snakes: seq<SnakeView>): (mask: seq<bool>)
    ensures |mask| == |snakes|
    ensures forall k :: 0 <= k < |snakes| ==> (mask[k] <==> Threatens(self, head, length, snakes[k]))
  {
    seq(|snakes|, k requires 0 <= k < |snakes| => Threatens(self, head, length, snakes[k]))
  }

  function Heads(snakes: seq<SnakeView>): (hs: seq<Point>)
    requires AllHaveHeads(snakes)
    ensures |hs| == |snakes|
    ensures forall k :: 0 <= k < |snakes| ==> hs[k] == snakes[k].segments[0]
  {
    seq(|snakes|, k requires 0 <= k < |snakes| => snakes[k].segments[0])
  }

  /** What decideMove settles before obstacle avoidance. */
  datatype Decision = Decision(state: EnemyState, targetAngle: real, changeDirTimer: int, wanderAngle: real)

  /** The state machine of decideMove. `threat` and `food` are the results of
      the two nearest-scans; `draw` is the Math.random value the wander branch
      uses when its timer runs out. */
  function Plan(m: MathFns, head: Point, threat: Option<Point>, food: Option<Point>,
                changeDirTimer: int, wanderAngle: real, draw: real): Decision
  {
    if threat.Some? && Within(threat.value, head, 200.0) then
      Decision(Fleeing, m.atan2(head.y - threat.value.y, head.x - threat.value.x), changeDirTimer, wanderAngle)
    else if food.Some? then
      Decision(Hunting, m.atan2(food.value.y - head.y, food.value.x - head.x), changeDirTimer, wanderAngle)
    else if changeDirTimer + 1 > 50 then
      var w := wanderAngle + (draw - 0.5) * 2.0;
      Decision(Wandering, w, 0, w)
    else
      Decision(Wandering, wanderAngle, changeDirTimer + 1, wanderAngle)
  }

  /** The nearest threat, as a point, when there is one. */
  function ThreatHead(self: object, head: Point, length: int, snakes: seq<SnakeView>): Option<Point>
    requires AllHaveHeads(snakes)
  {
    var t := NearestAmong(head, Heads(snakes), ThreatMask(self, head, length, snakes), |snakes|);
    if t.Some? then Some(snakes[t.value].segments[0]) else None
  }

  function FoodTarget(head: Point, foods: seq<Point>): Option<Point>
  {
    var f := NearestAmong(head, foods, FoodMask(head, foods), |foods|);
    if f.Some? then Some(foods[f.value]) else None
  }

  /** The state the enemy picks: fleeing exactly when some threatening snake
      has its head strictly within 200, otherwise hunting exactly when some
      food is strictly within 1000, otherwise wandering. The wander angle
      and timer change only while wandering; the angle is redrawn only when
      the incremented timer exceeds 50, which resets the timer to 0. */
  lemma PlanStates(m: MathFns, self: object, head: Point, length: int, snakes: seq<SnakeView>,
                   foods: seq<Point>, changeDirTimer: int, wanderAngle: real, draw: real)
    requires AllHaveHeads(snakes)
    ensures var p := Plan(m, head, ThreatHead(self, head, length, snakes), FoodTarget(head, foods),
                          changeDirTimer, wanderAngle, draw);
            var threatClose := exists k :: 0 <= k < |snakes| && Threatens(self, head, length, snakes[k])
                                                             && Within(snakes[k].segments[0], head, 200.0);
            var foodClose := exists j :: 0 <= j < |foods| && Within(foods[j], head, 1000.0);
            && (p.state == Fleeing <==> threatClose)
            && (p.state == Hunting <==> !threatClose && foodClose)
            && (p.state == Wandering <==> !threatClose && !foodClose)
            && (p.state != Wandering ==> p.changeDirTimer == changeDirTimer && p.wanderAngle == wanderAngle)
            && (p.state == Wandering && changeDirTimer + 1 > 50 ==>
                  p.changeDirTimer == 0 && p.wanderAngle == wanderAngle + (draw - 0.5) * 2.0)
            && (p.state == Wandering && changeDirTimer + 1 <= 50 ==>
                  p.changeDirTimer == changeDirTimer + 1 && p.wanderAngle == wanderAngle)
            && (p.state == Wandering ==> p.targetAngle == p.wanderAngle)
  {
    var hs := Heads(snakes);
    var tm := ThreatMask(self, head, length, snakes);
    NearestAmongIsFirstNearest(head, hs, tm, |snakes|);
    var fm := FoodMask(head, foods);
    NearestAmongIsFirstNearest(head, foods, fm, |foods|);
    var threatClose := exists k :: 0 <= k < |snakes| && Threatens(self, head, length, snakes[k])
                                                     && Within(snakes[k].segments[0], head, 200.0);
    var t := NearestAmong(head, hs, tm, |snakes|);
    if threatClose {
      var k :| 0 <= k < |snakes| && Threatens(self, head, length, snakes[k])
                                 && Within(snakes[k].segments[0], head, 200.0);
      assert tm[k];
      assert t.Some?;
      assert DistSq(hs[t.value], head) <= DistSq(hs[k], head);
    } else if t.Some? {
      assert tm[t.value];
      assert !Within(hs[t.value], head, 200.0);
    }
    if exists j :: 0 <= j < |foods| && Within(foods[j], head, 1000.0) {
      var j :| 0 <= j < |foods| && Within(foods[j], head, 1000.0);
      assert fm[j];
    }
  }

  /** The look-ahead point, 100 ahead of the head along the current heading. */
  function LookAhead(m: MathFns, head: Point, v: Point): Point
  {
    var a := m.atan2(v.y, v.x);
    Point(head.x + m.cos(a) * 100.0, head.y + m.sin(a) * 100.0)
  }

  /** Some even-indexed segment of another snake whose head is not farther
      than 500 from self's head lies strictly closer to the look-ahead point
      than the two thicknesses plus 20. */
  predicate Imminent(self: object, head: Point, thickness: real, look: Point, snakes: seq<SnakeView>)
    requires AllHaveHeads(snakes)
  {
    exists k, i :: 0 <= k < |snakes| && 0 <= i < |snakes[k].segments| && i % 2 == 0
                   && snakes[k].owner != self
                   && !Beyond(snakes[k].segments[0], head, 500.0)
                   && Within(look, snakes[k].segments[i], thickness + snakes[k].thickness + 20.0)
  }

  /** The head after the enemy's own wrap of the world edges. */
  function WrapHead(b: Body, width: real, height: real): (r: Body)
    requires |b.segments| > 0 && 0.0 <= width && 0.0 <= height
    ensures |r.segments| == |b.segments| && r.segments[1..] == b.segments[1..]
    ensures 0.0 <= r.segments[0].x <= width && 0.0 <= r.segments[0].y <= height
    ensures r.length == b.length && r.growAmount == b.growAmount
  {
    b.(segments := b.segments[0 := Wrap(b.segments[0], width, height)])
  }

  class EnemySnake {
    var segments: seq<Point>
    var growAmount: int
    var length: int
    var speed: real
    var thickness: real
    var vx: real
    var vy: real
    const color: string
    const worldWidth: real
    const worldHeight: real
    const turnSpeed: real
    var state: EnemyState
    var targetAngle: Option<real>
    var changeDirTimer: int
    var wanderAngle: real

    function BodyOf(): Body
      reads this
    {
      Body(segments, length, growAmount)
    }

    function Velocity(): Point
      reads this
    {
      Point(vx, vy)
    }

    function Head(): Point
      reads this
      requires |segments| > 0
    {
      segments[0]
    }

    ghost predicate Valid()
      reads this
    {
      Bounded(BodyOf()) && 0.0 <= worldWidth && 0.0 <= worldHeight && 0.0 <= turnSpeed
    }

    function View(): SnakeView
      reads this
    {
      SnakeView(this, segments, length, thickness)
    }

    /** constructor(x, y, color, worldWidth, worldHeight): one draw picks the
        size class, the body is rebuilt to that length, and a second draw
        sets the wander angle in [0, 2 pi). The velocity is still the one
        the player's constructor leaves: straight up at SNAKE_SPEED. */
    constructor (x: real, y: real, color: string, worldWidth: real, worldHeight: real, rng: Rng)
      requires rng.Valid() && 0.0 <= worldWidth && 0.0 <= worldHeight
      modifies rng`cursor
      ensures Valid()
      ensures rng.cursor == old(rng.cursor) + 2
      ensures var c := SizeClassOf(rng.stream(old(rng.cursor)));
              length == c.length && thickness == c.thickness && speed == c.speed
      ensures length == 100 || length == 15 || length == 40
      ensures segments == Column(x, y, length as nat) && |segments| == length
      ensures growAmount == 0 && Velocity() == Point(0.0, -Config.SNAKE_SPEED)
      ensures this.color == color && this.worldWidth == worldWidth && this.worldHeight == worldHeight
      ensures turnSpeed == 0.15 && state == Hunting && targetAngle == None && changeDirTimer == 0
      ensures wanderAngle == Scale(rng.stream(old(rng.cursor) + 1), TWO_PI)
      ensures 0.0 <= wanderAngle < TWO_PI
    {
      var sizeVariance := rng.Next();
      var c := SizeClassOf(sizeVariance);
      var body := BuildColumn(x, y, c.length);
      var r := rng.Next();
      this.color := color;
      this.worldWidth := worldWidth;
      this.worldHeight := worldHeight;
      turnSpeed := 0.15;
      growAmount := 0;
      vx, vy := 0.0, -Config.SNAKE_SPEED;
      length, thickness, speed := c.length, c.thickness, c.speed;
      segments := body;
      state := Hunting;
      targetAngle := None;
      changeDirTimer := 0;
      wanderAngle := Scale(r, TWO_PI);
    }

    /** grow(): one more unit of pending growth. */
    method Grow()
      modifies this`growAmount
      ensures growAmount == old(growAmount) + Config.GROWTH_AMOUNT
    {
      growAmount := growAmount + Config.GROWTH_AMOUNT;
    }

    /** The food loop of decideMove (hypot(food - head) as Math.sqrt of the
        squared distance). */
    method NearestFood(m: MathFns, foods: seq<Point>) returns (best: Option<nat>)
      requires m.Lawful() && |segments| > 0
      ensures best == NearestAmong(segments[0], foods, FoodMask(segments[0], foods), |foods|)
    {
      var head := segments[0];
      var mask := FoodMask(head, foods);
      best := None;
      var minFoodDist := 0.0;
      var i := 0;
      while i < |foods|
        invariant 0 <= i <= |foods|
        invariant best == NearestAmong(head, foods, mask, i)
        invariant best.Some? ==> minFoodDist == m.sqrt(DistSq(foods[best.value], head))
      {
        var dist := m.sqrt(DistSq(foods[i], head));
        SqrtBelow(m, foods[i], head, 1000.0);
        if best.Some? {
          DistSqNonNegative(foods[i], head);
          DistSqNonNegative(foods[best.value], head);
          SqrtMonotone(m, DistSq(foods[i], head), DistSq(foods[best.value], head));
        }
        if (best.None? || dist < minFoodDist) && dist < 1000.0 {
          minFoodDist := dist;
          best := Some(i);
        }
        i := i + 1;
      }
    }

    /** The threat loop of decideMove. */
    method NearestThreat(m: MathFns, snakes: seq<SnakeView>) returns (best: Option<nat>)
      requires m.Lawful() && |segments| > 0 && AllHaveHeads(snakes)
      ensures best == NearestAmong(segments[0], Heads(snakes),
                                   ThreatMask(this, segments[0], length, snakes), |snakes|)
    {
      var head := segments[0];
      var hs := Heads(snakes);
      var mask := ThreatMask(this, head, length, snakes);
      best := None;
      var minThreatDist := 0.0;
      var k := 0;
      while k < |snakes|
        invariant 0 <= k <= |snakes|
        invariant best == NearestAmong(head, hs, mask, k)
        invariant best.Some? ==> minThreatDist == m.sqrt(DistSq(hs[best.value], head))
      {
        var other := snakes[k];
        if other.owner == this {
          k := k + 1;
          continue;
        }
        var dist := m.sqrt(DistSq(other.segments[0], head));
        SqrtBelow(m, other.segments[0], head, 400.0);
        if best.Some? {
          DistSqNonNegative(other.segments[0], head);
          DistSqNonNegative(hs[best.value], head);
          SqrtMonotone(m, DistSq(other.segments[0], head), DistSq(hs[best.value], head));
        }
        if dist < 400.0 {
          if other.length as real > length as real * 1.2 {
            if best.None? || dist < minThreatDist {
              minThreatDist := dist;
              best := Some(k);
            }
          }
        }
        k := k + 1;
      }
    }

    /** The obstacle scan of avoidObstacles: other snakes whose head is not
        farther than 500, every second segment, stopping at the first one
        strictly closer to the look-ahead point than the two thicknesses
        plus 20. */
    method CollisionImminent(m: MathFns, snakes: seq<SnakeView>) returns (imminent: bool)
      requires m.Lawful() && |segments| > 0 && AllHaveHeads(snakes)
      ensures imminent <==> Imminent(this, segments[0], thickness,
                                     LookAhead(m, segments[0], Velocity()), snakes)
    {
      var head := segments[0];
      var look := LookAhead(m, head, Velocity());
      imminent := false;
      var k := 0;
      while k < |snakes|
        invariant 0 <= k <= |snakes|
        invariant !imminent
        invariant forall k', i :: 0 <= k' < k && 0 <= i < |snakes[k'].segments| && i % 2 == 0
                   && snakes[k'].owner != this && !Beyond(snakes[k'].segments[0], head, 500.0)
                   ==> !Within(look, snakes[k'].segments[i], thickness + snakes[k'].thickness + 20.0)
      {
        var other := snakes[k];
        if other.owner == this {
          k := k + 1;
          continue;
        }
        SqrtAbove(m, other.segments[0], head, 500.0);
        if m.sqrt(DistSq(other.segments[0], head)) > 500.0 {
          k := k + 1;
          continue;
        }
        var i := 0;
        while i < |other.segments|
          invariant 0 <= i && i % 2 == 0
          invariant forall i' :: 0 <= i' < i && i' < |other.segments| && i' % 2 == 0
                      ==> !Within(look, other.segments[i'], thickness + other.thickness + 20.0)
          decreases |other.segments| - i
        {
          var seg := other.segments[i];
          SqrtBelow(m, look, seg, thickness + other.thickness + 20.0);
          if m.sqrt(DistSq(look, seg)) < thickness + other.thickness + 20.0 {
            imminent := true;
            return;
          }
          i := i + 2;
        }
        k := k + 1;
      }
    }

    /** avoidObstacles(snakes): a quarter turn added to the target angle
        exactly when a collision is imminent. */
    method AvoidObstacles(m: MathFns, snakes: seq<SnakeView>)
      requires m.Lawful() && |segments| > 0 && AllHaveHeads(snakes) && targetAngle.Some?
      modifies this`targetAngle
      ensures targetAngle == Some(old(targetAngle.value)
                 + (if Imminent(this, segments[0], thickness, LookAhead(m, segments[0], Velocity()), snakes)
                    then PI / 2.0 else 0.0))
    {
      var collisionImminent := CollisionImminent(m, snakes);
      if collisionImminent {
        targetAngle := Some(targetAngle.value + PI / 2.0);
      }
    }

    /** The two nearest-scans of decideMove, as points. */
    method Targets(m: MathFns, foods: seq<Point>, snakes: seq<SnakeView>)
      returns (threat: Option<Point>, food: Option<Point>)
      requires m.Lawful() && |segments| > 0 && AllHaveHeads(snakes)
      ensures threat == ThreatHead(this, segments[0], length, snakes)
      ensures food == FoodTarget(segments[0], foods)
    {
      var nearestFood := NearestFood(m, foods);
      var nearestThreat := NearestThreat(m, snakes);
      food := if nearestFood.Some? then Some(foods[nearestFood.value]) else None;
      threat := if nearestThreat.Some? then Some(snakes[nearestThreat.value].segments[0]) else None;
    }

    /** The state machine of decideMove, given the results of the two
        nearest-scans. Math.random is drawn once, only when the wander timer runs
        out. */
    method ChooseTarget(m: MathFns, nearestThreat: Option<Point>, nearestFood: Option<Point>, rng: Rng)
      requires m.Lawful() && |segments| > 0 && rng.Valid()
      modifies this`state, this`targetAngle, this`changeDirTimer, this`wanderAngle, rng`cursor
      ensures var p := Plan(m, segments[0], nearestThreat, nearestFood, old(changeDirTimer), old(wanderAngle),
                            rng.stream(old(rng.cursor)));
              && state == p.state && changeDirTimer == p.changeDirTimer && wanderAngle == p.wanderAngle
              && targetAngle == Some(p.targetAngle)
      ensures rng.cursor == old(rng.cursor) + (if state == Wandering && old(changeDirTimer) + 1 > 50 then 1 else 0)
    {
      var head := segments[0];
      if nearestThreat.Some? {
        SqrtBelow(m, nearestThreat.value, head, 200.0);
      }
      if nearestThreat.Some? && m.sqrt(DistSq(nearestThreat.value, head)) < 200.0 {
        state := Fleeing;
        var t := nearestThreat.value;
        targetAngle := Some(m.atan2(head.y - t.y, head.x - t.x));
      } else if nearestFood.Some? {
        state := Hunting;
        var f := nearestFood.value;
        targetAngle := Some(m.atan2(f.y - head.y, f.x - head.x));
      } else {
        state := Wandering;
        changeDirTimer := changeDirTimer + 1;
        if changeDirTimer > 50 {
          var r := rng.Next();
          wanderAngle := wanderAngle + (r - 0.5) * 2.0;
          changeDirTimer := 0;
        }
        targetAngle := Some(wanderAngle);
      }
    }

    /** decideMove(foods, snakes): choose a target, then avoid obstacles. */
    method DecideMove(m: MathFns, foods: seq<Point>, snakes: seq<SnakeView>, rng: Rng)
      requires m.Lawful() && |segments| > 0 && AllHaveHeads(snakes) && rng.Valid()
      modifies this`state, this`targetAngle, this`changeDirTimer, this`wanderAngle, rng`cursor
      ensures var p := Plan(m, segments[0], ThreatHead(this, segments[0], length, snakes),
                            FoodTarget(segments[0], foods), old(changeDirTimer), old(wanderAngle),
                            rng.stream(old(rng.cursor)));
              && state == p.state && changeDirTimer == p.changeDirTimer && wanderAngle == p.wanderAngle
              && targetAngle == Some(p.targetAngle
                   + (if Imminent(this, segments[0], thickness, LookAhead(m, segments[0], Velocity()), snakes)
                      then PI / 2.0 else 0.0))
      ensures rng.cursor == old(rng.cursor) + (if state == Wandering && old(changeDirTimer) + 1 > 50 then 1 else 0)
    {
      var nearestThreat, nearestFood := Targets(m, foods, snakes);
      ChooseTarget(m, nearestThreat, nearestFood, rng);
      AvoidObstacles(m, snakes);
    }

    /** The turn of update: the angle difference to the target normalised
        into [-pi, pi], clamped to turnSpeed, and the velocity set to that
        heading at the snake's speed. */
    method TurnTowardsTarget(m: MathFns)
      requires targetAngle.Some? && 0.0 <= turnSpeed
      modifies this`vx, this`vy
      ensures var a := m.atan2(old(vy), old(vx));
              Velocity() == Heading(m, a, ClampTurn(turnSpeed, NormalizedAngle(targetAngle.value - a)), speed)
    {
      var currentAngle := m.atan2(vy, vx);
      var diff := NormalizeAngle(targetAngle.value - currentAngle);
      var turn := ClampTurn(turnSpeed, diff);
      var newAngle := currentAngle + turn;
      vx := m.cos(newAngle) * speed;
      vy := m.sin(newAngle) * speed;
    }

    /** The move of update: the head displaced by velocity * deltaTime, the
        body advanced, and the new head wrapped around the world edges. */
    method Move(deltaTime: real)
      requires Valid()
      modifies this`segments, this`length, this`growAmount
      ensures Valid()
      ensures BodyOf() == WrapHead(Advance(old(BodyOf()), MoveBy(old(segments)[0], Velocity(), deltaTime)),
                                   worldWidth, worldHeight)
    {
      var newHead := MoveBy(segments[0], Velocity(), deltaTime);
      ghost var advanced := Advance(BodyOf(), newHead);
      AdvanceBody(newHead);
      assert BodyOf() == advanced;
      segments := segments[0 := Wrap(segments[0], worldWidth, worldHeight)];
    }

    /** update(deltaTime, foods, snakes): decide, turn, move. */
    method Update(m: MathFns, deltaTime: real, foods: seq<Point>, snakes: seq<SnakeView>, rng: Rng)
      requires Valid() && m.Lawful() && AllHaveHeads(snakes) && rng.Valid()
      modifies this, rng`cursor
      ensures Valid()
      ensures targetAngle.Some?
      ensures var a := m.atan2(old(vy), old(vx));
              Velocity() == Heading(m, a, ClampTurn(turnSpeed, NormalizedAngle(targetAngle.value - a)), speed)
      ensures BodyOf() == WrapHead(Advance(old(BodyOf()), MoveBy(old(segments)[0], Velocity(), deltaTime)),
                                   worldWidth, worldHeight)
      ensures var p := Plan(m, old(segments)[0], ThreatHead(this, old(segments)[0], old(length), snakes),
                            FoodTarget(old(segments)[0], foods), old(changeDirTimer), old(wanderAngle),
                            rng.stream(old(rng.cursor)));
              && state == p.state && changeDirTimer == p.changeDirTimer && wanderAngle == p.wanderAngle
              && targetAngle == Some(p.targetAngle
                   + (if Imminent(this, old(segments)[0], old(thickness),
                                  LookAhead(m, old(segments)[0], old(Velocity())), snakes)
                      then PI / 2.0 else 0.0))
      ensures rng.cursor == old(rng.cursor) + (if state == Wandering && old(changeDirTimer) + 1 > 50 then 1 else 0)
      ensures speed == old(speed) && thickness == old(thickness)
    {
      DecideMove(m, foods, snakes, rng);
      if targetAngle.Some? {
        TurnTowardsTarget(m);
      }
      Move(deltaTime);
    }

    /** The unshift / grow / pop sequence of update. */
    method AdvanceBody(head: Point)
      requires Valid()
      modifies this`segments, this`length, this`growAmount
      ensures BodyOf() == Advance(old(BodyOf()), head)
      ensures Valid()
    {
      AdvanceKeepsBounded(BodyOf(), head);
      segments := [head] + segments;
      if growAmount > 0 {
        length := length + 1;
        growAmount := growAmount - 1;
      }
      if |segments| > length {
        segments := segments[..|segments| - 1];
      }
    }
  }

  /** The two normalisation loops of update. */
  method NormalizeAngle(d: real) returns (diff: real)
    ensures diff == NormalizedAngle(d)
  {
    diff := d;
    while diff < -PI
      invariant RaiseAngle(diff) == RaiseAngle(d)
      decreases (-PI - diff).Floor
    {
      diff := diff + PI * 2.0;
    }
    while diff > PI
      invariant LowerAngle(diff) == NormalizedAngle(d)
      decreases (diff - PI).Floor
    {
      diff := diff - PI * 2.0;
    }
  }
}

=== FILE: env.dfy ===
/** The .env loader of the expanded game (js/env.js): the text of the file
    is split into lines, comment and blank lines are skipped, and every line
    with an '=' binds the trimmed text before its first '=' to the trimmed
    text after it. Values are looked up with a fallback, and numbered keys
    PREFIX_1, PREFIX_2, ... are collected into a list. */
module EnvLoading {
  import opened Common

  /** What fetching the file gives: a network failure (the fetch throws), a
      response that is not ok, or the file's text. */
  datatype Response = NetworkError | NotOk | Ok(text: string)

  /** The first index of c in s. */
  function IndexOf(s: string, c: char): (r: Option<nat>)
    ensures r.None? <==> c !in s
    ensures r.Some? ==> r.value < |s| && s[r.value] == c && c !in s[..r.value]
  {
    if |s| == 0 then None
    else if s[0] == c then Some(0)
    else
      var r := IndexOf(s[1..], c);
      if r.None? then None
      else
        assert s[..r.value + 1] == [s[0]] + s[1..][..r.value];
        Some(r.value + 1)
  }

  /** String.prototype.split with a one-character separator. */
  function Split(s: string, c: char): (parts: seq<string>)
    ensures |parts| >= 1
    ensures forall k :: 0 <= k < |parts| ==> c !in parts[k]
    decreases |s|
  {
    var i := IndexOf(s, c);
    if i.None? then [s] else [s[..i.value]] + Split(s[i.value + 1..], c)
  }

  /** Array.prototype.join with a one-character separator. */
  function Join(parts: seq<string>, c: char): string
  {
    if |parts| == 0 then ""
    else if |parts| == 1 then parts[0]
    else parts[0] + [c] + Join(parts[1..], c)
  }

  /** Joining the pieces of a split gives back the text. */
  lemma {:induction false} JoinSplit(s: string, c: char)
    ensures Join(Split(s, c), c) == s
    decreases |s|
  {
    var i := IndexOf(s, c);
    if i.Some? {
      var rest := s[i.value + 1..];
      var tail := Split(rest, c);
      JoinSplit(rest, c);
      var parts := [s[..i.value]] + tail;
      assert Split(s, c) == parts;
      assert parts[1..] == tail;
      assert Join(parts, c) == s[..i.value] + [c] + Join(tail, c);
      assert s == s[..i.value] + [c] + rest;
    }
  }

  /** `const [key, ...valueParts] = line.split('=')` followed by
      `valueParts.join('=')`: the key is the text before the first '=' and
      the value everything after it, other '=' signs included. */
  lemma SplitAtFirst(line: string, c: char)
    requires c in line
    ensures var i := IndexOf(line, c).value;
            && Split(line, c)[0] == line[..i]
            && |Split(line, c)| > 1
            && Join(Split(line, c)[1..], c) == line[i + 1..]
  {
    var i := IndexOf(line, c).value;
    assert Split(line, c)[1..] == Split(line[i + 1..], c);
    JoinSplit(line[i + 1..], c);
  }

  /** The characters String.prototype.trim removes. */
  predicate IsSpace(ch: char)
  {
    || ch == ' ' || ch == '\t' || ch == '\n' || ch == '\r' || ch == '\U{000B}' || ch == '\U{000C}'
    || ch == '\U{00A0}' || ch == '\U{FEFF}' || ch == '\U{1680}' || ('\U{2000}' <= ch <= '\U{200A}')
    || ch == '\U{2028}' || ch == '\U{2029}' || ch == '\U{202F}' || ch == '\U{205F}' || ch == '\U{3000}'
  }

  function TrimStart(s: string): (r: string)
    ensures |r| <= |s|
  {
    if |s| > 0 && IsSpace(s[0]) then TrimStart(s[1..]) else s
  }

  /** TrimStart cuts only white space, and leaves none at the front. */
  lemma {:induction false} TrimStartFacts(s: string)
    ensures var r := TrimStart(s);
            && r == s[|s| - |r|..]
            && (forall k :: 0 <= k < |s| - |r| ==> IsSpace(s[k]))
            && (|r| > 0 ==> !IsSpace(r[0]))
    decreases |s|
  {
    if |s| > 0 && IsSpace(s[0]) {
      TrimStartFacts(s[1..]);
      var r := TrimStart(s);
      assert s[1..][|s| - 1 - |r|..] == s[|s| - |r|..];
      forall k | 0 <= k < |s| - |r|
        ensures IsSpace(s[k])
      {
        if k > 0 {
          assert s[k] == s[1..][k - 1];
        }
      }
    }
  }

  function TrimEnd(s: string): (r: string)
    ensures |r| <= |s|
  {
    if |s| > 0 && IsSpace(s[|s| - 1]) then TrimEnd(s[..|s| - 1]) else s
  }

  /** TrimEnd cuts only white space, and leaves none at the back. */
  lemma {:induction false} TrimEndFacts(s: string)
    ensures var r := TrimEnd(s);
            && r == s[..|r|]
            && (forall k :: |r| <= k < |s| ==> IsSpace(s[k]))
            && (|r| > 0 ==> !IsSpace(r[|r| - 1]))
    decreases |s|
  {
    if |s| > 0 && IsSpace(s[|s| - 1]) {
      TrimEndFacts(s[..|s| - 1]);
      var r := TrimEnd(s);
      assert s[..|s| - 1][..|r|] == s[..|r|];
      forall k | |r| <= k < |s|
        ensures IsSpace(s[k])
      {
        if k < |s| - 1 {
          assert s[k] == s[..|s| - 1][k];
        }
      }
    }
  }

  /** String.prototype.trim. */
  function Trim(s: string): string
  {
    TrimEnd(TrimStart(s))
  }

  /** A trimmed string is a piece of the original with only white space cut
      from either end, and has none left at either end. */
  lemma TrimFacts(s: string)
    ensures exists i, j :: 0 <= i <= j <= |s| && Trim(s) == s[i..j]
              && (forall k :: 0 <= k < i ==> IsSpace(s[k]))
              && (forall k :: j <= k < |s| ==> IsSpace(s[k]))
    ensures |Trim(s)| > 0 ==> !IsSpace(Trim(s)[0]) && !IsSpace(Trim(s)[|Trim(s)| - 1])
  {
    var t := TrimStart(s);
    TrimStartFacts(s);
    TrimEndFacts(t);
    var i := |s| - |t|;
    var j := i + |TrimEnd(t)|;
    assert Trim(s) == s[i..j];
    forall k | j <= k < |s|
      ensures IsSpace(s[k])
    {
      assert s[k] == t[k - i];
    }
    if |Trim(s)| > 0 {
      assert Trim(s)[0] == t[0];
    }
  }

  /** A string with no white space at either end is its own trim. */
  lemma AlreadyTrimmed(s: string)
    requires |s| > 0 && !IsSpace(s[0]) && !IsSpace(s[|s| - 1])
    ensures Trim(s) == s
  {
  }

  /** The lines the loop skips: blank once trimmed, or a comment. */
  predicate Skipped(line: string)
  {
    var t := Trim(line);
    |t| == 0 || t[0] == '#'
  }

  /** One line of the loop applied to the map. */
  function ParseLine(env: map<string, string>, line: string): map<string, string>
  {
    if Skipped(line) then env
    else
      var i := IndexOf(line, '=');
      if i.None? || i.value == 0 then env
      else env[Trim(line[..i.value]) := Trim(line[i.value + 1..])]
  }

  function ParseLines(env: map<string, string>, lines: seq<string>): map<string, string>
    decreases |lines|
  {
    if lines == [] then env else ParseLines(ParseLine(env, lines[0]), lines[1..])
  }

  /** Blank and comment lines, and lines without '=', add nothing. */
  lemma IgnoredLines(env: map<string, string>, line: string)
    requires Skipped(line) || '=' !in line
    ensures ParseLine(env, line) == env
  {
  }

  /** A line `key=value` whose key holds no '=' binds the trimmed key to the
      whole trimmed value, later '=' signs included. */
  lemma KeyValueLine(env: map<string, string>, key: string, value: string)
    requires '=' !in key && key != ""
    requires !Skipped(key + "=" + value)
    ensures Binds(key + "=" + value, Trim(key), Trim(value))
    ensures ParseLine(env, key + "=" + value) == env[Trim(key) := Trim(value)]
  {
    var line := key + "=" + value;
    assert line[|key|] == '=';
    assert line[..|key|] == key;
    var i := IndexOf(line, '=');
    assert i.Some?;
    assert i.value == |key|;
    assert line[|key| + 1..] == value;
  }

  /** "A=b=c" binds A to "b=c". */
  lemma EverythingAfterFirstEquals()
    ensures ParseLine(map[], "A=b=c") == map["A" := "b=c"]
  {
    var line := "A=b=c";
    assert line == "A" + "=" + "b=c";
    AlreadyTrimmed(line);
    AlreadyTrimmed("A");
    AlreadyTrimmed("b=c");
    KeyValueLine(map[], "A", "b=c");
  }

  /** The line binds key to value: it is neither blank nor a comment, its
      first '=' has a non-empty key before it, and the trimmed texts on
      either side are key and value. */
  predicate Binds(line: string, key: string, value: string)
  {
    && !Skipped(line)
    && var i := IndexOf(line, '=');
       && i.Some? && i.value > 0
       && key == Trim(line[..i.value]) && value == Trim(line[i.value + 1..])
  }

  lemma BindsUpdates(env: map<string, string>, line: string, key: string, value: string)
    requires Binds(line, key, value)
    ensures ParseLine(env, line) == env[key := value]
  {
  }

  /** Parsing one more line applies that line to the map the earlier lines
      built. */
  lemma {:induction false} ParseLinesSnoc(env: map<string, string>, lines: seq<string>, line: string)
    ensures ParseLines(env, lines + [line]) == ParseLine(ParseLines(env, lines), line)
    decreases |lines|
  {
    if lines == [] {
      assert [] + [line] == [line];
      assert [line][1..] == [];
    } else {
      var next := ParseLine(env, lines[0]);
      assert (lines + [line])[0] == lines[0];
      assert (lines + [line])[1..] == lines[1..] + [line];
      ParseLinesSnoc(next, lines[1..], line);
    }
  }

  /** A non-empty list of lines is its front part followed by its last line. */
  lemma ParseLinesLast(env: map<string, string>, lines: seq<string>)
    requires |lines| > 0
    ensures ParseLines(env, lines) == ParseLine(ParseLines(env, lines[..|lines| - 1]), lines[|lines| - 1])
  {
    assert lines == lines[..|lines| - 1] + [lines[|lines| - 1]];
    ParseLinesSnoc(env, lines[..|lines| - 1], lines[|lines| - 1]);
  }

  /** The last line that binds a key decides its value. */
  lemma LaterLineWins(env: map<string, string>, lines: seq<string>, key: string, value: string)
    requires |lines| > 0 && Binds(lines[|lines| - 1], key, value)
    ensures key in ParseLines(env, lines) && ParseLines(env, lines)[key] == value
  {
    var init := lines[..|lines| - 1];
    ParseLinesLast(env, lines);
    BindsUpdates(ParseLines(env, init), lines[|lines| - 1], key, value);
  }

  /** The decimal digits of n, as a template literal prints them. */
  function NatToString(n: nat): (s: string)
    ensures |s| >= 1
    ensures n >= 10 ==> |s| >= 2
    decreases n
  {
    if n < 10 then [Digit(n)] else NatToString(n / 10) + [Digit(n % 10)]
  }

  /** The character of one decimal digit. */
  function Digit(d: nat): char
    requires d < 10
  {
    "0123456789"[d]
  }

  /** Different digits print differently. */
  lemma DigitInjective(a: nat, b: nat)
    requires a < 10 && b < 10 && Digit(a) == Digit(b)
    ensures a == b
  {
  }

  lemma {:induction false} NatToStringInjective(a: nat, b: nat)
    requires NatToString(a) == NatToString(b)
    ensures a == b
    decreases a
  {
    var s := NatToString(a);
    if a < 10 && b < 10 {
      DigitInjective(a, b);
    } else if a >= 10 && b >= 10 {
      var pa, pb := NatToString(a / 10), NatToString(b / 10);
      assert s == pa + [Digit(a % 10)] == pb + [Digit(b % 10)];
      assert pa == s[..|s| - 1] == pb;
      DigitInjective(a % 10, b % 10);
      NatToStringInjective(a / 10, b / 10);
      assert a == 10 * (a / 10) + a % 10;
      assert b == 10 * (b / 10) + b % 10;
    }
  }

  /** The key `${prefix}_${index}`. */
  function NumberedKey(prefix: string, index: nat): string
  {
    prefix + "_" + NatToString(index)
  }

  lemma NumberedKeyInjective(prefix: string, a: nat, b: nat)
    requires NumberedKey(prefix, a) == NumberedKey(prefix, b)
    ensures a == b
  {
    var n := |prefix| + 1;
    assert NatToString(a) == NumberedKey(prefix, a)[n..];
    assert NatToString(b) == NumberedKey(prefix, b)[n..];
    NatToStringInjective(a, b);
  }

  /** The keys prefix_1 ... prefix_n. */
  function NumberedKeys(prefix: string, n: nat): set<string>
  {
    set i | 1 <= i <= n :: NumberedKey(prefix, i)
  }

  lemma {:induction false} NumberedKeysCount(prefix: string, n: nat)
    ensures |NumberedKeys(prefix, n)| == n
    decreases n
  {
    if n > 0 {
      NumberedKeysCount(prefix, n - 1);
      assert NumberedKeys(prefix, n) == NumberedKeys(prefix, n - 1) + {NumberedKey(prefix, n)};
      if NumberedKey(prefix, n) in NumberedKeys(prefix, n - 1) {
        var i :| 1 <= i <= n - 1 && NumberedKey(prefix, i) == NumberedKey(prefix, n);
        NumberedKeyInjective(prefix, i, n);
      }
    }
  }

  lemma {:induction false} SubsetSize<T>(a: set<T>, b: set<T>)
    requires a <= b
    ensures |a| <= |b|
    decreases a
  {
    if a != {} {
      var x :| x in a;
      SubsetSize(a - {x}, b - {x});
    }
  }

  /** When prefix_1 ... prefix_index are all keys, there are at least index
      keys: the bound that ends getArray's loop. */
  lemma NumberedKeysWithin(keys: set<string>, prefix: string, index: nat)
    requires 1 <= index && NumberedKeys(prefix, index - 1) <= keys && NumberedKey(prefix, index) in keys
    ensures NumberedKeys(prefix, index) <= keys && index <= |keys|
  {
    assert NumberedKeys(prefix, index) == NumberedKeys(prefix, index - 1) + {NumberedKey(prefix, index)};
    NumberedKeysCount(prefix, index);
    SubsetSize(NumberedKeys(prefix, index), keys);
  }

  /** `this.env[key]` is truthy: present and not the empty string. */
  predicate Truthy(env: map<string, string>, key: string)
  {
    key in env && env[key] != ""
  }

  class EnvLoader {
    var env: map<string, string>
    var loaded: bool

    constructor ()
      ensures env == map[] && !loaded
    {
      env := map[];
      loaded := false;
    }

    /** load(), with the outcome of fetching '.env'. A loaded loader returns
        its cached map without looking at the response; a failed fetch
        leaves it unloaded and unchanged; a text is parsed line by line into
        the map, which then counts as loaded. */
    method Load(response: Response) returns (result: map<string, string>)
      modifies this
      ensures old(loaded) ==> env == old(env) && loaded && result == old(env)
      ensures !old(loaded) && !response.Ok? ==> env == old(env) && !loaded && result == env
      ensures !old(loaded) && response.Ok? ==>
                env == ParseLines(old(env), Split(response.text, '\n')) && loaded && result == env
    {
      if loaded {
        return env;
      }
      if !response.Ok? {
        return env;
      }
      var lines := Split(response.text, '\n');
      var n := 0;
      while n < |lines|
        invariant 0 <= n <= |lines|
        invariant ParseLines(env, lines[n..]) == ParseLines(old(env), lines)
        invariant !loaded
      {
        var line := lines[n];
        assert lines[n..][1..] == lines[n + 1..];
        var trimmed := Trim(line);
        if |trimmed| > 0 && trimmed[0] != '#' {
          var eq := IndexOf(line, '=');
          if eq.Some? && eq.value > 0 {
            env := env[Trim(line[..eq.value]) := Trim(line[eq.value + 1..])];
          }
        }
        n := n + 1;
      }
      loaded := true;
      return env;
    }

    /** get(key, fallback): the value when it is present and not empty, the
        fallback otherwise. */
    function Get(key: string, fallback: Option<string>): (r: Option<string>)
      reads this
      ensures Truthy(env, key) ==> r == Some(env[key])
      ensures !Truthy(env, key) ==> r == fallback
    {
      if key in env && env[key] != "" then Some(env[key]) else fallback
    }

    /** getArray(prefix): the values of prefix_1, prefix_2, ... up to the
        first key that is missing or empty. */
    method GetArray(prefix: string) returns (result: seq<string>)
      ensures forall k :: 1 <= k <= |result| ==>
                Truthy(env, NumberedKey(prefix, k)) && result[k - 1] == env[NumberedKey(prefix, k)]
      ensures !Truthy(env, NumberedKey(prefix, |result| + 1))
      ensures |result| <= |env.Keys|
    {
      result := [];
      var index := 1;
      while Truthy(env, NumberedKey(prefix, index))
        invariant index == |result| + 1
        invariant forall k :: 1 <= k <= |result| ==>
                    Truthy(env, NumberedKey(prefix, k)) && result[k - 1] == env[NumberedKey(prefix, k)]
        invariant NumberedKeys(prefix, index - 1) <= env.Keys
        invariant index - 1 <= |env.Keys|
        decreases |env.Keys| - (index - 1)
      {
        NumberedKeysWithin(env.Keys, prefix, index);
        result := result + [env[NumberedKey(prefix, index)]];
        index := index + 1;
      }
    }
  }
}

=== FILE: food.dfy ===
/** Food of the expanded game (js/classes/Food.js): a point with a radius that
    is placed either exactly where the caller says or by a bounded number of
    random attempts that try to keep clear of a snake's body. */
module Foods {
  import opened Common
  import opened Geometry
  import Config

  /** The position a pair of random draws in [0, 1) gives: a margin of 20 on
      every side of the world. */
  function Candidate(r1: real, r2: real, worldWidth: real, worldHeight: real): Point
  {
    Point(Scale(r1, worldWidth - 40.0) + 20.0, Scale(r2, worldHeight - 40.0) + 20.0)
  }

  /** Every sampled position lies in [20, W - 20) x [20, H - 20). */
  lemma CandidateInWorld(r1: real, r2: real, worldWidth: real, worldHeight: real)
    requires 0.0 <= r1 < 1.0 && 0.0 <= r2 < 1.0
    requires 40.0 < worldWidth && 40.0 < worldHeight
    ensures 20.0 <= Candidate(r1, r2, worldWidth, worldHeight).x < worldWidth - 20.0
    ensures 20.0 <= Candidate(r1, r2, worldWidth, worldHeight).y < worldHeight - 20.0
  {
  }

  /** The candidate drawn by attempt k of a spawn whose first draw is
      stream(base). */
  function CandidateAt(stream: nat -> real, base: nat, k: nat, worldWidth: real, worldHeight: real): Point
  {
    Candidate(stream(base + 2 * k), stream(base + 2 * k + 1), worldWidth, worldHeight)
  }

  /** One attempt's two draws, the k-th of a spawn whose first draw was
      number base. */
  method DrawCandidate(rng: Rng, worldWidth: real, worldHeight: real, ghost base: nat, ghost k: nat)
    returns (c: Point)
    requires rng.Valid() && rng.cursor == base + 2 * k
    modifies rng`cursor
    ensures rng.cursor == old(rng.cursor) + 2
    ensures c == CandidateAt(rng.stream, base, k, worldWidth, worldHeight)
  {
    var r1 := rng.Next();
    var r2 := rng.Next();
    c := Candidate(r1, r2, worldWidth, worldHeight);
  }

  /** p keeps a distance of at least 50 from every tenth segment (indices
      0, 10, 20, ...). */
  predicate ClearOf(segments: seq<Point>, p: Point)
  {
    forall i :: 0 <= i < |segments| && i % 10 == 0 ==> !Within(p, segments[i], 50.0)
  }

  /** A candidate is accepted when no body is given (the source passes null)
      or when it is clear of the given body. */
  predicate Accepts(segments: Option<seq<Point>>, p: Point)
  {
    segments.None? || ClearOf(segments.value, p)
  }

  /** The stride-10 scan of one attempt, stopping at the first segment that
      is too close. */
  method ScanClear(segments: seq<Point>, p: Point) returns (valid: bool)
    ensures valid <==> ClearOf(segments, p)
  {
    valid := true;
    var i := 0;
    while i < |segments|
      invariant 0 <= i
      invariant i % 10 == 0
      invariant forall j :: 0 <= j < i && j < |segments| && j % 10 == 0 ==> !Within(p, segments[j], 50.0)
      invariant valid
      decreases |segments| - i
    {
      if Within(p, segments[i], 50.0) {
        valid := false;
        return;
      }
      assert forall j :: i < j < i + 10 ==> j % 10 != 0;
      i := i + 10;
    }
  }

  class Food {
    const gameWidth: real
    const gameHeight: real
    var x: real
    var y: real
    const radius: real

    function Position(): Point
      reads this
    {
      Point(x, y)
    }

    constructor (gameWidth: real, gameHeight: real)
      ensures this.gameWidth == gameWidth && this.gameHeight == gameHeight
      ensures x == 0.0 && y == 0.0 && radius == Config.FOOD_RADIUS
    {
      this.gameWidth := gameWidth;
      this.gameHeight := gameHeight;
      x, y := 0.0, 0.0;
      radius := Config.FOOD_RADIUS;
    }

    /** spawn(snakeSegments, worldWidth, worldHeight, x, y). With both x and
        y given, the food goes exactly there and nothing is drawn. Otherwise
        up to 50 attempts draw a candidate each; the first accepted one is
        kept, and when all 50 are refused the last candidate is kept anyway. */
    method Spawn(snakeSegments: Option<seq<Point>>, worldWidth: real, worldHeight: real,
                 px: Option<real>, py: Option<real>, rng: Rng)
      requires rng.Valid()
      modifies this`x, this`y, rng`cursor
      ensures px.Some? && py.Some? ==>
                x == px.value && y == py.value && rng.cursor == old(rng.cursor)
      ensures !(px.Some? && py.Some?) ==>
                && old(rng.cursor) + 2 <= rng.cursor <= old(rng.cursor) + 100
                && (rng.cursor - old(rng.cursor)) % 2 == 0
                && Position() == Candidate(rng.stream(rng.cursor - 2), rng.stream(rng.cursor - 1),
                                           worldWidth, worldHeight)
                && (Accepts(snakeSegments, Position()) || rng.cursor == old(rng.cursor) + 100)
                && (forall k: nat :: 2 * k + 2 < rng.cursor - old(rng.cursor) ==>
                      !Accepts(snakeSegments, CandidateAt(rng.stream, old(rng.cursor), k, worldWidth, worldHeight)))
    {
      if px.Some? && py.Some? {
        x := px.value;
        y := py.value;
        return;
      }
      var valid := false;
      var attempts := 0;
      while !valid && attempts < 50
        invariant 0 <= attempts <= 50
        invariant rng.cursor == old(rng.cursor) + 2 * attempts
        invariant attempts > 0 ==>
          Position() == CandidateAt(rng.stream, old(rng.cursor), attempts - 1, worldWidth, worldHeight)
        invariant valid ==> attempts > 0 && Accepts(snakeSegments, Position())
        invariant forall k: nat :: k + 1 < attempts ==>
          !Accepts(snakeSegments, CandidateAt(rng.stream, old(rng.cursor), k, worldWidth, worldHeight))
        invariant !valid ==> forall k: nat :: k < attempts ==>
          !Accepts(snakeSegments, CandidateAt(rng.stream, old(rng.cursor), k, worldWidth, worldHeight))
      {
        var c := DrawCandidate(rng, worldWidth, worldHeight, old(rng.cursor), attempts);
        x, y := c.x, c.y;
        valid := true;
        if snakeSegments.Some? {
          valid := ScanClear(snakeSegments.value, Point(x, y));
        }
        attempts := attempts + 1;
      }
    }
  }
}

=== FILE: game.dfy ===
/** The game object of the expanded version (js/classes/Game.js): the
    player, the enemies, the foods, the power-ups on the field and the timed
    effects in force, the score and its multiplier, and the running and
    paused flags that gate the animation loop. Rendering, audio, taunts and
    the particle effects are not part of the model; the clocks and
    Math.random are parameters. */
module Games {
  import opened Common
  import opened Geometry
  import opened Body
  import opened Config
  import opened PowerUps
  import opened Themes
  import opened Collisions
  import opened Effects
  import opened Feeding
  import Foods
  import Snakes
  import Enemies

  /** The six colours spawnEnemy picks from. */
  const ENEMY_COLORS: seq<string> := ["#ff0000", "#ff00ff", "#ffff00", "#00ffff", "#ff8800", "#00ff00"]

  /** The enemy spawn timer fires once it exceeds this many seconds. */
  const ENEMY_SPAWN_INTERVAL: real := 2.0

  /** Points for a killed enemy. */
  const KILL_BONUS: int := 500

  /** The enemy list went from before to after only by kills, each of which
      added KILL_BONUS to the score. */
  predicate Paid(before: seq<object>, after: seq<object>, score0: int, score1: int)
  {
    |after| <= |before| && score0 + KILL_BONUS * (|before| - |after|) <= score1
  }

  /** spawnEnemy's colour index: floor(random * 6). */
  function ColorIndex(r: real): (k: int)
    requires 0.0 <= r < 1.0
    ensures 0 <= k < |ENEMY_COLORS|
  {
    ScaleBelow(r, 6.0);
    (r * 6.0).Floor
  }

  /** s without its element at index k: splice(k, 1). */
  function Without<T>(s: seq<T>, k: nat): (r: seq<T>)
    requires k < |s|
    ensures |r| == |s| - 1
    ensures forall i :: 0 <= i < k ==> r[i] == s[i]
    ensures forall i :: k <= i < |r| ==> r[i] == s[i + 1]
    ensures forall x :: x in r ==> x in s
  {
    s[..k] + s[k + 1..]
  }

  /** Once the enemy at k is gone, a second splice at k removes the enemy
      that followed it: this is what killEnemy(index) does when an enemy
      that has just been killed by the player then touches another enemy. */
  lemma SecondKillTakesSuccessor<T>(s: seq<T>, k: nat)
    requires k + 1 < |s|
    ensures Without(Without(s, k), k) == s[..k] + s[k + 2..]
    ensures Without(Without(s, k), k)[..k] == s[..k]
  {
    assert Without(s, k)[..k] == s[..k];
    assert Without(s, k)[k + 1..] == s[k + 2..];
  }

  /** Splicing out the last element of a prefix that a backward pass has
      not yet reached. */
  lemma SpliceAtPrefixEnd<T>(s: seq<T>, i: nat, rest: seq<T>)
    requires i < |s|
    ensures Without(s[..i + 1] + rest, i) == s[..i] + rest
    ensures s[..i + 1] + rest == s[..i] + ([s[i]] + rest)
  {
    assert s[..i + 1] == s[..i] + [s[i]];
  }

  /** What the collision tests see of each enemy. */
  function ViewsOf(es: seq<Enemies.EnemySnake>): (vs: seq<SnakeView>)
    reads es
    ensures |vs| == |es|
    ensures forall i :: 0 <= i < |es| ==> vs[i] == es[i].View()
    ensures (forall i :: 0 <= i < |es| ==> |es[i].segments| > 0) ==> AllHaveHeads(vs)
  {
    seq(|es|, i reads es requires 0 <= i < |es| => es[i].View())
  }

  /** The enemy vs enemy test of update: the head touches the body of some
      enemy whose index is not k. */
  predicate HitsOther(head: Point, vs: seq<SnakeView>, k: nat)
    requires AllHaveHeads(vs)
  {
    exists j :: 0 <= j < |vs| && j != k && SnakeHit(head, vs[j])
  }

  /** The loop over the enemies in EnemyClash: index k is skipped, and the
      loop stops at the first body the head touches. */
  method ScanOthers(m: MathFns, head: Point, vs: seq<SnakeView>, k: nat) returns (hit: bool)
    requires m.Lawful() && AllHaveHeads(vs)
    ensures hit <==> HitsOther(head, vs, k)
  {
    var j := 0;
    while j < |vs|
      invariant 0 <= j <= |vs|
      invariant forall i :: 0 <= i < j && i != k ==> !SnakeHit(head, vs[i])
    {
      if j != k {
        hit := CheckCollisionWithSnake(m, head, vs[j]);
        if hit {
          return;
        }
      }
      j := j + 1;
    }
    hit := false;
  }

  /** The speed index start() reads: parseInt(speedSelect.value) || 3. A
      value that is not a number (None) and the value 0 are both falsy, so
      both give DEFAULT_SPEED_INDEX; any other number is taken as it is. */
  function SpeedIndex(choice: Option<int>): (i: int)
    ensures choice.Some? && choice.value != 0 ==> i == choice.value
    ensures choice.None? || choice.value == 0 ==> i == DEFAULT_SPEED_INDEX as int
  {
    if choice.Some? && choice.value != 0 then choice.value else DEFAULT_SPEED_INDEX
  }

  /** Because 0 is falsy, no selection makes start() take the first speed
      option. */
  lemma FirstSpeedOptionUnreachable(choice: Option<int>)
    ensures SpeedIndex(choice) != 0
  {
  }

  /** The foods start() creates: FOOD_COUNT foods, the k-th placed by the
      k-th pair of draws from draw number base on. */
  function InitialFoods(stream: nat -> real, base: nat, width: real, height: real): (fs: seq<Point>)
    ensures |fs| == FOOD_COUNT
    ensures forall k :: 0 <= k < FOOD_COUNT ==> fs[k] == Foods.CandidateAt(stream, base, k, width, height)
  {
    seq(FOOD_COUNT, k requires 0 <= k < FOOD_COUNT => Foods.CandidateAt(stream, base, k, width, height))
  }

  /** Every initial food lies in [20, width - 20) x [20, height - 20). */
  lemma InitialFoodsInWorld(stream: nat -> real, base: nat, width: real, height: real)
    requires UnitStream(stream) && 40.0 < width && 40.0 < height
    ensures var fs := InitialFoods(stream, base, width, height);
            forall k :: 0 <= k < |fs| ==> 20.0 <= fs[k].x < width - 20.0 && 20.0 <= fs[k].y < height - 20.0
  {
    var fs := InitialFoods(stream, base, width, height);
    forall k | 0 <= k < |fs|
      ensures 20.0 <= fs[k].x < width - 20.0 && 20.0 <= fs[k].y < height - 20.0
    {
      Foods.CandidateInWorld(stream(base + 2 * k), stream(base + 2 * k + 1), width, height);
    }
  }

  class Game {
    const worldWidth: real := WORLD_WIDTH
    const worldHeight: real := WORLD_HEIGHT
    const maxEnemies: nat := MAX_ENEMIES
    const snake: Snakes.Snake
    const themeManager: ThemeManager
    var running: bool
    var paused: bool
    var score: int
    var scoreMultiplier: int
    /** performance.now() of the last frame, in milliseconds. */
    var lastTime: real
    var frameCount: int
    /** The food items; the game only ever reads their positions. */
    var foods: seq<Point>
    var powerUps: seq<PowerUp>
    var activePowerUps: seq<Effect>
    var enemies: seq<Enemies.EnemySnake>
    /** Seconds since the last enemy spawn. */
    var enemySpawnTimer: real

    /** The player's body and the theme index stay well formed, the enemies
        are well formed and never more than maxEnemies, every power-up and
        effect comes from the table, and the multiplier is at least 1. */
    ghost predicate Valid()
      reads this, snake, themeManager, enemies
    {
      && snake.Valid() && themeManager.Valid()
      && |enemies| <= maxEnemies
      && (forall i :: 0 <= i < |enemies| ==> enemies[i].Valid())
      && (forall i :: 0 <= i < |powerUps| ==> powerUps[i].kind in POWERUP_TYPES)
      && (forall i :: 0 <= i < |activePowerUps| ==> activePowerUps[i].kind in POWERUP_TYPES)
      && 1 <= scoreMultiplier
    }

    /** The part of the state that effects act on. */
    function BoostsOf(): Boosts
      reads this, snake
    {
      Boosts(snake.speed, snake.ghostMode, scoreMultiplier)
    }

    /** constructor(canvas): a stopped game with a score of 0 and a
        multiplier of 1, no foods, power-ups, effects or enemies, the first
        theme, and the player in the middle of the world. */
    constructor ()
      ensures Valid() && fresh(snake) && fresh(themeManager)
      ensures !running && !paused && score == 0 && scoreMultiplier == 1
      ensures lastTime == 0.0 && frameCount == 0 && enemySpawnTimer == 0.0
      ensures foods == [] && powerUps == [] && activePowerUps == [] && enemies == []
      ensures themeManager.currentIndex == 0 && themeManager.themes == THEMES
      ensures snake.segments == Column(WORLD_WIDTH / 2.0, WORLD_HEIGHT / 2.0, Snakes.RESET_LENGTH as nat)
      ensures snake.speed == SNAKE_SPEED && !snake.ghostMode
    {
      running, paused := false, false;
      score, scoreMultiplier := 0, 1;
      lastTime, frameCount := 0.0, 0;
      themeManager := new ThemeManager();
      snake := new Snakes.Snake(WORLD_WIDTH / 2.0, WORLD_HEIGHT / 2.0);
      foods, powerUps, activePowerUps := [], [], [];
      enemies := [];
      enemySpawnTimer := 0.0;
    }

    /** stop(): the game no longer runs; nothing else of the model changes. */
    method Stop()
      modifies this`running
      ensures !running
    {
      running := false;
    }

    /** togglePause(now): ignored unless the game runs; otherwise the paused
        flag flips, and on resuming the frame clock restarts at now and the
        loop is scheduled again. */
    method TogglePause(now: real) returns (scheduled: bool)
      modifies this`paused, this`lastTime
      ensures !old(running) ==> !scheduled && paused == old(paused) && lastTime == old(lastTime)
      ensures old(running) ==> paused == !old(paused)
      ensures old(running) && !paused ==> scheduled && lastTime == now
      ensures old(running) && paused ==> !scheduled && lastTime == old(lastTime)
    {
      scheduled := false;
      if !running {
        return;
      }
      paused := !paused;
      if !paused {
        lastTime := now;
        scheduled := true;
      }
    }

    /** handleWallWrapping(): the player's head re-enters at the opposite
        edge; the rest of the body stays where it was. */
    method HandleWallWrapping()
      requires snake.Valid()
      modifies snake`segments
      ensures snake.Valid()
      ensures |snake.segments| == |old(snake.segments)|
      ensures snake.segments[0] == Wrap(old(snake.segments[0]), worldWidth, worldHeight)
      ensures snake.segments[1..] == old(snake.segments[1..])
      ensures 0.0 <= snake.segments[0].x <= worldWidth && 0.0 <= snake.segments[0].y <= worldHeight
    {
      var head := snake.segments[0];
      snake.segments := snake.segments[0 := Wrap(head, worldWidth, worldHeight)];
    }

    /** killEnemy(index): a food at every second segment of the enemy,
        KILL_BONUS points, and the enemy spliced out of the list. */
    method KillEnemy(index: nat)
      requires index < |enemies| && |enemies[index].segments| > 0
      modifies this`foods, this`score, this`enemies
      ensures foods == old(foods) + EvenPositions(old(enemies[index].segments))
      ensures score == old(score) + KILL_BONUS
      ensures enemies == Without(old(enemies), index)
    {
      var segs := enemies[index].segments;
      var i := 0;
      while i < |segs|
        invariant 0 <= i <= |segs| + 1 && i % 2 == 0
        invariant foods == old(foods) + EvenPositions(segs)[..i / 2]
        invariant enemies == old(enemies) && score == old(score)
        decreases |segs| - i
      {
        assert EvenPositions(segs)[..i / 2 + 1] == EvenPositions(segs)[..i / 2] + [segs[i]];
        foods := foods + [segs[i]];
        i := i + 2;
      }
      assert EvenPositions(segs)[..i / 2] == EvenPositions(segs);
      score := score + KILL_BONUS;
      enemies := enemies[..index] + enemies[index + 1..];
    }
  
    /** collectPowerUp(powerUp) at clock time now: one effect record of
        EFFECT_DURATION is pushed and the power-up's kind is applied. */
    method CollectPowerUp(p: PowerUp, now: int)
      requires Valid() && p.kind in POWERUP_TYPES
      modifies this`activePowerUps, this`scoreMultiplier, snake`speed, snake`ghostMode
      ensures Valid()
      ensures activePowerUps == old(activePowerUps) + [Effect(p.kind, now, EFFECT_DURATION)]
      ensures BoostsOf() == Apply(old(BoostsOf()), p.kind)
    {
      var effect := Effect(p.kind, now, EFFECT_DURATION);
      activePowerUps := activePowerUps + [effect];
      TableWellFormed(p.kind);
      if p.kind.name == "speed" {
        snake.speed := snake.speed * p.kind.speedMultiplier.value;
      } else if p.kind.name == "slow" {
        snake.speed := snake.speed * p.kind.speedMultiplier.value;
      } else if p.kind.name == "ghost" {
        snake.ghostMode := true;
      } else if p.kind.name == "multiplier" {
        scoreMultiplier := p.kind.scoreMultiplier.value;
      }
    }

    /** The removal of one lapsed effect in the expiry pass. */
    method RevertEffect(k: PowerUpKind)
      requires Valid() && k in POWERUP_TYPES
      modifies this`scoreMultiplier, snake`speed, snake`ghostMode
      ensures Valid()
      ensures BoostsOf() == Revert(old(BoostsOf()), k)
    {
      TableWellFormed(k);
      if k.name == "speed" || k.name == "slow" {
        snake.speed := snake.speed / k.speedMultiplier.value;
      } else if k.name == "ghost" {
        snake.ghostMode := false;
      } else if k.name == "multiplier" {
        scoreMultiplier := 1;
      }
    }

    /** spawnPowerUp(): one chance draw; below SPAWN_CHANCE, three more draws
        give the table entry and a position 50 inside the world edges. */
    method SpawnPowerUp(now: int, rng: Rng)
      requires rng.Valid()
      modifies this`powerUps, rng`cursor
      ensures powerUps == old(powerUps) + SpawnedFrom(rng.stream, old(rng.cursor), now, worldWidth, worldHeight)
      ensures rng.cursor == old(rng.cursor) + SpawnDraws(rng.stream, old(rng.cursor))
      ensures (forall i :: 0 <= i < |old(powerUps)| ==> old(powerUps)[i].kind in POWERUP_TYPES) ==>
                forall i :: 0 <= i < |powerUps| ==> powerUps[i].kind in POWERUP_TYPES
    {
      var chance := rng.Next();
      if chance < SPAWN_CHANCE {
        var p := DrawPowerUp(now, rng);
        powerUps := powerUps + [p];
      }
    }

    /** The three draws of spawnPowerUp after its chance draw, and the
        PowerUp they construct. */
    method DrawPowerUp(now: int, rng: Rng) returns (p: PowerUp)
      requires rng.Valid()
      modifies rng`cursor
      ensures rng.cursor == old(rng.cursor) + 3
      ensures p == SpawnedPowerUp(rng.stream, old(rng.cursor), now, worldWidth, worldHeight)
    {
      ghost var c := rng.cursor;
      var r := rng.Next();
      var typeIndex := KindIndex(r);
      var kind := POWERUP_TYPES[typeIndex];
      var rx := rng.Next();
      var x := rx * (worldWidth - 100.0) + 50.0;
      var ry := rng.Next();
      var y := ry * (worldHeight - 100.0) + 50.0;
      TablePowerUpIsNew(typeIndex, x, y, now);
      p := NewPowerUp(x, y, kind, now).value;
    }

    /** spawnEnemy(): below the cap, one colour draw and a new enemy (two
        more draws) at the given position is appended; at the cap nothing
        happens. The position stands for the result of the source's
        rejection loop. */
    method SpawnEnemy(spawnAt: Point, rng: Rng)
      requires Valid() && rng.Valid()
      modifies this`enemies, rng`cursor
      ensures Valid()
      ensures |old(enemies)| >= maxEnemies ==> enemies == old(enemies) && rng.cursor == old(rng.cursor)
      ensures |old(enemies)| < maxEnemies ==>
                && |enemies| == |old(enemies)| + 1 && enemies[..|old(enemies)|] == old(enemies)
                && fresh(enemies[|old(enemies)|])
                && enemies[|old(enemies)|].color == ENEMY_COLORS[ColorIndex(rng.stream(old(rng.cursor)))]
                && enemies[|old(enemies)|].segments == Column(spawnAt.x, spawnAt.y, enemies[|old(enemies)|].length as nat)
                && rng.cursor == old(rng.cursor) + 3
    {
      if |enemies| < maxEnemies {
        var r := rng.Next();
        var color := ENEMY_COLORS[ColorIndex(r)];
        var e := new Enemies.EnemySnake(spawnAt.x, spawnAt.y, color, worldWidth, worldHeight, rng);
        enemies := enemies + [e];
      }
    }

    /** The power-up pass of update, from the last power-up to the first:
        an expired one is dropped, an unexpired one the head touches is
        collected and dropped. */
    method PowerUpPass(m: MathFns, now: int)
      requires Valid() && m.Lawful()
      modifies this`powerUps, this`activePowerUps, this`scoreMultiplier, snake`speed, snake`ghostMode
      ensures Valid()
      ensures var taken := Collected(old(powerUps), snake.segments[0], snake.thickness, now);
              && powerUps == Staying(old(powerUps), snake.segments[0], snake.thickness, now)
              && activePowerUps == old(activePowerUps) + EffectsOf(taken, now)
              && BoostsOf() == ApplyAll(old(BoostsOf()), taken)
    {
      ghost var ps := powerUps;
      ghost var effects := activePowerUps;
      ghost var boosts := BoostsOf();
      var head := snake.segments[0];
      var thickness := snake.thickness;
      var i := |powerUps|;
      while i > 0
        invariant 0 <= i <= |ps|
        invariant Valid()
        invariant powerUps == ps[..i] + Staying(ps[i..], head, thickness, now)
        invariant activePowerUps == effects + EffectsOf(Collected(ps[i..], head, thickness, now), now)
        invariant BoostsOf() == ApplyAll(boosts, Collected(ps[i..], head, thickness, now))
      {
        i := i - 1;
        PowerUpStep(m, now, ps, effects, boosts, head, thickness, i);
      }
      assert ps[0..] == ps;
    }

    /** One iteration of the power-up pass, at index i. */
    method PowerUpStep(m: MathFns, now: int, ghost ps: seq<PowerUp>, ghost effects: seq<Effect>,
                       ghost boosts: Boosts, head: Point, thickness: real, i: nat)
      requires Valid() && m.Lawful() && i < |ps|
      requires forall j :: 0 <= j < |ps| ==> ps[j].kind in POWERUP_TYPES
      requires powerUps == ps[..i + 1] + Staying(ps[i + 1..], head, thickness, now)
      requires activePowerUps == effects + EffectsOf(Collected(ps[i + 1..], head, thickness, now), now)
      requires BoostsOf() == ApplyAll(boosts, Collected(ps[i + 1..], head, thickness, now))
      modifies this`powerUps, this`activePowerUps, this`scoreMultiplier, snake`speed, snake`ghostMode
      ensures Valid()
      ensures powerUps == ps[..i] + Staying(ps[i..], head, thickness, now)
      ensures activePowerUps == effects + EffectsOf(Collected(ps[i..], head, thickness, now), now)
      ensures BoostsOf() == ApplyAll(boosts, Collected(ps[i..], head, thickness, now))
    {
      var p := powerUps[i];
      assert p == ps[i];
      ghost var staying := Staying(ps[i + 1..], head, thickness, now);
      ghost var before := Collected(ps[i + 1..], head, thickness, now);
      PowerUpPassStep(ps, i, head, thickness, now);
      SpliceAtPrefixEnd(ps, i, staying);
      if IsExpired(p, now) {
        assert Staying(ps[i..], head, thickness, now) == staying;
        assert Collected(ps[i..], head, thickness, now) == before;
        DropPowerUp(i);
      } else {
        var hit := CheckCollision(m, p, head, thickness);
        if hit {
          assert Staying(ps[i..], head, thickness, now) == staying;
          assert Collected(ps[i..], head, thickness, now) == before + [p.kind];
          CollectAndDrop(p, now, i, before, effects, boosts);
        } else {
          assert Staying(ps[i..], head, thickness, now) == [p] + staying;
          assert Collected(ps[i..], head, thickness, now) == before;
        }
      }
    }

    /** The collecting branch of the power-up pass: collect, then splice. */
    method CollectAndDrop(p: PowerUp, now: int, i: nat, ghost before: seq<PowerUpKind>,
                          ghost effects: seq<Effect>, ghost boosts: Boosts)
      requires Valid() && i < |powerUps| && powerUps[i] == p
      requires forall j :: 0 <= j < |before| ==> before[j] in POWERUP_TYPES
      requires activePowerUps == effects + EffectsOf(before, now)
      requires BoostsOf() == ApplyAll(boosts, before)
      modifies this`powerUps, this`activePowerUps, this`scoreMultiplier, snake`speed, snake`ghostMode
      ensures Valid()
      ensures powerUps == Without(old(powerUps), i)
      ensures activePowerUps == effects + EffectsOf(before + [p.kind], now)
      ensures BoostsOf() == ApplyAll(boosts, before + [p.kind])
    {
      ApplyOneMore(boosts, before, p.kind, now);
      CollectPowerUp(p, now);
      DropPowerUp(i);
    }

    /** The expiry pass of update, from the last effect to the first: an
        effect whose duration has elapsed is reverted and dropped. */
    method ExpiryPass(now: int)
      requires Valid()
      modifies this`activePowerUps, this`scoreMultiplier, snake`speed, snake`ghostMode
      ensures Valid()
      ensures activePowerUps == Ongoing(old(activePowerUps), now)
      ensures BoostsOf() == RevertAll(old(BoostsOf()), Lapsing(old(activePowerUps), now))
    {
      ghost var es := activePowerUps;
      ghost var boosts := BoostsOf();
      var i := |activePowerUps|;
      while i > 0
        invariant 0 <= i <= |es|
        invariant Valid()
        invariant activePowerUps == es[..i] + Ongoing(es[i..], now)
        invariant BoostsOf() == RevertAll(boosts, Lapsing(es[i..], now))
      {
        i := i - 1;
        ExpiryStep(now, es, boosts, i);
      }
      assert es[0..] == es;
    }

    /** One iteration of the expiry pass, at index i. */
    method ExpiryStep(now: int, ghost es: seq<Effect>, ghost boosts: Boosts, i: nat)
      requires Valid() && i < |es|
      requires forall j :: 0 <= j < |es| ==> es[j].kind in POWERUP_TYPES
      requires activePowerUps == es[..i + 1] + Ongoing(es[i + 1..], now)
      requires BoostsOf() == RevertAll(boosts, Lapsing(es[i + 1..], now))
      modifies this`activePowerUps, this`scoreMultiplier, snake`speed, snake`ghostMode
      ensures Valid()
      ensures activePowerUps == es[..i] + Ongoing(es[i..], now)
      ensures BoostsOf() == RevertAll(boosts, Lapsing(es[i..], now))
    {
      var effect := activePowerUps[i];
      assert effect == es[i];
      ghost var ongoing := Ongoing(es[i + 1..], now);
      ghost var before := Lapsing(es[i + 1..], now);
      ExpiryPassStep(es, i, now);
      SpliceAtPrefixEnd(es, i, ongoing);
      var elapsed := now - effect.startTime;
      if elapsed >= effect.duration {
        assert Ongoing(es[i..], now) == ongoing;
        assert Lapsing(es[i..], now) == before + [effect.kind];
        RevertAndDrop(effect.kind, i, before, boosts);
      } else {
        assert Ongoing(es[i..], now) == [effect] + ongoing;
        assert Lapsing(es[i..], now) == before;
      }
    }

    /** The reverting branch of the expiry pass: revert, then splice. */
    method RevertAndDrop(k: PowerUpKind, i: nat, ghost before: seq<PowerUpKind>, ghost boosts: Boosts)
      requires Valid() && i < |activePowerUps| && activePowerUps[i].kind == k
      requires forall j :: 0 <= j < |before| ==> before[j] in POWERUP_TYPES
      requires BoostsOf() == RevertAll(boosts, before)
      modifies this`activePowerUps, this`scoreMultiplier, snake`speed, snake`ghostMode
      ensures Valid()
      ensures activePowerUps == Without(old(activePowerUps), i)
      ensures BoostsOf() == RevertAll(boosts, before + [k])
    {
      RevertOneMore(boosts, before, k);
      RevertEffect(k);
      DropEffect(i);
    }

    /** activePowerUps.splice(i, 1). */
    method DropEffect(i: nat)
      requires Valid() && i < |activePowerUps|
      modifies this`activePowerUps
      ensures Valid()
      ensures activePowerUps == Without(old(activePowerUps), i)
    {
      activePowerUps := activePowerUps[..i] + activePowerUps[i + 1..];
    }

    /** powerUps.splice(i, 1). */
    method DropPowerUp(i: nat)
      requires Valid() && i < |powerUps|
      modifies this`powerUps
      ensures Valid()
      ensures powerUps == Without(old(powerUps), i)
    {
      powerUps := powerUps[..i] + powerUps[i + 1..];
    }

    /** Enemy vs player body: an enemy whose head touches the player's body
        is killed with killEnemy(k). */
    method EnemyBitesPlayer(m: MathFns, k: nat, e: Enemies.EnemySnake) returns (killed: bool)
      requires Valid() && m.Lawful() && k < |enemies| && enemies[k] == e
      modifies this`foods, this`score, this`enemies
      ensures Valid()
      ensures killed <==> SnakeHit(e.Head(), snake.View())
      ensures killed ==> && enemies == Without(old(enemies), k) && score == old(score) + KILL_BONUS
                         && foods == old(foods) + EvenPositions(e.segments)
      ensures !killed ==> enemies == old(enemies) && score == old(score) && foods == old(foods)
      ensures old(score) <= score && forall x :: x in enemies ==> x in old(enemies)
    {
      killed := CheckCollisionWithSnake(m, e.Head(), snake.View());
      if killed {
        KillEnemy(k);
      }
    }

    /** Player vs enemy body: unless in ghost mode, the player's head
        touching the body of e stops the game. */
    method PlayerBitesEnemy(m: MathFns, e: Enemies.EnemySnake)
      requires Valid() && m.Lawful() && e.Valid()
      modifies this`running
      ensures running == (old(running) && (snake.ghostMode || !SnakeHit(snake.segments[0], e.View())))
    {
      if !snake.ghostMode {
        var hit := CheckCollisionWithSnake(m, snake.segments[0], e.View());
        if hit {
          Stop();
        }
      }
    }

    /** The enemy vs enemy loop for the enemy e visited at index k: the
        first other index j (k is skipped) whose enemy's body the head of e
        touches makes the game call killEnemy(k) and leave the loop. That
        kills whatever enemy sits at index k by then; when there is none,
        because e was the last one and the player has just killed it,
        killEnemy reads a missing enemy and throws, which is reported as
        crashed and leaves the state as it was. */
    method EnemyClash(m: MathFns, k: nat, e: Enemies.EnemySnake) returns (crashed: bool)
      requires Valid() && m.Lawful() && |e.segments| > 0
      modifies this`foods, this`score, this`enemies
      ensures Valid()
      ensures var hit := HitsOther(e.Head(), old(ViewsOf(enemies)), k);
              && (crashed <==> hit && k >= |old(enemies)|)
              && (!hit || crashed ==> enemies == old(enemies) && foods == old(foods) && score == old(score))
              && (hit && !crashed ==>
                    && enemies == Without(old(enemies), k) && score == old(score) + KILL_BONUS
                    && foods == old(foods) + EvenPositions(old(enemies[k].segments)))
      ensures old(score) <= score && forall x :: x in enemies ==> x in old(enemies)
    {
      var hit := ScanOthers(m, e.Head(), ViewsOf(enemies), k);
      crashed := false;
      if hit {
        if k < |enemies| {
          KillEnemy(k);
        } else {
          crashed := true;
        }
      }
    }

    /** The body of update's enemies.forEach for the enemy at index k: it
        moves (seeing the player and the enemies of the frame's snapshot
        all), eats, may be killed by the player's body, may kill the player,
        and may die against another enemy. */
    method EnemyTurn(m: MathFns, deltaTime: real, k: nat, all: seq<Enemies.EnemySnake>, rng: Rng)
      returns (crashed: bool)
      requires Valid() && m.Lawful() && rng.Valid() && k < |enemies|
      requires forall i :: 0 <= i < |all| ==> all[i].Valid()
      modifies this`foods, this`score, this`enemies, this`running, enemies[k], rng`cursor
      ensures Valid() && forall i :: 0 <= i < |all| ==> all[i].Valid()
      ensures forall x :: x in enemies ==> x in old(enemies)
      ensures running ==> old(running)
      ensures snake.ghostMode ==> running == old(running)
      ensures old(score) <= score
      ensures Paid(old(enemies), enemies, old(score), score)
      ensures crashed ==> |enemies| <= k
    {
      var e := enemies[k];
      EnemyMoves(m, deltaTime, e, all, rng);
      crashed := EnemyFights(m, k, e);
    }

    /** The enemy e decides, turns and moves, seeing the player and the
        snapshot all, and then eats. */
    method EnemyMoves(m: MathFns, deltaTime: real, e: Enemies.EnemySnake, all: seq<Enemies.EnemySnake>, rng: Rng)
      requires Valid() && m.Lawful() && rng.Valid() && e in enemies
      requires forall i :: 0 <= i < |all| ==> all[i].Valid()
      modifies this`foods, e, rng`cursor
      ensures Valid() && forall i :: 0 <= i < |all| ==> all[i].Valid()
    {
      e.Update(m, deltaTime, foods, [snake.View()] + ViewsOf(all), rng);
      var eaten := EnemyEats(m, e, rng);
    }

    /** The three collision tests of the enemy e, visited at index k. */
    method EnemyFights(m: MathFns, k: nat, e: Enemies.EnemySnake) returns (crashed: bool)
      requires Valid() && m.Lawful() && k < |enemies| && enemies[k] == e
      modifies this`foods, this`score, this`enemies, this`running
      ensures Valid()
      ensures forall x :: x in enemies ==> x in old(enemies)
      ensures running ==> old(running)
      ensures snake.ghostMode ==> running == old(running)
      ensures old(score) <= score
      ensures Paid(old(enemies), enemies, old(score), score)
      ensures crashed ==> |enemies| <= k
    {
      var killed := EnemyBitesPlayer(m, k, e);
      PlayerBitesEnemy(m, e);
      crashed := EnemyClash(m, k, e);
    }

    /** enemies.forEach over the enemies update starts with: the callback
        runs for every index below that starting count at which an enemy is
        still present when the index is reached, so an enemy that moves
        down into the slot of a killed one is skipped in this frame. A
        crash leaves the rest of the frame undone. */
    method UpdateEnemies(m: MathFns, deltaTime: real, rng: Rng) returns (crashed: bool)
      requires Valid() && m.Lawful() && rng.Valid()
      modifies this`foods, this`score, this`enemies, this`running, enemies, rng`cursor
      ensures Valid()
      ensures forall x :: x in enemies ==> x in old(enemies)
      ensures running ==> old(running)
      ensures snake.ghostMode ==> running == old(running)
      ensures old(score) <= score
      ensures Paid(old(enemies), enemies, old(score), score)
      ensures crashed ==> |enemies| < |old(enemies)| && old(score) + KILL_BONUS <= score
    {
      var all := enemies;
      crashed := false;
      var k := 0;
      while k < |all|
        invariant Valid() && forall i :: 0 <= i < |all| ==> all[i].Valid()
        invariant forall x :: x in enemies ==> x in old(enemies)
        invariant running ==> old(running)
        invariant snake.ghostMode ==> running == old(running)
        invariant old(score) <= score
        invariant Paid(all, enemies, old(score), score)
      {
        if k < |enemies| {
          assert enemies[k] in enemies;
          crashed := EnemyTurn(m, deltaTime, k, all, rng);
          if crashed {
            return;
          }
        }
        k := k + 1;
      }
    }

    /** An enemy's food loop, from the last food to the first: a food that
        passes the 50 x 50 box check and checkFoodCollision is respawned and
        the enemy grows. */
    method EnemyEats(m: MathFns, e: Enemies.EnemySnake, rng: Rng) returns (eaten: nat)
      requires m.Lawful() && rng.Valid() && e.Valid()
      modifies this`foods, e`growAmount, rng`cursor
      ensures e.Valid()
      ensures Refill(foods, rng.cursor, eaten)
              == EnemyFeeds(Refill(old(foods), old(rng.cursor), 0), e.Head(), e.thickness, rng.stream,
                            worldWidth, worldHeight, |old(foods)|)
      ensures e.growAmount == old(e.growAmount) + eaten * GROWTH_AMOUNT
    {
      ghost var start := Refill(foods, rng.cursor, 0);
      var head := e.Head();
      var thickness := e.thickness;
      eaten := 0;
      var i := |foods|;
      while i > 0
        invariant 0 <= i <= |foods| == |start.foods|
        invariant e.Valid()
        invariant EnemyFeeds(Refill(foods, rng.cursor, eaten), head, thickness, rng.stream, worldWidth, worldHeight, i)
                  == EnemyFeeds(start, head, thickness, rng.stream, worldWidth, worldHeight, |start.foods|)
        invariant e.growAmount == old(e.growAmount) + eaten * GROWTH_AMOUNT
      {
        i := i - 1;
        var food := foods[i];
        if Abs(head.x - food.x) < 50.0 && Abs(head.y - food.y) < 50.0 {
          var hit := Snakes.CheckFoodCollision(m, head, thickness, food, FOOD_RADIUS);
          if hit {
            e.Grow();
            var c := Foods.DrawCandidate(rng, worldWidth, worldHeight, rng.cursor, 0);
            foods := foods[i := c];
            eaten := eaten + 1;
          }
        }
      }
    }

    /** The part of the state the player's food loop changes, as a Meal. */
    function MealOf(cursor: nat, eaten: nat): Meal
      reads this, themeManager
    {
      Meal(foods, cursor, score, eaten, themeManager.currentIndex, powerUps)
    }

    /** The player's food loop, from the last food to the first. */
    method PlayerEats(m: MathFns, now: int, rng: Rng) returns (eaten: nat)
      requires Valid() && m.Lawful() && rng.Valid()
      modifies this`foods, this`score, this`powerUps, snake`growAmount, themeManager`currentIndex, rng`cursor
      ensures Valid()
      ensures MealOf(rng.cursor, eaten)
              == PlayerFeeds(old(MealOf(rng.cursor, 0)), snake.segments[0], snake.thickness, scoreMultiplier,
                             rng.stream, now, themeManager.themes, worldWidth, worldHeight, |old(foods)|)
      ensures snake.growAmount == old(snake.growAmount) + eaten * GROWTH_AMOUNT
    {
      ghost var start := MealOf(rng.cursor, 0);
      var head := snake.segments[0];
      var thickness := snake.thickness;
      eaten := 0;
      var i := |foods|;
      while i > 0
        invariant 0 <= i <= |foods| == |start.foods|
        invariant Valid()
        invariant PlayerFeeds(MealOf(rng.cursor, eaten), head, thickness, scoreMultiplier, rng.stream, now,
                              themeManager.themes, worldWidth, worldHeight, i)
                  == PlayerFeeds(start, head, thickness, scoreMultiplier, rng.stream, now,
                                 themeManager.themes, worldWidth, worldHeight, |start.foods|)
        invariant snake.growAmount == old(snake.growAmount) + eaten * GROWTH_AMOUNT
      {
        i := i - 1;
        var ate := PlayerEatStep(m, now, rng, i, head, thickness, eaten);
        if ate {
          eaten := eaten + 1;
        }
      }
    }

    /** One iteration of the player's food loop, at index i: the box check,
        then checkFoodCollision, then eating. */
    method PlayerEatStep(m: MathFns, now: int, rng: Rng, i: nat, head: Point, thickness: real, ghost eaten: nat)
      returns (ate: bool)
      requires Valid() && m.Lawful() && rng.Valid() && i < |foods|
      modifies this`foods, this`score, this`powerUps, snake`growAmount, themeManager`currentIndex, rng`cursor
      ensures Valid() && |foods| == |old(foods)|
      ensures var after := if ate then eaten + 1 else eaten;
              PlayerFeeds(MealOf(rng.cursor, after), head, thickness, scoreMultiplier, rng.stream, now,
                          themeManager.themes, worldWidth, worldHeight, i)
              == old(PlayerFeeds(MealOf(rng.cursor, eaten), head, thickness, scoreMultiplier, rng.stream, now,
                                 themeManager.themes, worldWidth, worldHeight, i + 1))
      ensures snake.growAmount == old(snake.growAmount) + (if ate then GROWTH_AMOUNT else 0)
    {
      ate := false;
      var food := foods[i];
      if Abs(head.x - food.x) < 50.0 && Abs(head.y - food.y) < 50.0 {
        var hit := Snakes.CheckFoodCollision(m, head, thickness, food, FOOD_RADIUS);
        if hit {
          EatFood(i, now, rng, eaten);
          ate := true;
        }
      }
    }

    /** The player eats food i: FOOD_VALUE times the multiplier is scored,
        the snake grows, the food is respawned, the theme is checked against
        the new score, spawnPowerUp runs, and the taunt test takes one draw
        (the taunt itself is not part of the model). */
    method EatFood(i: nat, now: int, rng: Rng, ghost eaten: nat)
      requires Valid() && rng.Valid() && i < |foods|
      modifies this`foods, this`score, this`powerUps, snake`growAmount, themeManager`currentIndex, rng`cursor
      ensures Valid()
      ensures MealOf(rng.cursor, eaten + 1)
              == EatOne(old(MealOf(rng.cursor, eaten)), i, scoreMultiplier, rng.stream, now,
                        themeManager.themes, worldWidth, worldHeight)
      ensures snake.growAmount == old(snake.growAmount) + GROWTH_AMOUNT
    {
      ghost var before := MealOf(rng.cursor, eaten);
      ScoreFood(i, rng);
      ghost var c := rng.cursor;
      assert c == before.cursor + 2;
      SpawnPowerUp(now, rng);
      assert powerUps == before.powerUps + SpawnedFrom(rng.stream, c, now, worldWidth, worldHeight);
      var tauntDraw := rng.Next();
      EatOneIs(before, i, scoreMultiplier, rng.stream, now, themeManager.themes, worldWidth, worldHeight,
               MealOf(rng.cursor, eaten + 1));
    }

    /** The first half of eating food i: score, grow, respawn the food from
        two draws, check the theme against the new score. */
    method ScoreFood(i: nat, rng: Rng)
      requires themeManager.Valid() && snake.Valid() && rng.Valid() && i < |foods|
      modifies this`foods, this`score, snake`growAmount, themeManager`currentIndex, rng`cursor
      ensures themeManager.Valid() && snake.Valid()
      ensures score == old(score) + FOOD_VALUE * scoreMultiplier
      ensures snake.growAmount == old(snake.growAmount) + GROWTH_AMOUNT
      ensures foods == old(foods)[i := Foods.CandidateAt(rng.stream, old(rng.cursor), 0, worldWidth, worldHeight)]
      ensures rng.cursor == old(rng.cursor) + 2
      ensures themeManager.currentIndex == Progress(themeManager.themes, old(themeManager.currentIndex), score)
    {
      score := score + FOOD_VALUE * scoreMultiplier;
      snake.Grow();
      var c := Foods.DrawCandidate(rng, worldWidth, worldHeight, rng.cursor, 0);
      foods := foods[i := c];
      themeManager.CheckProgression(score);
    }

    /** start() with the menu's two selections as parseInt gives them (None
        for a value that is not a number). On a mobile device held upright
        nothing starts. Otherwise the round is reset; a speed index outside
        SPEED_OPTIONS makes the source throw before the foods are placed and
        before the loop is scheduled. */
    method Start(portraitMobile: bool, themeChoice: Option<int>, speedChoice: Option<int>, now: real, rng: Rng)
      returns (scheduled: bool)
      requires Valid() && rng.Valid()
      modifies this`running, this`paused, this`score, this`scoreMultiplier, this`powerUps, this`activePowerUps
      modifies this`enemies, this`foods, this`lastTime, snake, themeManager`currentIndex, rng`cursor
      ensures Valid()
      ensures portraitMobile ==> !scheduled && unchanged(this, snake, themeManager, rng)
      ensures !portraitMobile ==>
                && running && !paused && score == 0 && scoreMultiplier == 1
                && powerUps == [] && activePowerUps == [] && enemies == []
                && snake.segments == Column(worldWidth / 2.0, worldHeight / 2.0, Snakes.RESET_LENGTH as nat)
                && snake.growAmount == 0 && snake.inputQueue == [] && !snake.ghostMode
                && (scheduled <==> 0 <= SpeedIndex(speedChoice) < |SPEED_OPTIONS|)
      ensures !portraitMobile && themeChoice.Some? && 0 <= themeChoice.value < |themeManager.themes| ==>
                themeManager.currentIndex == themeChoice.value
      ensures !(themeChoice.Some? && 0 <= themeChoice.value < |themeManager.themes|) ==>
                themeManager.currentIndex == old(themeManager.currentIndex)
      ensures scheduled ==>
                && BoostsOf() == StartBoosts(old(BoostsOf()), SPEED_OPTIONS[SpeedIndex(speedChoice)])
                && foods == InitialFoods(rng.stream, old(rng.cursor), worldWidth, worldHeight)
                && rng.cursor == old(rng.cursor) + 2 * FOOD_COUNT && lastTime == now
      ensures !portraitMobile && !scheduled ==>
                snake.speed == old(snake.speed) && foods == old(foods) && lastTime == old(lastTime)
                && rng.cursor == old(rng.cursor)
    {
      scheduled := false;
      if portraitMobile {
        return;
      }
      ResetRound(themeChoice);
      var speedIndex := SpeedIndex(speedChoice);
      if !(0 <= speedIndex < |SPEED_OPTIONS|) {
        // SPEED_OPTIONS[speedIndex] is undefined and reading .value throws
        return;
      }
      snake.speed := SPEED_OPTIONS[speedIndex];
      var fs := PlaceFoods(rng);
      foods := fs;
      lastTime := now;
      scheduled := true;
    }

    /** The resets of start() before the speed is read: running, not
        paused, score 0, multiplier 1, no power-ups, effects or enemies, the
        player reset in the middle of the world with ghost mode off, and the
        selected theme. Ghost mode is cleared here because the effect that
        would clear it is dropped (Effects.StartBoostsAsWritten). */
    method ResetRound(themeChoice: Option<int>)
      requires Valid()
      modifies this`running, this`paused, this`score, this`scoreMultiplier, this`powerUps, this`activePowerUps
      modifies this`enemies, snake, themeManager`currentIndex
      ensures Valid()
      ensures running && !paused && score == 0 && scoreMultiplier == 1
      ensures powerUps == [] && activePowerUps == [] && enemies == []
      ensures snake.segments == Column(worldWidth / 2.0, worldHeight / 2.0, Snakes.RESET_LENGTH as nat)
      ensures snake.growAmount == 0 && snake.inputQueue == []
      ensures !snake.ghostMode && snake.speed == old(snake.speed)
      ensures themeChoice.Some? && 0 <= themeChoice.value < |themeManager.themes| ==>
                themeManager.currentIndex == themeChoice.value
      ensures !(themeChoice.Some? && 0 <= themeChoice.value < |themeManager.themes|) ==>
                themeManager.currentIndex == old(themeManager.currentIndex)
    {
      running, paused := true, false;
      score, scoreMultiplier := 0, 1;
      powerUps, activePowerUps, enemies := [], [], [];
      snake.Reset(worldWidth / 2.0, worldHeight / 2.0);
      snake.ghostMode := false;
      if themeChoice.Some? {
        // setTheme(NaN) changes nothing, as an index outside the table does
        themeManager.SetTheme(themeChoice.value);
      }
    }

    /** The food loop of start(): FOOD_COUNT foods, each from one spawn
        with no body (two draws). */
    method PlaceFoods(rng: Rng) returns (fs: seq<Point>)
      requires rng.Valid()
      modifies rng`cursor
      ensures fs == InitialFoods(rng.stream, old(rng.cursor), worldWidth, worldHeight)
      ensures rng.cursor == old(rng.cursor) + 2 * FOOD_COUNT
    {
      ghost var base := rng.cursor;
      fs := [];
      var k := 0;
      while k < FOOD_COUNT
        invariant 0 <= k <= FOOD_COUNT && |fs| == k
        invariant rng.cursor == base + 2 * k
        invariant forall j :: 0 <= j < k ==> fs[j] == Foods.CandidateAt(rng.stream, base, j, worldWidth, worldHeight)
      {
        var c := Foods.DrawCandidate(rng, worldWidth, worldHeight, base, k);
        fs := fs + [c];
        k := k + 1;
      }
    }

    /** update(deltaTime) at clock time now (one Date.now for the whole
        frame); spawnAt stands for the position spawnEnemy's rejection loop
        would pick. The result says whether the frame threw (see
        EnemyClash); the rest of such a frame is not done. */
    method Update(m: MathFns, deltaTime: real, now: int, spawnAt: Point, rng: Rng) returns (crashed: bool)
      requires Valid() && m.Lawful() && rng.Valid()
      modifies this`frameCount, this`enemySpawnTimer, this`foods, this`score, this`enemies, this`running
      modifies this`powerUps, this`activePowerUps, this`scoreMultiplier, snake, enemies, themeManager`currentIndex
      modifies rng`cursor
      ensures Valid()
      ensures frameCount == old(frameCount) + 1
      ensures running ==> old(running)
      ensures old(score) <= score
      ensures crashed ==> |enemies| <= |old(enemies)| && old(score) + KILL_BONUS <= score
    {
      MovePlayer(deltaTime);
      TickSpawner(deltaTime, spawnAt, rng);
      crashed := UpdateEnemies(m, deltaTime, rng);
      if crashed {
        return;
      }
      PlayerPhase(m, now, rng);
    }

    /** The start of update: count the frame, move the player, wrap its
        head. */
    method MovePlayer(deltaTime: real)
      requires Valid()
      modifies this`frameCount, snake
      ensures Valid()
      ensures frameCount == old(frameCount) + 1
      ensures snake.ghostMode == old(snake.ghostMode) && snake.thickness == old(snake.thickness)
    {
      frameCount := frameCount + 1;
      snake.Update(deltaTime);
      HandleWallWrapping();
    }

    /** The enemy spawn timer: past ENEMY_SPAWN_INTERVAL seconds, spawnEnemy
        and a restart at 0. */
    method TickSpawner(deltaTime: real, spawnAt: Point, rng: Rng)
      requires Valid() && rng.Valid()
      modifies this`enemySpawnTimer, this`enemies, rng`cursor
      ensures Valid()
      ensures old(enemySpawnTimer) + deltaTime > ENEMY_SPAWN_INTERVAL ==> enemySpawnTimer == 0.0
      ensures old(enemySpawnTimer) + deltaTime <= ENEMY_SPAWN_INTERVAL ==>
                enemySpawnTimer == old(enemySpawnTimer) + deltaTime && enemies == old(enemies)
      ensures enemies == old(enemies) || (&& |enemies| == |old(enemies)| + 1
                                          && enemies == old(enemies) + [enemies[|old(enemies)|]]
                                          && fresh(enemies[|old(enemies)|]))
    {
      enemySpawnTimer := enemySpawnTimer + deltaTime;
      if enemySpawnTimer > ENEMY_SPAWN_INTERVAL {
        SpawnEnemy(spawnAt, rng);
        enemySpawnTimer := 0.0;
      }
    }

    /** The rest of update after the enemies: the power-up pass, the expiry
        pass, the player's food loop and the self-collision test. */
    method PlayerPhase(m: MathFns, now: int, rng: Rng)
      requires Valid() && m.Lawful() && rng.Valid()
      modifies this`foods, this`score, this`running, this`powerUps, this`activePowerUps, this`scoreMultiplier
      modifies snake`speed, snake`ghostMode, snake`growAmount, themeManager`currentIndex, rng`cursor
      ensures Valid()
      ensures running ==> old(running)
      ensures old(score) <= score
    {
      EffectPhase(m, now);
      ScoreMeal(m, now, rng);
      EndOnSelfCollision(m);
    }

    /** The power-up pass and then the expiry pass. */
    method EffectPhase(m: MathFns, now: int)
      requires Valid() && m.Lawful()
      modifies this`powerUps, this`activePowerUps, this`scoreMultiplier, snake`speed, snake`ghostMode
      ensures Valid()
      ensures var taken := Collected(old(powerUps), snake.segments[0], snake.thickness, now);
              var es := old(activePowerUps) + EffectsOf(taken, now);
              && powerUps == Staying(old(powerUps), snake.segments[0], snake.thickness, now)
              && activePowerUps == Ongoing(es, now)
              && BoostsOf() == RevertAll(ApplyAll(old(BoostsOf()), taken), Lapsing(es, now))
      ensures GhostBacked(old(BoostsOf()), old(activePowerUps)) ==> GhostBacked(BoostsOf(), activePowerUps)
    {
      ghost var b0, es0 := BoostsOf(), activePowerUps;
      ghost var taken := Collected(powerUps, snake.segments[0], snake.thickness, now);
      PowerUpPass(m, now);
      ghost var b1, es1 := BoostsOf(), activePowerUps;
      if GhostBacked(b0, es0) {
        CollectKeepsGhostBacked(b0, es0, taken, now);
      }
      ExpiryPass(now);
      if GhostBacked(b1, es1) {
        ExpiryKeepsGhostBacked(b1, es1, now);
      }
    }

    /** The player's food loop, with the score it adds: FOOD_VALUE times the
        multiplier for every food eaten, so never less than before. */
    method ScoreMeal(m: MathFns, now: int, rng: Rng)
      requires Valid() && m.Lawful() && rng.Valid()
      modifies this`foods, this`score, this`powerUps, snake`growAmount, themeManager`currentIndex, rng`cursor
      ensures Valid()
      ensures old(score) <= score
      ensures |foods| == |old(foods)|
    {
      ghost var start := MealOf(rng.cursor, 0);
      ghost var head := snake.segments[0];
      var eaten := PlayerEats(m, now, rng);
      PlayerFeedsScore(start, head, snake.thickness, scoreMultiplier, rng.stream, now,
                       themeManager.themes, worldWidth, worldHeight, |start.foods|);
      PlayerFeedsFoods(start, head, snake.thickness, scoreMultiplier, rng.stream, now,
                       themeManager.themes, worldWidth, worldHeight, |start.foods|);
      assert FOOD_VALUE * scoreMultiplier >= 0;
    }

    /** loop(timestamp) at clock time now: nothing while stopped or paused;
        otherwise the frame time is taken, update runs, and the next frame
        is scheduled unless update threw. */
    method Loop(m: MathFns, timestamp: real, now: int, spawnAt: Point, rng: Rng) returns (scheduled: bool)
      requires Valid() && m.Lawful() && rng.Valid()
      modifies this`frameCount, this`enemySpawnTimer, this`foods, this`score, this`enemies, this`running
      modifies this`powerUps, this`activePowerUps, this`scoreMultiplier, snake, enemies, themeManager`currentIndex
      modifies rng`cursor, this`lastTime
      ensures Valid()
      ensures !old(running) || old(paused) ==>
                !scheduled && unchanged(this, snake, themeManager, rng) && unchanged(old(enemies))
      ensures old(running) && !old(paused) ==> lastTime == timestamp && frameCount == old(frameCount) + 1
      ensures old(running) && !old(paused) && !scheduled ==>
                |enemies| <= |old(enemies)| && old(score) + KILL_BONUS <= score
      ensures running ==> old(running)
    {
      scheduled := false;
      if !running {
        return;
      }
      if paused {
        return;
      }
      var deltaTime := (timestamp - lastTime) / 1000.0;
      lastTime := timestamp;
      var crashed := Update(m, deltaTime, now, spawnAt, rng);
      scheduled := !crashed;
    }

    /** The self-collision test at the end of update: outside ghost mode, a
        head that touches the body stops the game. */
    method EndOnSelfCollision(m: MathFns)
      requires Valid() && m.Lawful()
      modifies this`running
      ensures running == (old(running) && (snake.ghostMode || !Snakes.SelfCollides(snake.segments, snake.thickness - 2.0)))
    {
      if !snake.ghostMode {
        var hit := snake.CheckSelfCollision(m);
        if hit {
          Stop();
        }
      }
    }
  }
}

=== FILE: game_collisions.dfy ===
/** The body test of the expanded game (js/classes/Game.js,
    checkCollisionWithSnake) and the food an enemy leaves when it dies. */
module Collisions {
  import opened Common
  import opened Geometry
  import opened Body

  /** The radius of the early exit: length * thickness * 2 around the head. */
  function HeadReach(s: SnakeView): real
  {
    s.length as real * s.thickness * 2.0
  }

  /** checkCollisionWithSnake(point, snake) as written: never a hit when the
      point is farther than HeadReach from the snake's head; otherwise a hit
      exactly when some segment is strictly within thickness of the point. */
  predicate SnakeHit(point: Point, s: SnakeView)
    requires |s.segments| > 0
  {
    && !Beyond(point, s.segments[0], HeadReach(s))
    && exists i :: 0 <= i < |s.segments| && Within(point, s.segments[i], s.thickness)
  }

  /** The loop of checkCollisionWithSnake, with its box pre-check. */
  method CheckCollisionWithSnake(m: MathFns, point: Point, s: SnakeView) returns (hit: bool)
    requires m.Lawful() && |s.segments| > 0
    ensures hit <==> SnakeHit(point, s)
  {
    SqrtAbove(m, point, s.segments[0], HeadReach(s));
    if m.sqrt(DistSq(point, s.segments[0])) > HeadReach(s) {
      return false;
    }
    var i := 0;
    while i < |s.segments|
      invariant 0 <= i <= |s.segments|
      invariant forall j :: 0 <= j < i ==> !Within(point, s.segments[j], s.thickness)
    {
      var seg := s.segments[i];
      if Within(point, seg, s.thickness) {
        BoxCheckSound(point, seg, s.thickness);
      }
      if Abs(point.x - seg.x) < s.thickness && Abs(point.y - seg.y) < s.thickness {
        SqrtBelow(m, point, seg, s.thickness);
        if m.sqrt(DistSq(point, seg)) < s.thickness {
          return true;
        }
      }
      i := i + 1;
    }
    return false;
  }

  /** The early exit is not only an optimisation: a body whose trail has
      wrapped around the world edge can lie on the point while its head is
      on the far side, and the test then misses it. */
  lemma WrappedBodyEscapesEarlyExit(owner: object)
    ensures var s := SnakeView(owner, [Point(5.0, 100.0), Point(3995.0, 100.0)], 30, 20.0);
            var point := Point(3995.0, 100.0);
            Within(point, s.segments[1], s.thickness) && !SnakeHit(point, s)
  {
    var s := SnakeView(owner, [Point(5.0, 100.0), Point(3995.0, 100.0)], 30, 20.0);
    var point := Point(3995.0, 100.0);
    assert HeadReach(s) == 1200.0;
    assert DistSq(point, s.segments[0]) == 3990.0 * 3990.0;
    assert Beyond(point, s.segments[0], HeadReach(s));
  }

  /** The positions of segments 0, 2, 4, ... in order: where a killed enemy
      leaves food. */
  function EvenPositions(segments: seq<Point>): (r: seq<Point>)
    ensures |r| == (|segments| + 1) / 2
    ensures forall k :: 0 <= k < |r| ==> r[k] == segments[2 * k]
    decreases |segments|
  {
    if |segments| <= 1 then segments
    else [segments[0]] + EvenPositions(segments[2..])
  }
}

=== FILE: game_effects.dfy ===
/** Timed power-up effects of the expanded game (js/classes/Game.js,
    collectPowerUp and the two power-up passes of update): what collecting a
    power-up changes, what its expiry changes back, and which power-ups and
    effects each pass keeps. */
module Effects {
  import opened Common
  import opened Geometry
  import opened Config
  import opened PowerUps

  /** An active effect: the table entry collected (its name is the effect's
      type, the entry its config), the clock time of collection and how long
      it lasts. */
  datatype Effect = Effect(kind: PowerUpKind, startTime: int, duration: int)

  /** The part of the game state effects act on: the player's speed and
      ghost flag and the game's score multiplier. */
  datatype Boosts = Boosts(speed: real, ghostMode: bool, scoreMultiplier: int)

  predicate IsSpeedKind(k: PowerUpKind)
  {
    k.name == "speed" || k.name == "slow"
  }

  /** The immediate effect of collectPowerUp. */
  function Apply(b: Boosts, k: PowerUpKind): Boosts
    requires k in POWERUP_TYPES
  {
    TableWellFormed(k);
    if IsSpeedKind(k) then b.(speed := b.speed * k.speedMultiplier.value)
    else if k.name == "ghost" then b.(ghostMode := true)
    else if k.name == "multiplier" then b.(scoreMultiplier := k.scoreMultiplier.value)
    else b
  }

  /** What the expiry pass does when an effect of kind k has run out. */
  function Revert(b: Boosts, k: PowerUpKind): Boosts
    requires k in POWERUP_TYPES
  {
    TableWellFormed(k);
    if IsSpeedKind(k) then b.(speed := b.speed / k.speedMultiplier.value)
    else if k.name == "ghost" then b.(ghostMode := false)
    else if k.name == "multiplier" then b.(scoreMultiplier := 1)
    else b
  }

  /** Collecting changes at most one thing: speed for a speed or slow entry
      (times 1.5 or 0.5), the ghost flag for ghost, the multiplier (to 2)
      for multiplier; a magnet changes nothing. */
  lemma ApplyChangesOneThing(b: Boosts, k: PowerUpKind)
    requires k in POWERUP_TYPES
    ensures var r := Apply(b, k);
            && (r.ghostMode != b.ghostMode ==> r.speed == b.speed && r.scoreMultiplier == b.scoreMultiplier)
            && (r.speed != b.speed ==> r.ghostMode == b.ghostMode && r.scoreMultiplier == b.scoreMultiplier)
            && (r.scoreMultiplier != b.scoreMultiplier ==> r.speed == b.speed && r.ghostMode == b.ghostMode)
    ensures k.name == "speed" ==> Apply(b, k).speed == b.speed * 1.5
    ensures k.name == "slow" ==> Apply(b, k).speed == b.speed * 0.5
    ensures k.name == "ghost" ==> Apply(b, k).ghostMode
    ensures k.name == "multiplier" ==> Apply(b, k).scoreMultiplier == 2
    ensures k.name == "magnet" ==> Apply(b, k) == b
  {
    TableWellFormed(k);
  }

  /** Over reals, a speed or slow effect that is collected and then expires
      gives back exactly the speed it found. */
  lemma CollectThenExpireRestoresSpeed(b: Boosts, k: PowerUpKind)
    requires k in POWERUP_TYPES && IsSpeedKind(k)
    ensures Revert(Apply(b, k), k) == b
  {
    TableWellFormed(k);
    var f := k.speedMultiplier.value;
    assert (b.speed * f) / f == b.speed;
  }

  /** Expiry does not look at the other active effects: of two overlapping
      ghost effects, the first to expire turns ghost mode off, and of two
      multiplier effects the first to expire sets the multiplier back to 1. */
  lemma ExpiryIgnoresOverlap(b: Boosts)
    ensures var g := POWERUP_TYPES[2];
            !Revert(Apply(Apply(b, g), g), g).ghostMode
    ensures var x := POWERUP_TYPES[4];
            Revert(Apply(Apply(b, x), x), x).scoreMultiplier == 1
  {
  }

  /** The effects in ks applied one after the other, first to last. */
  function ApplyAll(b: Boosts, ks: seq<PowerUpKind>): Boosts
    requires forall i :: 0 <= i < |ks| ==> ks[i] in POWERUP_TYPES
    decreases |ks|
  {
    if ks == [] then b else Apply(ApplyAll(b, ks[..|ks| - 1]), ks[|ks| - 1])
  }

  /** The effects in ks reverted one after the other, first to last. */
  function RevertAll(b: Boosts, ks: seq<PowerUpKind>): Boosts
    requires forall i :: 0 <= i < |ks| ==> ks[i] in POWERUP_TYPES
    decreases |ks|
  {
    if ks == [] then b else Revert(RevertAll(b, ks[..|ks| - 1]), ks[|ks| - 1])
  }

  /** The effect records collectPowerUp pushes for the kinds ks, collected
      at time now. */
  function EffectsOf(ks: seq<PowerUpKind>, now: int): (r: seq<Effect>)
    ensures |r| == |ks|
    ensures forall i :: 0 <= i < |ks| ==> r[i] == Effect(ks[i], now, EFFECT_DURATION)
  {
    seq(|ks|, i requires 0 <= i < |ks| => Effect(ks[i], now, EFFECT_DURATION))
  }

  /** checkCollision(snake) of a power-up, on squared distances. */
  predicate Collects(p: PowerUp, head: Point, thickness: real)
  {
    Within(p.Position(), head, p.radius + thickness / 2.0)
  }

  /** A power-up the pass collects: not expired, and touched. */
  predicate Taken(p: PowerUp, head: Point, thickness: real, now: int)
  {
    !IsExpired(p, now) && Collects(p, head, thickness)
  }

  /** The power-ups the pass keeps, in their order: neither expired nor
      touched. */
  function Staying(ps: seq<PowerUp>, head: Point, thickness: real, now: int): (r: seq<PowerUp>)
    ensures |r| <= |ps|
    decreases |ps|
  {
    if ps == [] then []
    else (if IsExpired(ps[0], now) || Collects(ps[0], head, thickness) then [] else [ps[0]])
         + Staying(ps[1..], head, thickness, now)
  }

  /** The kinds the pass collects, from the last power-up to the first, as
      the backward loop meets them. */
  function Collected(ps: seq<PowerUp>, head: Point, thickness: real, now: int): (r: seq<PowerUpKind>)
    ensures (forall i :: 0 <= i < |ps| ==> ps[i].kind in POWERUP_TYPES) ==>
              forall i :: 0 <= i < |r| ==> r[i] in POWERUP_TYPES
    decreases |ps|
  {
    if ps == [] then []
    else Collected(ps[1..], head, thickness, now)
         + (if Taken(ps[0], head, thickness, now) then [ps[0].kind] else [])
  }

  /** One step of the backward pass, at index i: the power-up there stays
      in front of what stays after it, and its kind is collected after the
      kinds collected after it. */
  lemma PowerUpPassStep(ps: seq<PowerUp>, i: nat, head: Point, thickness: real, now: int)
    requires i < |ps|
    ensures Staying(ps[i..], head, thickness, now)
         == (if IsExpired(ps[i], now) || Collects(ps[i], head, thickness) then [] else [ps[i]])
            + Staying(ps[i + 1..], head, thickness, now)
    ensures Collected(ps[i..], head, thickness, now)
         == Collected(ps[i + 1..], head, thickness, now)
            + (if Taken(ps[i], head, thickness, now) then [ps[i].kind] else [])
  {
    assert ps[i..][1..] == ps[i + 1..];
  }

  /** Applying one more collected kind. */
  lemma ApplyOneMore(b: Boosts, ks: seq<PowerUpKind>, k: PowerUpKind, now: int)
    requires forall i :: 0 <= i < |ks| ==> ks[i] in POWERUP_TYPES
    requires k in POWERUP_TYPES
    ensures ApplyAll(b, ks + [k]) == Apply(ApplyAll(b, ks), k)
    ensures EffectsOf(ks + [k], now) == EffectsOf(ks, now) + [Effect(k, now, EFFECT_DURATION)]
  {
    assert (ks + [k])[..|ks|] == ks;
  }

  /** Some power-up of ps of kind k is taken by the pass. */
  predicate TakenKind(ps: seq<PowerUp>, k: PowerUpKind, head: Point, thickness: real, now: int)
  {
    exists j :: 0 <= j < |ps| && Taken(ps[j], head, thickness, now) && ps[j].kind == k
  }

  function CountExpired(ps: seq<PowerUp>, now: int): nat
    decreases |ps|
  {
    if ps == [] then 0 else (if IsExpired(ps[0], now) then 1 else 0) + CountExpired(ps[1..], now)
  }

  /** Every power-up has exactly one fate: it stays, it is collected once,
      or it has expired and is dropped uncollected. Staying power-ups are
      unexpired and untouched, and every collected kind is the kind of a
      taken power-up. */
  lemma {:induction false} PowerUpPassPartition(ps: seq<PowerUp>, head: Point, thickness: real, now: int)
    ensures |Staying(ps, head, thickness, now)| + |Collected(ps, head, thickness, now)| + CountExpired(ps, now) == |ps|
    ensures forall i :: 0 <= i < |Staying(ps, head, thickness, now)| ==>
              var p := Staying(ps, head, thickness, now)[i];
              p in ps && !IsExpired(p, now) && !Collects(p, head, thickness)
    ensures forall i :: 0 <= i < |Collected(ps, head, thickness, now)| ==>
              TakenKind(ps, Collected(ps, head, thickness, now)[i], head, thickness, now)
    decreases |ps|
  {
    if ps != [] {
      PowerUpPassPartition(ps[1..], head, thickness, now);
      var s' := Staying(ps[1..], head, thickness, now);
      assert forall p :: p in s' ==> p in ps[1..] && p in ps;
      var c := Collected(ps, head, thickness, now);
      var c' := Collected(ps[1..], head, thickness, now);
      assert c == c' + (if Taken(ps[0], head, thickness, now) then [ps[0].kind] else []);
      forall i | 0 <= i < |c|
        ensures TakenKind(ps, c[i], head, thickness, now)
      {
        if i < |c'| {
          assert c[i] == c'[i];
          assert TakenKind(ps[1..], c'[i], head, thickness, now);
          var j :| 0 <= j < |ps[1..]| && Taken(ps[1..][j], head, thickness, now) && ps[1..][j].kind == c'[i];
          assert ps[j + 1] == ps[1..][j];
        } else {
          assert Taken(ps[0], head, thickness, now) && c[i] == ps[0].kind;
        }
      }
    }
  }

  /** An effect whose duration has passed: elapsed >= duration. */
  predicate Lapsed(e: Effect, now: int)
  {
    now - e.startTime >= e.duration
  }

  /** The effects the expiry pass keeps, in their order. */
  function Ongoing(es: seq<Effect>, now: int): (r: seq<Effect>)
    ensures |r| <= |es|
    decreases |es|
  {
    if es == [] then []
    else (if Lapsed(es[0], now) then [] else [es[0]]) + Ongoing(es[1..], now)
  }

  /** The kinds of the lapsed effects, from the last to the first. */
  function Lapsing(es: seq<Effect>, now: int): (r: seq<PowerUpKind>)
    ensures (forall i :: 0 <= i < |es| ==> es[i].kind in POWERUP_TYPES) ==>
              forall i :: 0 <= i < |r| ==> r[i] in POWERUP_TYPES
    decreases |es|
  {
    if es == [] then []
    else Lapsing(es[1..], now) + (if Lapsed(es[0], now) then [es[0].kind] else [])
  }

  /** One step of the backward expiry pass, at index i. */
  lemma ExpiryPassStep(es: seq<Effect>, i: nat, now: int)
    requires i < |es|
    ensures Ongoing(es[i..], now) == (if Lapsed(es[i], now) then [] else [es[i]]) + Ongoing(es[i + 1..], now)
    ensures Lapsing(es[i..], now) == Lapsing(es[i + 1..], now) + (if Lapsed(es[i], now) then [es[i].kind] else [])
  {
    assert es[i..][1..] == es[i + 1..];
  }

  /** Reverting one more lapsed kind. */
  lemma RevertOneMore(b: Boosts, ks: seq<PowerUpKind>, k: PowerUpKind)
    requires forall i :: 0 <= i < |ks| ==> ks[i] in POWERUP_TYPES
    requires k in POWERUP_TYPES
    ensures RevertAll(b, ks + [k]) == Revert(RevertAll(b, ks), k)
  {
    assert (ks + [k])[..|ks|] == ks;
  }

  /** The expiry pass splits the effects: the kept ones have not lapsed and
      every lapsed one is reverted exactly once. */
  lemma {:induction false} ExpiryPassPartition(es: seq<Effect>, now: int)
    ensures |Ongoing(es, now)| + |Lapsing(es, now)| == |es|
    ensures forall i :: 0 <= i < |Ongoing(es, now)| ==>
              Ongoing(es, now)[i] in es && !Lapsed(Ongoing(es, now)[i], now)
    decreases |es|
  {
    if es != [] {
      ExpiryPassPartition(es[1..], now);
    }
  }

  /** Effects collected at time now with the configured duration have not
      lapsed before EFFECT_DURATION milliseconds have passed. */
  lemma FreshEffectsLast(ks: seq<PowerUpKind>, now: int, later: int)
    requires now <= later < now + EFFECT_DURATION
    ensures Ongoing(EffectsOf(ks, now), later) == EffectsOf(ks, now)
    decreases |ks|
  {
    var es := EffectsOf(ks, now);
    OngoingKeepsUnlapsed(es, later);
  }

  lemma {:induction false} OngoingKeepsUnlapsed(es: seq<Effect>, now: int)
    requires forall i :: 0 <= i < |es| ==> !Lapsed(es[i], now)
    ensures Ongoing(es, now) == es
    decreases |es|
  {
    if es != [] {
      OngoingKeepsUnlapsed(es[1..], now);
    }
  }

  /** Ghost mode is on only while some active effect is a ghost effect,
      whose expiry is what turns it off again. */
  predicate GhostBacked(b: Boosts, es: seq<Effect>)
  {
    b.ghostMode ==> exists i :: 0 <= i < |es| && es[i].kind.name == "ghost"
  }

  /** Collecting keeps ghost mode backed: a ghost kind brings its own
      effect, and any other kind leaves the flag alone. */
  lemma {:induction false} CollectKeepsGhostBacked(b: Boosts, es: seq<Effect>, ks: seq<PowerUpKind>, now: int)
    requires forall i :: 0 <= i < |ks| ==> ks[i] in POWERUP_TYPES
    requires GhostBacked(b, es)
    ensures GhostBacked(ApplyAll(b, ks), es + EffectsOf(ks, now))
    decreases |ks|
  {
    if ks == [] {
      assert es + EffectsOf(ks, now) == es;
    } else {
      var n := |ks| - 1;
      var front := ks[..n];
      CollectKeepsGhostBacked(b, es, front, now);
      ApplyOneMore(b, front, ks[n], now);
      assert front + [ks[n]] == ks;
      var all := es + EffectsOf(ks, now);
      assert (es + EffectsOf(front, now)) + [Effect(ks[n], now, EFFECT_DURATION)] == all;
      if ks[n].name == "ghost" {
        assert all[|all| - 1].kind.name == "ghost";
      } else if ApplyAll(b, ks).ghostMode {
        TableWellFormed(ks[n]);
        assert ApplyAll(b, front).ghostMode;
        var i :| 0 <= i < |es + EffectsOf(front, now)| && (es + EffectsOf(front, now))[i].kind.name == "ghost";
        assert all[i] == (es + EffectsOf(front, now))[i];
      }
    }
  }

  /** Reverting a list of kinds that holds a ghost kind turns ghost mode
      off: no revert turns it back on. */
  lemma {:induction false} RevertAllClearsGhost(b: Boosts, ks: seq<PowerUpKind>, j: nat)
    requires forall i :: 0 <= i < |ks| ==> ks[i] in POWERUP_TYPES
    requires j < |ks| && ks[j].name == "ghost"
    ensures !RevertAll(b, ks).ghostMode
    decreases |ks|
  {
    var n := |ks| - 1;
    TableWellFormed(ks[n]);
    if j < n {
      assert ks[..n][j] == ks[j];
      RevertAllClearsGhost(b, ks[..n], j);
    }
  }

  /** Reverting kinds none of which is a ghost kind leaves ghost mode as it
      was. */
  lemma {:induction false} RevertAllKeepsGhost(b: Boosts, ks: seq<PowerUpKind>)
    requires forall i :: 0 <= i < |ks| ==> ks[i] in POWERUP_TYPES && ks[i].name != "ghost"
    ensures RevertAll(b, ks).ghostMode == b.ghostMode
    decreases |ks|
  {
    if ks != [] {
      var n := |ks| - 1;
      assert forall i :: 0 <= i < n ==> ks[..n][i] == ks[i];
      RevertAllKeepsGhost(b, ks[..n]);
      TableWellFormed(ks[n]);
    }
  }

  /** Every effect either stays in the expiry pass or, having lapsed, has
      its kind among the reverted ones. */
  lemma {:induction false} EffectFate(es: seq<Effect>, now: int, j: nat)
    requires j < |es|
    ensures Lapsed(es[j], now) ==> exists i :: 0 <= i < |Lapsing(es, now)| && Lapsing(es, now)[i] == es[j].kind
    ensures !Lapsed(es[j], now) ==> exists i :: 0 <= i < |Ongoing(es, now)| && Ongoing(es, now)[i] == es[j]
    decreases |es|
  {
    var head := if Lapsed(es[0], now) then [] else [es[0]];
    var tailKinds := Lapsing(es[1..], now);
    assert Ongoing(es, now) == head + Ongoing(es[1..], now);
    assert Lapsing(es, now) == tailKinds + (if Lapsed(es[0], now) then [es[0].kind] else []);
    if j == 0 {
      if Lapsed(es[0], now) {
        assert Lapsing(es, now)[|tailKinds|] == es[0].kind;
      } else {
        assert Ongoing(es, now)[0] == es[0];
      }
    } else {
      EffectFate(es[1..], now, j - 1);
      assert es[1..][j - 1] == es[j];
      if Lapsed(es[j], now) {
        var i :| 0 <= i < |tailKinds| && tailKinds[i] == es[j].kind;
        assert Lapsing(es, now)[i] == tailKinds[i];
      } else {
        var i :| 0 <= i < |Ongoing(es[1..], now)| && Ongoing(es[1..], now)[i] == es[j];
        assert Ongoing(es, now)[|head| + i] == es[j];
      }
    }
  }

  /** The expiry pass keeps ghost mode backed: either a ghost effect lapses
      and ghost mode goes off, or every ghost effect is still there. */
  lemma ExpiryKeepsGhostBacked(b: Boosts, es: seq<Effect>, now: int)
    requires forall i :: 0 <= i < |es| ==> es[i].kind in POWERUP_TYPES
    requires GhostBacked(b, es)
    ensures GhostBacked(RevertAll(b, Lapsing(es, now)), Ongoing(es, now))
  {
    var ks := Lapsing(es, now);
    if exists i :: 0 <= i < |ks| && ks[i].name == "ghost" {
      var i :| 0 <= i < |ks| && ks[i].name == "ghost";
      RevertAllClearsGhost(b, ks, i);
    } else {
      RevertAllKeepsGhost(b, ks);
      if b.ghostMode {
        var j :| 0 <= j < |es| && es[j].kind.name == "ghost";
        EffectFate(es, now, j);
      }
    }
  }

  /** A ghost flag without a ghost effect outlives any run of collections
      and expiries of other kinds. */
  lemma {:induction false} StaleGhostStays(b: Boosts, ks: seq<PowerUpKind>)
    requires forall i :: 0 <= i < |ks| ==> ks[i] in POWERUP_TYPES && ks[i].name != "ghost"
    requires b.ghostMode
    ensures ApplyAll(b, ks).ghostMode && RevertAll(b, ks).ghostMode
    decreases |ks|
  {
    RevertAllKeepsGhost(b, ks);
    if ks != [] {
      var n := |ks| - 1;
      StaleGhostStays(b, ks[..n]);
      TableWellFormed(ks[n]);
    }
  }

  /** What start() does to the boosts, as written: the new speed and a
      multiplier of 1, while the ghost flag is kept, although every active
      effect is dropped. */
  function StartBoostsAsWritten(b: Boosts, speed: real): (r: Boosts)
    ensures r.ghostMode == b.ghostMode
  {
    Boosts(speed, b.ghostMode, 1)
  }

  /** A round started while ghost mode was on (Save & Quit during a ghost
      effect, or a death in the frame that also collected a ghost) begins
      with the flag on and no effect to turn it off. */
  lemma StartAsWrittenLeavesGhostUnbacked(speed: real)
    ensures var before := Apply(Boosts(speed, false, 1), POWERUP_TYPES[2]);
            && GhostBacked(before, EffectsOf([POWERUP_TYPES[2]], 0))
            && !GhostBacked(StartBoostsAsWritten(before, speed), [])
  {
    var before := Apply(Boosts(speed, false, 1), POWERUP_TYPES[2]);
    assert EffectsOf([POWERUP_TYPES[2]], 0)[0].kind.name == "ghost";
  }

  /** start() with ghost mode cleared, as the reset of the effects intends. */
  function StartBoosts(b: Boosts, speed: real): (r: Boosts)
    ensures GhostBacked(r, [])
    ensures r.speed == speed && r.scoreMultiplier == 1
  {
    Boosts(speed, false, 1)
  }
}

=== FILE: game_food.dfy ===
/** The two food loops of the expanded game's update (js/classes/Game.js):
    an enemy's and the player's. Both walk the food list from the last item
    to the first and respawn, in place, every food the head touches; the
    player's loop also scores, grows, checks the theme and may spawn a
    power-up. The game keeps its foods as positions; a respawn is the one
    candidate that Food.spawn draws when it is given no body. */
module Feeding {
  import opened Common
  import opened Geometry
  import opened Config
  import opened Foods
  import opened PowerUps
  import opened Themes

  /** The food test of update: the 50 x 50 box check, then
      checkFoodCollision (head strictly within thickness + FOOD_RADIUS). */
  predicate Touches(head: Point, thickness: real, f: Point)
  {
    Abs(head.x - f.x) < 50.0 && Abs(head.y - f.y) < 50.0 && Within(head, f, thickness + FOOD_RADIUS)
  }

  /** For every snake of the game (thickness at most 30) the box check
      changes nothing. */
  lemma BoxCheckIdle(head: Point, thickness: real, f: Point)
    requires thickness + FOOD_RADIUS <= 50.0
    ensures Touches(head, thickness, f) <==> Within(head, f, thickness + FOOD_RADIUS)
  {
    if Within(head, f, thickness + FOOD_RADIUS) {
      BoxCheckSound(head, f, thickness + FOOD_RADIUS);
    }
  }

  /** How many of the foods the head touches. */
  function CountTouching(foods: seq<Point>, head: Point, thickness: real): (c: nat)
    ensures c <= |foods|
    decreases |foods|
  {
    if foods == [] then 0
    else CountTouching(foods[..|foods| - 1], head, thickness)
         + (if Touches(head, thickness, foods[|foods| - 1]) then 1 else 0)
  }

  /** p is a candidate drawn at draw number c or later. */
  ghost predicate RespawnedAfter(p: Point, stream: nat -> real, from: nat, width: real, height: real)
  {
    exists c: nat :: from <= c && p == CandidateAt(stream, c, 0, width, height)
  }

  /** The state an enemy's food loop changes: the foods, the random cursor,
      and how many foods it has eaten. */
  datatype Refill = Refill(foods: seq<Point>, cursor: nat, eaten: nat)

  /** The enemy's food loop over indices n - 1 down to 0: a touched food is
      respawned from the next two draws and counts as eaten (one grow). */
  function EnemyFeeds(r: Refill, head: Point, thickness: real, stream: nat -> real,
                      width: real, height: real, n: nat): Refill
    requires n <= |r.foods|
    decreases n
  {
    if n == 0 then r
    else
      var i := n - 1;
      var r' := if Touches(head, thickness, r.foods[i])
                then Refill(r.foods[i := CandidateAt(stream, r.cursor, 0, width, height)], r.cursor + 2, r.eaten + 1)
                else r;
      EnemyFeeds(r', head, thickness, stream, width, height, i)
  }

  /** The enemy's loop keeps the number of foods, eats exactly the touched
      ones, two draws each, leaves every untouched food where it was and
      puts every touched one on a fresh candidate. */
  lemma {:induction false} EnemyFeedsFacts(r: Refill, head: Point, thickness: real, stream: nat -> real,
                                           width: real, height: real, n: nat)
    requires n <= |r.foods|
    ensures var e := EnemyFeeds(r, head, thickness, stream, width, height, n);
            && |e.foods| == |r.foods|
            && e.eaten == r.eaten + CountTouching(r.foods[..n], head, thickness)
            && e.cursor == r.cursor + 2 * (e.eaten - r.eaten)
            && (forall j :: 0 <= j < |r.foods| && (n <= j || !Touches(head, thickness, r.foods[j])) ==>
                  e.foods[j] == r.foods[j])
            && (forall j :: 0 <= j < n && Touches(head, thickness, r.foods[j]) ==>
                  RespawnedAfter(e.foods[j], stream, r.cursor, width, height))
    decreases n
  {
    if n > 0 {
      var i := n - 1;
      var hit := Touches(head, thickness, r.foods[i]);
      var r' := if hit
                then Refill(r.foods[i := CandidateAt(stream, r.cursor, 0, width, height)], r.cursor + 2, r.eaten + 1)
                else r;
      EnemyFeedsFacts(r', head, thickness, stream, width, height, i);
      var e := EnemyFeeds(r', head, thickness, stream, width, height, i);
      assert e == EnemyFeeds(r, head, thickness, stream, width, height, n);
      assert r'.foods[..i] == r.foods[..i];
      assert r.foods[..n][..i] == r.foods[..i];
      assert e.foods[i] == r'.foods[i];
      forall j | 0 <= j < i && Touches(head, thickness, r.foods[j])
        ensures RespawnedAfter(e.foods[j], stream, r.cursor, width, height)
      {
        assert r'.foods[j] == r.foods[j];
        var c: nat :| r'.cursor <= c && e.foods[j] == CandidateAt(stream, c, 0, width, height);
      }
      if hit {
        assert e.foods[i] == CandidateAt(stream, r.cursor, 0, width, height);
      }
    }
  }

  /** spawnPowerUp's table index: floor(random * 5). */
  function KindIndex(r: real): (k: int)
    requires 0.0 <= r < 1.0
    ensures 0 <= k < |POWERUP_TYPES|
  {
    ScaleBelow(r, 5.0);
    (r * 5.0).Floor
  }

  /** The power-up spawnPowerUp creates from the three draws at c, c + 1 and
      c + 2: a table entry and a position 50 away from every world edge. */
  function SpawnedPowerUp(stream: nat -> real, c: nat, now: int, width: real, height: real): PowerUp
    requires UnitStream(stream)
  {
    var k := KindIndex(stream(c));
    var x := Scale(stream(c + 1), width - 100.0) + 50.0;
    var y := Scale(stream(c + 2), height - 100.0) + 50.0;
    TablePowerUp(k, x, y, now)
  }

  /** spawnPowerUp: the chance draw at c; below SPAWN_CHANCE, one power-up
      from the next three draws. */
  function SpawnedFrom(stream: nat -> real, c: nat, now: int, width: real, height: real): (r: seq<PowerUp>)
    requires UnitStream(stream)
    ensures |r| <= 1
    ensures forall k :: 0 <= k < |r| ==> r[k].kind in POWERUP_TYPES && r[k].createdAt == now
  {
    if stream(c) < SPAWN_CHANCE then [SpawnedPowerUp(stream, c + 1, now, width, height)] else []
  }

  /** How many draws spawnPowerUp takes. */
  function SpawnDraws(stream: nat -> real, c: nat): nat
  {
    if stream(c) < SPAWN_CHANCE then 4 else 1
  }

  /** With valid draws and a world wider and taller than 100, a spawned
      power-up lies in [50, W - 50) x [50, H - 50). */
  lemma SpawnedPowerUpInWorld(stream: nat -> real, c: nat, now: int, width: real, height: real)
    requires UnitStream(stream) && 100.0 < width && 100.0 < height
    ensures var p := SpawnedPowerUp(stream, c, now, width, height);
            50.0 <= p.x < width - 50.0 && 50.0 <= p.y < height - 50.0
  {
  }

  /** The state the player's food loop changes. */
  datatype Meal = Meal(foods: seq<Point>, cursor: nat, score: int, eaten: nat,
                       themeIndex: int, powerUps: seq<PowerUp>)

  /** One food eaten by the player: FOOD_VALUE times the multiplier scored,
      the food respawned from two draws, the theme checked against the new
      score, spawnPowerUp, and the one draw of the taunt test. */
  function EatOne(r: Meal, i: nat, multiplier: int, stream: nat -> real, now: int,
                  themes: seq<Theme>, width: real, height: real): Meal
    requires i < |r.foods| && 0 <= r.themeIndex < |themes| && UnitStream(stream)
  {
    var score := r.score + FOOD_VALUE * multiplier;
    var c := r.cursor + 2;
    Meal(r.foods[i := CandidateAt(stream, r.cursor, 0, width, height)],
         c + SpawnDraws(stream, c) + 1,
         score, r.eaten + 1,
         Progress(themes, r.themeIndex, score),
         r.powerUps + SpawnedFrom(stream, c, now, width, height))
  }

  /** EatOne field by field. */
  lemma EatOneIs(r: Meal, i: nat, multiplier: int, stream: nat -> real, now: int,
                 themes: seq<Theme>, width: real, height: real, e: Meal)
    requires i < |r.foods| && 0 <= r.themeIndex < |themes| && UnitStream(stream)
    requires e.foods == r.foods[i := CandidateAt(stream, r.cursor, 0, width, height)]
    requires e.score == r.score + FOOD_VALUE * multiplier && e.eaten == r.eaten + 1
    requires e.themeIndex == Progress(themes, r.themeIndex, e.score)
    requires e.cursor == r.cursor + 2 + SpawnDraws(stream, r.cursor + 2) + 1
    requires e.powerUps == r.powerUps + SpawnedFrom(stream, r.cursor + 2, now, width, height)
    ensures e == EatOne(r, i, multiplier, stream, now, themes, width, height)
  {
  }

  /** Eating one food appends at most one power-up, a table entry created
      now, and keeps the ones before it. */
  lemma EatOnePowerUps(r: Meal, i: nat, multiplier: int, stream: nat -> real, now: int,
                       themes: seq<Theme>, width: real, height: real)
    requires i < |r.foods| && 0 <= r.themeIndex < |themes| && UnitStream(stream)
    ensures var e := EatOne(r, i, multiplier, stream, now, themes, width, height);
            && e.eaten == r.eaten + 1
            && |r.powerUps| <= |e.powerUps| <= |r.powerUps| + 1
            && e.powerUps[..|r.powerUps|] == r.powerUps
            && (forall k :: |r.powerUps| <= k < |e.powerUps| ==>
                  e.powerUps[k].kind in POWERUP_TYPES && e.powerUps[k].createdAt == now)
  {
    var added := SpawnedFrom(stream, r.cursor + 2, now, width, height);
    assert (r.powerUps + added)[..|r.powerUps|] == r.powerUps;
  }

  /** The player's food loop over indices n - 1 down to 0. */
  function PlayerFeeds(r: Meal, head: Point, thickness: real, multiplier: int, stream: nat -> real,
                       now: int, themes: seq<Theme>, width: real, height: real, n: nat): Meal
    requires n <= |r.foods| && 0 <= r.themeIndex < |themes| && UnitStream(stream)
    decreases n
  {
    if n == 0 then r
    else
      var i := n - 1;
      ProgressStep(themes, r.themeIndex, r.score + FOOD_VALUE * multiplier);
      var r' := if Touches(head, thickness, r.foods[i])
                then EatOne(r, i, multiplier, stream, now, themes, width, height)
                else r;
      PlayerFeeds(r', head, thickness, multiplier, stream, now, themes, width, height, i)
  }

  /** The player's loop keeps the number of foods, eats exactly the touched
      ones, leaves untouched foods in place and respawns touched ones. */
  lemma {:induction false} PlayerFeedsFoods(r: Meal, head: Point, thickness: real, multiplier: int,
                                            stream: nat -> real, now: int, themes: seq<Theme>,
                                            width: real, height: real, n: nat)
    requires n <= |r.foods| && 0 <= r.themeIndex < |themes| && UnitStream(stream)
    ensures var e := PlayerFeeds(r, head, thickness, multiplier, stream, now, themes, width, height, n);
            && |e.foods| == |r.foods|
            && e.eaten == r.eaten + CountTouching(r.foods[..n], head, thickness)
            && (forall j :: 0 <= j < |r.foods| && (n <= j || !Touches(head, thickness, r.foods[j])) ==>
                  e.foods[j] == r.foods[j])
            && (forall j :: 0 <= j < n && Touches(head, thickness, r.foods[j]) ==>
                  RespawnedAfter(e.foods[j], stream, r.cursor, width, height))
    decreases n
  {
    if n > 0 {
      var i := n - 1;
      var hit := Touches(head, thickness, r.foods[i]);
      ProgressStep(themes, r.themeIndex, r.score + FOOD_VALUE * multiplier);
      var r' := if hit then EatOne(r, i, multiplier, stream, now, themes, width, height) else r;
      PlayerFeedsFoods(r', head, thickness, multiplier, stream, now, themes, width, height, i);
      var e := PlayerFeeds(r', head, thickness, multiplier, stream, now, themes, width, height, i);
      assert e == PlayerFeeds(r, head, thickness, multiplier, stream, now, themes, width, height, n);
      assert r'.foods[..i] == r.foods[..i];
      assert r.foods[..n][..i] == r.foods[..i];
      assert e.foods[i] == r'.foods[i];
      forall j | 0 <= j < i && Touches(head, thickness, r.foods[j])
        ensures RespawnedAfter(e.foods[j], stream, r.cursor, width, height)
      {
        assert r'.foods[j] == r.foods[j];
        var c: nat :| r'.cursor <= c && e.foods[j] == CandidateAt(stream, c, 0, width, height);
      }
      if hit {
        assert e.foods[i] == CandidateAt(stream, r.cursor, 0, width, height);
      }
    }
  }

  /** Every food eaten scores exactly FOOD_VALUE times the multiplier. */
  lemma {:induction false} PlayerFeedsScore(r: Meal, head: Point, thickness: real, multiplier: int,
                                            stream: nat -> real, now: int, themes: seq<Theme>,
                                            width: real, height: real, n: nat)
    requires n <= |r.foods| && 0 <= r.themeIndex < |themes| && UnitStream(stream)
    ensures var e := PlayerFeeds(r, head, thickness, multiplier, stream, now, themes, width, height, n);
            && r.eaten <= e.eaten
            && e.score == r.score + FOOD_VALUE * multiplier * (e.eaten - r.eaten)
    decreases n
  {
    if n > 0 {
      var i := n - 1;
      var hit := Touches(head, thickness, r.foods[i]);
      ProgressStep(themes, r.themeIndex, r.score + FOOD_VALUE * multiplier);
      var r' := if hit then EatOne(r, i, multiplier, stream, now, themes, width, height) else r;
      PlayerFeedsScore(r', head, thickness, multiplier, stream, now, themes, width, height, i);
      var e := PlayerFeeds(r', head, thickness, multiplier, stream, now, themes, width, height, i);
      assert e == PlayerFeeds(r, head, thickness, multiplier, stream, now, themes, width, height, n);
      if hit {
        var v, d := FOOD_VALUE * multiplier, e.eaten - r'.eaten;
        assert e.score == r.score + v + v * d;
        assert v * (d + 1) == v * d + v;
      }
    }
  }

  /** Each food eaten takes four to seven draws: two for the new food, one
      for the spawn roll, three more when a power-up appears, one for the
      taunt. */
  lemma {:induction false} PlayerFeedsCursor(r: Meal, head: Point, thickness: real, multiplier: int,
                                             stream: nat -> real, now: int, themes: seq<Theme>,
                                             width: real, height: real, n: nat)
    requires n <= |r.foods| && 0 <= r.themeIndex < |themes| && UnitStream(stream)
    ensures var e := PlayerFeeds(r, head, thickness, multiplier, stream, now, themes, width, height, n);
            r.cursor + 4 * (e.eaten - r.eaten) <= e.cursor <= r.cursor + 7 * (e.eaten - r.eaten)
    decreases n
  {
    if n > 0 {
      var i := n - 1;
      var hit := Touches(head, thickness, r.foods[i]);
      ProgressStep(themes, r.themeIndex, r.score + FOOD_VALUE * multiplier);
      var r' := if hit then EatOne(r, i, multiplier, stream, now, themes, width, height) else r;
      PlayerFeedsCursor(r', head, thickness, multiplier, stream, now, themes, width, height, i);
      var e := PlayerFeeds(r', head, thickness, multiplier, stream, now, themes, width, height, i);
      assert e == PlayerFeeds(r, head, thickness, multiplier, stream, now, themes, width, height, n);
    }
  }

  /** The loop only appends power-ups, at most one per food eaten, each a
      table entry created now. */
  lemma {:induction false} PlayerFeedsPowerUps(r: Meal, head: Point, thickness: real, multiplier: int,
                                               stream: nat -> real, now: int, themes: seq<Theme>,
                                               width: real, height: real, n: nat)
    requires n <= |r.foods| && 0 <= r.themeIndex < |themes| && UnitStream(stream)
    ensures var e := PlayerFeeds(r, head, thickness, multiplier, stream, now, themes, width, height, n);
            && r.eaten <= e.eaten
            && |r.powerUps| <= |e.powerUps| <= |r.powerUps| + (e.eaten - r.eaten)
            && e.powerUps[..|r.powerUps|] == r.powerUps
            && (forall k :: |r.powerUps| <= k < |e.powerUps| ==>
                  e.powerUps[k].kind in POWERUP_TYPES && e.powerUps[k].createdAt == now)
    decreases n
  {
    if n > 0 {
      var i := n - 1;
      var hit := Touches(head, thickness, r.foods[i]);
      ProgressStep(themes, r.themeIndex, r.score + FOOD_VALUE * multiplier);
      var r' := if hit then EatOne(r, i, multiplier, stream, now, themes, width, height) else r;
      PlayerFeedsPowerUps(r', head, thickness, multiplier, stream, now, themes, width, height, i);
      var e := PlayerFeeds(r', head, thickness, multiplier, stream, now, themes, width, height, i);
      assert e == PlayerFeeds(r, head, thickness, multiplier, stream, now, themes, width, height, n);
      if hit {
        EatOnePowerUps(r, i, multiplier, stream, now, themes, width, height);
        assert e.powerUps[..|r.powerUps|] == e.powerUps[..|r'.powerUps|][..|r.powerUps|];
        forall k | |r.powerUps| <= k < |r'.powerUps|
          ensures e.powerUps[k] == r'.powerUps[k]
        {
          assert e.powerUps[..|r'.powerUps|][k] == r'.powerUps[k];
        }
      }
    }
  }

  /** The theme moves up by at most one per food eaten and stays in the
      table. */
  lemma {:induction false} PlayerFeedsTheme(r: Meal, head: Point, thickness: real, multiplier: int,
                                            stream: nat -> real, now: int, themes: seq<Theme>,
                                            width: real, height: real, n: nat)
    requires n <= |r.foods| && 0 <= r.themeIndex < |themes| && UnitStream(stream)
    ensures var e := PlayerFeeds(r, head, thickness, multiplier, stream, now, themes, width, height, n);
            && r.eaten <= e.eaten
            && r.themeIndex <= e.themeIndex <= r.themeIndex + (e.eaten - r.eaten)
            && e.themeIndex < |themes|
    decreases n
  {
    if n > 0 {
      var i := n - 1;
      var hit := Touches(head, thickness, r.foods[i]);
      ProgressStep(themes, r.themeIndex, r.score + FOOD_VALUE * multiplier);
      var r' := if hit then EatOne(r, i, multiplier, stream, now, themes, width, height) else r;
      PlayerFeedsTheme(r', head, thickness, multiplier, stream, now, themes, width, height, i);
    }
  }
}

=== FILE: geometry.dfy ===
/** Points, squared distances and the distance comparisons every collision test
    of the game is made of. The source compares Math.sqrt/Math.hypot of a sum of
    squares against a radius; here the same comparison is stated on the squared
    distance, and the lemmas below show that the two agree for any
    non-negative square root. */
module Geometry {
  import opened Common

  datatype Point = Point(x: real, y: real)

  /** Math.PI, as a positive constant. */
  const PI: real := 3.141592653589793

  function Abs(a: real): (r: real)
    ensures 0.0 <= r && (r == a || r == -a)
  {
    if a < 0.0 then -a else a
  }

  /** Math.sign on a non-NaN number. */
  function Sign(a: real): (r: real)
    ensures a > 0.0 ==> r == 1.0
    ensures a < 0.0 ==> r == -1.0
    ensures a == 0.0 ==> r == 0.0
  {
    if a > 0.0 then 1.0 else if a < 0.0 then -1.0 else 0.0
  }

  function Min(a: real, b: real): (r: real)
    ensures r <= a && r <= b && (r == a || r == b)
  {
    if a < b then a else b
  }

  /** The square of the Euclidean distance between p and q. */
  function DistSq(p: Point, q: Point): real
  {
    (p.x - q.x) * (p.x - q.x) + (p.y - q.y) * (p.y - q.y)
  }

  /** The distance from p to q is strictly below r. */
  predicate Within(p: Point, q: Point, r: real)
  {
    0.0 < r && DistSq(p, q) < r * r
  }

  /** The distance from p to q is strictly above r. */
  predicate Beyond(p: Point, q: Point, r: real)
  {
    r < 0.0 || r * r < DistSq(p, q)
  }

  lemma SquareMonotone(a: real, b: real)
    requires 0.0 <= a && 0.0 <= b
    ensures a < b <==> a * a < b * b
  {
    var ab := a * b;
    if a < b {
      assert a * a <= ab by { assert a * (b - a) >= 0.0; }
      assert ab < b * b by { assert b * (b - a) > 0.0; }
      assert a * a < b * b;
    } else {
      assert b * b <= ab by { assert b * (a - b) >= 0.0; }
      assert ab <= a * a by { assert a * (a - b) >= 0.0; }
      assert !(a * a < b * b);
    }
  }

  lemma PositiveProduct(a: real, b: real)
    requires 0.0 < a && 0.0 < b
    ensures 0.0 < a * b
  {
  }

  /** A draw r in [0, 1) scales a positive extent w into [0, w). */
  lemma ScaleBelow(r: real, w: real)
    requires 0.0 <= r < 1.0 && 0.0 < w
    ensures 0.0 <= r * w < w
  {
    PositiveProduct(1.0 - r, w);
    assert (1.0 - r) * w == w - r * w;
    if 0.0 < r {
      PositiveProduct(r, w);
    }
  }

  /** r * w for a draw r of Math.random scaling an extent w: it stays in
      [0, w). Kept as a named function so that the bound is stated once. */
  function Scale(r: real, w: real): (s: real)
    ensures 0.0 <= r < 1.0 && 0.0 < w ==> 0.0 <= s < w
  {
    if 0.0 <= r < 1.0 && 0.0 < w then ScaleBelow(r, w); r * w else r * w
  }

  lemma DistSqNonNegative(p: Point, q: Point)
    ensures 0.0 <= DistSq(p, q)
  {
    var dx, dy := p.x - q.x, p.y - q.y;
    assert 0.0 <= dx * dx && 0.0 <= dy * dy;
  }

  /** Within is the source's test `dist < r`, whatever non-negative square
      root d of the squared distance is used for dist. */
  lemma WithinIsDistanceBelow(p: Point, q: Point, r: real, d: real)
    requires 0.0 <= d && d * d == DistSq(p, q)
    ensures Within(p, q, r) <==> d < r
  {
    if 0.0 < r {
      SquareMonotone(d, r);
    }
  }

  /** Beyond is the source's test `dist > r`. */
  lemma BeyondIsDistanceAbove(p: Point, q: Point, r: real, d: real)
    requires 0.0 <= d && d * d == DistSq(p, q)
    ensures Beyond(p, q, r) <==> r < d
  {
    if 0.0 <= r {
      SquareMonotone(r, d);
    }
  }

  /** The source's form of the test, Math.sqrt of the sum of squares compared
      with r, agrees with Within for a lawful square root. */
  lemma SqrtBelow(m: MathFns, p: Point, q: Point, r: real)
    requires m.Lawful()
    ensures m.sqrt(DistSq(p, q)) < r <==> Within(p, q, r)
  {
    DistSqNonNegative(p, q);
    WithinIsDistanceBelow(p, q, r, m.sqrt(DistSq(p, q)));
  }

  lemma SqrtAbove(m: MathFns, p: Point, q: Point, r: real)
    requires m.Lawful()
    ensures r < m.sqrt(DistSq(p, q)) <==> Beyond(p, q, r)
  {
    DistSqNonNegative(p, q);
    BeyondIsDistanceAbove(p, q, r, m.sqrt(DistSq(p, q)));
  }

  /** Comparing two square roots is comparing what they are roots of. */
  lemma SqrtMonotone(m: MathFns, a: real, b: real)
    requires m.Lawful() && 0.0 <= a && 0.0 <= b
    ensures m.sqrt(a) < m.sqrt(b) <==> a < b
  {
    SquareMonotone(m.sqrt(a), m.sqrt(b));
  }

  /** Comparing two distances from the same point is comparing their squares,
      so keeping the smallest squared distance keeps the nearest object. */
  lemma NearerIsSmallerSquare(p: Point, a: Point, b: Point, da: real, db: real)
    requires 0.0 <= da && da * da == DistSq(p, a)
    requires 0.0 <= db && db * db == DistSq(p, b)
    ensures da < db <==> DistSq(p, a) < DistSq(p, b)
  {
    SquareMonotone(da, db);
  }

  /** The axis-aligned box check that the source runs before a distance test
      never changes the outcome: a point within r passes the box check. */
  lemma BoxCheckSound(p: Point, q: Point, r: real)
    requires Within(p, q, r)
    ensures Abs(p.x - q.x) < r && Abs(p.y - q.y) < r
  {
    var dx, dy := p.x - q.x, p.y - q.y;
    assert 0.0 <= dy * dy && 0.0 <= dx * dx;
    assert Abs(dx) * Abs(dx) == dx * dx;
    assert Abs(dy) * Abs(dy) == dy * dy;
    SquareMonotone(Abs(dx), r);
    SquareMonotone(Abs(dy), r);
  }

  lemma WithinSymmetric(p: Point, q: Point, r: real)
    ensures Within(p, q, r) <==> Within(q, p, r)
  {
    assert DistSq(p, q) == DistSq(q, p);
  }

  /** World wrap: a coordinate that leaves one edge reappears at the opposite
      edge; a coordinate inside the world is kept. */
  function WrapCoord(c: real, size: real): (r: real)
    requires 0.0 <= size
    ensures 0.0 <= r <= size
    ensures 0.0 <= c <= size ==> r == c
    ensures c < 0.0 ==> r == size
    ensures size < c ==> r == 0.0
  {
    var a := if c < 0.0 then size else c;
    if a > size then 0.0 else a
  }

  /** The four wrap tests of handleWallWrapping, applied to a head. */
  function Wrap(p: Point, width: real, height: real): (r: Point)
    requires 0.0 <= width && 0.0 <= height
    ensures 0.0 <= r.x <= width && 0.0 <= r.y <= height
    ensures 0.0 <= p.x <= width && 0.0 <= p.y <= height ==> r == p
  {
    Point(WrapCoord(p.x, width), WrapCoord(p.y, height))
  }
}

=== FILE: nearest.dfy ===
/** The "keep the nearest so far" scan that the enemy runs twice, over foods
    and over threatening snakes: among the eligible points, the one nearest
    to an origin, the earliest one on ties, because the scan replaces its
    best only on a strictly smaller distance. */
module Nearest {
  import opened Common
  import opened Geometry

  /** The result of the scan after its first n points. */
  function NearestAmong(origin: Point, pts: seq<Point>, eligible: seq<bool>, n: nat): (r: Option<nat>)
    requires n <= |pts| == |eligible|
    ensures r.Some? ==> r.value < n && eligible[r.value]
  {
    if n == 0 then None
    else
      var b := NearestAmong(origin, pts, eligible, n - 1);
      if eligible[n - 1] && (b.None? || DistSq(pts[n - 1], origin) < DistSq(pts[b.value], origin))
      then Some(n - 1)
      else b
  }

  /** i is eligible, no eligible point among the first n is nearer, and every
      eligible point before i is strictly farther. */
  predicate IsFirstNearest(origin: Point, pts: seq<Point>, eligible: seq<bool>, n: nat, i: nat)
    requires n <= |pts| == |eligible|
  {
    && i < n && eligible[i]
    && (forall j :: 0 <= j < n && eligible[j] ==> DistSq(pts[i], origin) <= DistSq(pts[j], origin))
    && (forall j :: 0 <= j < i && eligible[j] ==> DistSq(pts[i], origin) < DistSq(pts[j], origin))
  }

  /** The scan finds nothing exactly when nothing is eligible, and otherwise
      finds the first nearest eligible point. */
  lemma {:induction false} NearestAmongIsFirstNearest(origin: Point, pts: seq<Point>, eligible: seq<bool>, n: nat)
    requires n <= |pts| == |eligible|
    ensures NearestAmong(origin, pts, eligible, n).None? <==> forall j :: 0 <= j < n ==> !eligible[j]
    ensures NearestAmong(origin, pts, eligible, n).Some? ==>
              IsFirstNearest(origin, pts, eligible, n, NearestAmong(origin, pts, eligible, n).value)
  {
    if n > 0 {
      NearestAmongIsFirstNearest(origin, pts, eligible, n - 1);
    }
  }

  /** There is only one first nearest point, so the scan's answer is the
      answer. */
  lemma FirstNearestUnique(origin: Point, pts: seq<Point>, eligible: seq<bool>, n: nat, i: nat, k: nat)
    requires n <= |pts| == |eligible|
    requires IsFirstNearest(origin, pts, eligible, n, i) && IsFirstNearest(origin, pts, eligible, n, k)
    ensures i == k
  {
  }
}

=== FILE: particle_system.dfy ===
/** The explosion particles of the prototype game (src/ParticleSystem.js):
    each particle flies at a fixed velocity and loses life at a fixed decay
    rate; the system drops a particle once its life reaches zero. */
module Particles {
  import opened Common
  import opened Geometry

  const EXPLOSION_SIZE: nat := 20

  /** random * 100 + 50: a speed in [50, 150). */
  function LaunchSpeed(r: real): (s: real)
    ensures 0.0 <= r < 1.0 ==> 50.0 <= s < 150.0
  {
    Scale(r, 100.0) + 50.0
  }

  /** random * 0.5 + 0.5: a decay rate in [0.5, 1). */
  function DecayRate(r: real): (d: real)
    ensures 0.0 <= r < 1.0 ==> 0.5 <= d < 1.0
  {
    Scale(r, 0.5) + 0.5
  }

  /** The life left after one frame. */
  function Decayed(life: real, decay: real, deltaTime: real): real
  {
    life - decay * deltaTime
  }

  /** The life left after a run of frames of the given durations. */
  function LifeAfter(life: real, decay: real, deltas: seq<real>): real
    decreases |deltas|
  {
    if deltas == [] then life else LifeAfter(Decayed(life, decay, deltas[0]), decay, deltas[1..])
  }

  function Sum(deltas: seq<real>): real
    decreases |deltas|
  {
    if deltas == [] then 0.0 else deltas[0] + Sum(deltas[1..])
  }

  /** Life falls linearly with the elapsed time, whatever the frame
      durations. */
  lemma {:induction false} LifeAfterIsLinear(life: real, decay: real, deltas: seq<real>)
    ensures LifeAfter(life, decay, deltas) == life - decay * Sum(deltas)
    decreases |deltas|
  {
    if deltas != [] {
      LifeAfterIsLinear(Decayed(life, decay, deltas[0]), decay, deltas[1..]);
      assert decay * Sum(deltas) == decay * deltas[0] + decay * Sum(deltas[1..]);
    }
  }

  /** A particle launched with life 1 and a decay of at least 0.5 is dead
      once two seconds have passed. */
  lemma DeadAfterTwoSeconds(decay: real, deltas: seq<real>)
    requires 0.5 <= decay && 2.0 <= Sum(deltas)
    ensures LifeAfter(1.0, decay, deltas) <= 0.0
  {
    LifeAfterIsLinear(1.0, decay, deltas);
    assert decay * Sum(deltas) >= 0.5 * Sum(deltas) by {
      assert (decay - 0.5) * Sum(deltas) >= 0.0;
    }
  }

  class Particle {
    var x: real
    var y: real
    const vx: real
    const vy: real
    var life: real
    const decay: real

    /** constructor(x, y, color), without the colour: a direction from one
        draw, a speed in [50, 150) from a second and a decay in [0.5, 1)
        from a third; life starts at one second. */
    constructor (m: MathFns, x: real, y: real, rng: Rng)
      requires rng.Valid()
      modifies rng`cursor
      ensures this.x == x && this.y == y && life == 1.0
      ensures rng.cursor == old(rng.cursor) + 3
      ensures var angle := rng.stream(old(rng.cursor)) * PI * 2.0;
              var speed := LaunchSpeed(rng.stream(old(rng.cursor) + 1));
              vx == m.cos(angle) * speed && vy == m.sin(angle) * speed
      ensures decay == DecayRate(rng.stream(old(rng.cursor) + 2))
      ensures 0.5 <= decay < 1.0
    {
      var r1 := rng.Next();
      var r2 := rng.Next();
      var angle := r1 * PI * 2.0;
      var speed := LaunchSpeed(r2);
      var r3 := rng.Next();
      var d := DecayRate(r3);
      this.x, this.y := x, y;
      vx := m.cos(angle) * speed;
      vy := m.sin(angle) * speed;
      life := 1.0;
      decay := d;
    }

    /** update(deltaTime): move by the velocity and lose decay * deltaTime
        of life. */
    method Update(deltaTime: real)
      modifies this
      ensures x == old(x) + vx * deltaTime && y == old(y) + vy * deltaTime
      ensures life == Decayed(old(life), decay, deltaTime)
    {
      x := x + vx * deltaTime;
      y := y + vy * deltaTime;
      life := Decayed(life, decay, deltaTime);
    }
  }

  /** p has made one update(deltaTime) from position (x0, y0) and life
      life0: moved by its velocity times deltaTime and decayed. */
  predicate Moved(p: Particle, x0: real, y0: real, life0: real, deltaTime: real)
    reads p
  {
    p.x == x0 + p.vx * deltaTime && p.y == y0 + p.vy * deltaTime
    && p.life == Decayed(life0, p.decay, deltaTime)
  }

  /** p is a particle just built from the three draws s(c), s(c + 1) and
      s(c + 2) at (x, y): the direction and speed from the first two, the
      decay from the third, and a full life. */
  predicate Launched(m: MathFns, p: Particle, x: real, y: real, s: nat -> real, c: nat)
    reads p
  {
    var angle := s(c) * PI * 2.0;
    var speed := LaunchSpeed(s(c + 1));
    && p.x == x && p.y == y && p.life == 1.0
    && p.vx == m.cos(angle) * speed && p.vy == m.sin(angle) * speed
    && p.decay == DecayRate(s(c + 2))
  }

  /** The particles, in order, whose life is still positive. */
  function Alive(ps: seq<Particle>): (r: seq<Particle>)
    reads ps
    ensures |r| <= |ps|
    decreases |ps|
  {
    if ps == [] then []
    else (if ps[0].life > 0.0 then [ps[0]] else []) + Alive(ps[1..])
  }

  /** The survivors are particles of the list, each with positive life. */
  lemma {:induction false} AliveMembers(ps: seq<Particle>)
    ensures forall k :: 0 <= k < |Alive(ps)| ==> Alive(ps)[k] in ps && Alive(ps)[k].life > 0.0
    decreases |ps|
  {
    if ps != [] {
      AliveMembers(ps[1..]);
    }
  }

  /** Removing the element at |front| from front + [p] + back. */
  lemma Splice<T>(front: seq<T>, p: T, back: seq<T>)
    ensures var s := front + [p] + back; s[..|front|] + s[|front| + 1..] == front + back
  {
    var s := front + [p] + back;
    assert s[..|front|] == front;
    assert s[|front| + 1..] == back;
  }

  /** No particle appears twice. */
  predicate Distinct(ps: seq<Particle>)
  {
    forall i, j :: 0 <= i < j < |ps| ==> ps[i] != ps[j]
  }

  lemma {:induction false} AliveKeepsLiving(ps: seq<Particle>)
    requires forall k :: 0 <= k < |ps| ==> ps[k].life > 0.0
    ensures Alive(ps) == ps
    decreases |ps|
  {
    if ps != [] {
      AliveKeepsLiving(ps[1..]);
    }
  }

  /** Dropping dead particles keeps the others distinct. */
  lemma {:induction false} AliveDistinct(ps: seq<Particle>)
    requires Distinct(ps)
    ensures Distinct(Alive(ps))
    decreases |ps|
  {
    if ps != [] {
      AliveDistinct(ps[1..]);
      AliveMembers(ps[1..]);
    }
  }

  /** One iteration of the backward loop of update, at index i: the
      particle is updated, then spliced out when its life is no longer
      positive. */
  method SweepStep(ps: seq<Particle>, i: nat, live: seq<Particle>, deltaTime: real)
    returns (live': seq<Particle>)
    requires Distinct(ps) && i < |ps|
    requires live == ps[..i + 1] + Alive(ps[i + 1..])
    modifies ps[i]
    ensures Moved(ps[i], old(ps[i].x), old(ps[i].y), old(ps[i].life), deltaTime)
    ensures live' == ps[..i] + Alive(ps[i..])
  {
    var p := live[i];
    ghost var tail := Alive(ps[i + 1..]);
    assert ps[..i + 1] == ps[..i] + [p];
    assert ps[i..] == [p] + ps[i + 1..];
    assert live == ps[..i] + [p] + tail;
    assert p !in ps[i + 1..];
    p.Update(deltaTime);
    assert Alive(ps[i + 1..]) == tail;
    assert Alive(ps[i..]) == (if p.life > 0.0 then [p] else []) + tail;
    if p.life <= 0.0 {
      Splice(ps[..i], p, tail);
      live' := live[..i] + live[i + 1..];
    } else {
      live' := live;
      assert live == ps[..i] + ([p] + tail);
    }
  }

  /** The backward loop of update over the list ps. */
  method Sweep(ps: seq<Particle>, deltaTime: real) returns (live: seq<Particle>)
    requires Distinct(ps)
    modifies ps
    ensures forall k :: 0 <= k < |ps| ==> Moved(ps[k], old(ps[k].x), old(ps[k].y), old(ps[k].life), deltaTime)
    ensures live == Alive(ps) && Distinct(live)
  {
    live := ps;
    var i := |live|;
    assert ps[i..] == [];
    while i > 0
      invariant 0 <= i <= |ps|
      invariant live == ps[..i] + Alive(ps[i..])
      invariant forall k :: 0 <= k < i ==>
                  ps[k].x == old(ps[k].x) && ps[k].y == old(ps[k].y) && ps[k].life == old(ps[k].life)
      invariant forall k :: i <= k < |ps| ==> Moved(ps[k], old(ps[k].x), old(ps[k].y), old(ps[k].life), deltaTime)
    {
      i := i - 1;
      label BeforeStep:
      live := SweepStep(ps, i, live, deltaTime);
      forall k | 0 <= k < |ps| && k != i
        ensures ps[k].x == old@BeforeStep(ps[k].x) && ps[k].y == old@BeforeStep(ps[k].y)
        ensures ps[k].life == old@BeforeStep(ps[k].life)
      {
        assert ps[k] != ps[i];
      }
    }
    assert ps[0..] == ps;
    AliveDistinct(ps);
  }

  class ParticleSystem {
    var particles: seq<Particle>

    ghost predicate Valid()
      reads this
    {
      Distinct(particles)
    }

    constructor ()
      ensures particles == [] && Valid()
    {
      particles := [];
    }

    /** reset(): no particles. */
    method Reset()
      modifies this
      ensures particles == [] && Valid()
    {
      particles := [];
    }

    /** createExplosion(x, y, color), without the colour: twenty new
        particles at (x, y) behind the existing ones, three draws each. */
    method CreateExplosion(m: MathFns, x: real, y: real, rng: Rng)
      requires Valid() && rng.Valid()
      modifies this, rng`cursor
      ensures Valid()
      ensures |particles| == |old(particles)| + EXPLOSION_SIZE
      ensures particles[..|old(particles)|] == old(particles)
      ensures forall k :: |old(particles)| <= k < |particles| ==>
                fresh(particles[k])
                && Launched(m, particles[k], x, y, rng.stream, old(rng.cursor) + 3 * (k - |old(particles)|))
      ensures rng.cursor == old(rng.cursor) + 3 * EXPLOSION_SIZE
    {
      var i := 0;
      while i < EXPLOSION_SIZE
        invariant 0 <= i <= EXPLOSION_SIZE
        invariant |particles| == |old(particles)| + i
        invariant particles[..|old(particles)|] == old(particles)
        invariant forall k :: |old(particles)| <= k < |particles| ==>
                    fresh(particles[k])
                    && Launched(m, particles[k], x, y, rng.stream, old(rng.cursor) + 3 * (k - |old(particles)|))
        invariant Distinct(particles)
        invariant rng.cursor == old(rng.cursor) + 3 * i
      {
        var p := new Particle(m, x, y, rng);
        particles := particles + [p];
        i := i + 1;
      }
    }

    /** update(deltaTime): every particle is updated, walking from the last
        to the first, and removed when its life has dropped to zero or
        below; the survivors keep their order. */
    method Update(deltaTime: real)
      requires Valid()
      modifies this, particles
      ensures Valid()
      ensures forall k :: 0 <= k < |old(particles)| ==>
                Moved(old(particles)[k], old(particles[k].x), old(particles[k].y), old(particles[k].life), deltaTime)
      ensures particles == Alive(old(particles))
    {
      var live := Sweep(particles, deltaTime);
      ghost var ps := particles;
      particles := live;
      assert Alive(ps) == live;
    }
  }
}

=== FILE: power_up.dfy ===
/** Power-ups of the expanded game (js/classes/PowerUp.js): a collectible at
    a position, of one kind from the power-up table, that disappears once its
    lifetime has passed. */
module PowerUps {
  import opened Common
  import opened Geometry
  import opened Config

  /** The radius of every power-up. */
  const POWERUP_RADIUS: real := 15.0

  datatype PowerUp = PowerUp(
    x: real,
    y: real,
    kind: PowerUpKind,
    radius: real,
    createdAt: int,
    lifetime: int,
    icon: string,
    color: string,
    description: string)
  {
    function Position(): Point { Point(x, y) }
  }

  /** TYPES.find(t => t.name === name): the first entry with that name. */
  function FindKind(kinds: seq<PowerUpKind>, name: string): (r: Option<PowerUpKind>)
    ensures r.None? <==> forall i :: 0 <= i < |kinds| ==> kinds[i].name != name
    ensures r.Some? ==> exists i :: 0 <= i < |kinds| && kinds[i] == r.value && r.value.name == name
                                    && forall j :: 0 <= j < i ==> kinds[j].name != name
  {
    if kinds == [] then None
    else if kinds[0].name == name then Some(kinds[0])
    else
      var r := FindKind(kinds[1..], name);
      assert r.Some? ==> exists i :: 0 <= i < |kinds[1..]| && kinds[1..][i] == r.value && r.value.name == name
                                    && forall j :: 0 <= j < i ==> kinds[1..][j].name != name;
      r
  }

  /** constructor(x, y, type) at clock time now. The display fields are
      copied from the table entry with the same name; when there is none the
      source fails with a TypeError, here None. */
  function NewPowerUp(x: real, y: real, kind: PowerUpKind, now: int): (r: Option<PowerUp>)
    ensures r.None? <==> forall i :: 0 <= i < |POWERUP_TYPES| ==> POWERUP_TYPES[i].name != kind.name
    ensures r.Some? ==> && r.value.x == x && r.value.y == y && r.value.kind == kind
                        && r.value.radius == POWERUP_RADIUS
                        && r.value.createdAt == now && r.value.lifetime == LIFETIME
                        && (exists i :: 0 <= i < |POWERUP_TYPES| && POWERUP_TYPES[i].name == kind.name
                                        && r.value.icon == POWERUP_TYPES[i].icon
                                        && r.value.color == POWERUP_TYPES[i].color
                                        && r.value.description == POWERUP_TYPES[i].description)
  {
    var found := FindKind(POWERUP_TYPES, kind.name);
    if found.None? then None
    else Some(PowerUp(x, y, kind, POWERUP_RADIUS, now, LIFETIME,
                      found.value.icon, found.value.color, found.value.description))
  }

  /** The power-up built from entry i of the table, with that entry's own
      icon, colour and description. */
  function TablePowerUp(i: int, x: real, y: real, now: int): (p: PowerUp)
    requires 0 <= i < |POWERUP_TYPES|
    ensures p.kind == POWERUP_TYPES[i] && p.createdAt == now
  {
    var k := POWERUP_TYPES[i];
    PowerUp(x, y, k, POWERUP_RADIUS, now, LIFETIME, k.icon, k.color, k.description)
  }

  /** The constructor given entry i of the table builds TablePowerUp: it
      finds that very entry by name, since no two entries share a name. */
  lemma TablePowerUpIsNew(i: int, x: real, y: real, now: int)
    requires 0 <= i < |POWERUP_TYPES|
    ensures NewPowerUp(x, y, POWERUP_TYPES[i], now) == Some(TablePowerUp(i, x, y, now))
  {
    assert forall a, b :: 0 <= a < b < |POWERUP_TYPES| ==> POWERUP_TYPES[a].name != POWERUP_TYPES[b].name;
  }

  /** isExpired(): more than lifetime milliseconds since creation. */
  predicate IsExpired(p: PowerUp, now: int)
  {
    now - p.createdAt > p.lifetime
  }

  /** Expiry is strict: a power-up is still there exactly lifetime after its
      creation, and gone one millisecond later. */
  lemma ExpiryIsStrict(p: PowerUp, now: int)
    ensures now - p.createdAt <= p.lifetime ==> !IsExpired(p, now)
    ensures now - p.createdAt == p.lifetime + 1 ==> IsExpired(p, now)
  {
  }

  /** Once expired, expired at every later time. */
  lemma ExpiryIsMonotone(p: PowerUp, now: int, later: int)
    requires now <= later && IsExpired(p, now)
    ensures IsExpired(p, later)
  {
  }

  /** checkCollision(snake): the snake's head is strictly closer than
      radius + thickness / 2. */
  method CheckCollision(m: MathFns, p: PowerUp, head: Point, thickness: real) returns (hit: bool)
    requires m.Lawful()
    ensures hit <==> Within(p.Position(), head, p.radius + thickness / 2.0)
  {
    var dx := p.x - head.x;
    var dy := p.y - head.y;
    assert dx * dx + dy * dy == DistSq(p.Position(), head);
    var dist := m.sqrt(dx * dx + dy * dy);
    SqrtBelow(m, p.Position(), head, p.radius + thickness / 2.0);
    hit := dist < p.radius + thickness / 2.0;
  }
}

=== FILE: proto_food.dfy ===
/** Food of the prototype game (src/Food.js): spawning draws positions until
    one keeps clear of every fifth segment of the snake, with no limit on
    the number of attempts. */
module ProtoFoods {
  import opened Common
  import opened Geometry
  import opened Foods

  const PROTO_FOOD_RADIUS: real := 6.0

  /** p keeps a distance of at least 20 from every fifth segment (indices
      0, 5, 10, ...). */
  predicate ProtoClear(segments: seq<Point>, p: Point)
  {
    forall i :: 0 <= i < |segments| && i % 5 == 0 ==> !Within(p, segments[i], 20.0)
  }

  /** The random stream, read from draw number cursor on, eventually gives
      a candidate clear of the body. Without it the source's loop does not
      end. */
  ghost predicate ClearSpotAhead(stream: nat -> real, cursor: nat, segments: seq<Point>,
                                 width: real, height: real)
  {
    exists k: nat :: ProtoClear(segments, CandidateAt(stream, cursor, k, width, height))
  }

  /** The stride-5 scan of one attempt, stopping at the first segment that
      is too close. */
  method ProtoScanClear(segments: seq<Point>, p: Point) returns (valid: bool)
    ensures valid <==> ProtoClear(segments, p)
  {
    valid := true;
    var i := 0;
    while i < |segments|
      invariant 0 <= i && i % 5 == 0
      invariant forall j :: 0 <= j < i && j < |segments| && j % 5 == 0 ==> !Within(p, segments[j], 20.0)
      decreases |segments| - i
    {
      if Within(p, segments[i], 20.0) {
        valid := false;
        return;
      }
      i := i + 5;
    }
  }

  class ProtoFood {
    const gameWidth: real
    const gameHeight: real
    var x: real
    var y: real
    const radius: real

    function Position(): Point
      reads this
    {
      Point(x, y)
    }

    constructor (gameWidth: real, gameHeight: real)
      ensures this.gameWidth == gameWidth && this.gameHeight == gameHeight
      ensures x == 0.0 && y == 0.0 && radius == PROTO_FOOD_RADIUS
    {
      this.gameWidth := gameWidth;
      this.gameHeight := gameHeight;
      x, y := 0.0, 0.0;
      radius := PROTO_FOOD_RADIUS;
    }

    /** spawn(snakeSegments): attempt k draws the k-th candidate; the food
        ends on the first candidate clear of the body, after two draws per
        attempt. The ghost result k names that attempt. */
    method Spawn(snakeSegments: seq<Point>, rng: Rng) returns (ghost k: nat)
      requires rng.Valid()
      requires ClearSpotAhead(rng.stream, rng.cursor, snakeSegments, gameWidth, gameHeight)
      modifies this`x, this`y, rng`cursor
      ensures rng.cursor == old(rng.cursor) + 2 * (k + 1)
      ensures Position() == CandidateAt(rng.stream, old(rng.cursor), k, gameWidth, gameHeight)
      ensures forall j: nat :: j < k ==>
                !ProtoClear(snakeSegments, CandidateAt(rng.stream, old(rng.cursor), j, gameWidth, gameHeight))
      ensures ProtoClear(snakeSegments, Position())
    {
      ghost var start := rng.cursor;
      ghost var bound: nat :| ProtoClear(snakeSegments, CandidateAt(rng.stream, start, bound, gameWidth, gameHeight));
      var valid := false;
      var attempts: nat := 0;
      while !valid
        invariant rng.cursor == start + 2 * attempts
        invariant !valid ==> attempts <= bound
        invariant valid ==> attempts > 0 && ProtoClear(snakeSegments, Position())
        invariant attempts > 0 ==>
          Position() == CandidateAt(rng.stream, start, attempts - 1, gameWidth, gameHeight)
        invariant forall j: nat :: j < attempts && !(valid && j + 1 == attempts) ==>
          !ProtoClear(snakeSegments, CandidateAt(rng.stream, start, j, gameWidth, gameHeight))
        decreases bound + 1 - attempts
      {
        valid := Attempt(snakeSegments, rng, start, attempts);
        attempts := attempts + 1;
      }
      k := attempts - 1;
    }

    /** One pass of spawn's loop: draw attempt k's candidate, move there and
        scan the body. */
    method Attempt(snakeSegments: seq<Point>, rng: Rng, ghost start: nat, ghost k: nat) returns (valid: bool)
      requires rng.Valid() && rng.cursor == start + 2 * k
      modifies this`x, this`y, rng`cursor
      ensures rng.cursor == old(rng.cursor) + 2
      ensures Position() == CandidateAt(rng.stream, start, k, gameWidth, gameHeight)
      ensures valid <==> ProtoClear(snakeSegments, Position())
    {
      var c := DrawCandidate(rng, gameWidth, gameHeight, start, k);
      x, y := c.x, c.y;
      valid := ProtoScanClear(snakeSegments, Point(x, y));
    }
  }
}

=== FILE: proto_game.dfy ===
/** The frame loop of the prototype game (src/Game.js): one snake, one food,
    the theme progression and the explosion particles. Each frame moves the
    snake, ages the particles, wraps the head at the window edges, eats the
    food when the head reaches it and ends the game when the head meets the
    body. */
module ProtoGames {
  import opened Common
  import opened Geometry
  import opened Body
  import opened ProtoSnakes
  import opened ProtoFoods
  import opened Particles
  import opened Config
  import opened Themes
  import opened ProtoThemes

  const PROTO_FOOD_VALUE: int := 10

  /** The head after the wrap of handleWallWrapping; the rest of the body is
      kept. */
  function WrapFront(segments: seq<Point>, width: real, height: real): (r: seq<Point>)
    requires |segments| > 0 && 0.0 <= width && 0.0 <= height
    ensures |r| == |segments| && r[1..] == segments[1..]
    ensures 0.0 <= r[0].x <= width && 0.0 <= r[0].y <= height
  {
    segments[0 := Wrap(segments[0], width, height)]
  }

  class ProtoGame {
    const width: real
    const height: real
    var running: bool
    var score: int
    var lastTime: real
    const themeManager: ProtoThemeManager
    const particleSystem: ParticleSystem
    const snake: ProtoSnake
    const food: ProtoFood

    /** The objects keep their own invariants; the window size and the score
        are not negative. */
    ghost predicate Valid()
      reads this, themeManager, particleSystem, snake, food
    {
      && themeManager.Valid() && particleSystem.Valid() && snake.Valid()
      && 0.0 <= width && 0.0 <= height
      && 0 <= score
    }

    /** The body the next frame leaves before any food is eaten: one advance
        of the snake by the current keys, then the wrap of the new head. */
    ghost function NextBody(m: MathFns, deltaTime: real): Body
      requires snake.Valid() && 0.0 <= width && 0.0 <= height
      reads snake
    {
      var b := Advance(snake.BodyOf(), snake.NextHead(m, deltaTime));
      AdvanceKeepsBounded(snake.BodyOf(), snake.NextHead(m, deltaTime));
      Body(WrapFront(b.segments, width, height), b.length, b.growAmount)
    }

    /** Whether the next frame eats the food. */
    ghost predicate Eats(m: MathFns, deltaTime: real)
      requires snake.Valid() && 0.0 <= width && 0.0 <= height
      reads snake, food
    {
      Within(NextBody(m, deltaTime).segments[0], food.Position(), snake.thickness + food.radius)
    }

    /** What the food's spawn loop needs to end if the next frame eats. */
    ghost predicate CanRespawn(m: MathFns, deltaTime: real, rng: Rng)
      requires snake.Valid() && 0.0 <= width && 0.0 <= height
      reads snake, food, rng
    {
      Eats(m, deltaTime) ==>
        ClearSpotAhead(rng.stream, rng.cursor, NextBody(m, deltaTime).segments, food.gameWidth, food.gameHeight)
    }

    /** constructor(canvas), with the window size: nothing running, score 0,
        the snake centred and the food at the origin. */
    constructor (width: real, height: real)
      requires 0.0 <= width && 0.0 <= height
      ensures Valid() && !running && score == 0 && lastTime == 0.0
      ensures this.width == width && this.height == height
      ensures snake.segments == Column(width / 2.0, height / 2.0, PROTO_RESET_LENGTH as nat)
      ensures food.gameWidth == width && food.gameHeight == height
      ensures themeManager.currentIndex == 0 && particleSystem.particles == []
    {
      this.width, this.height := width, height;
      running := false;
      score := 0;
      lastTime := 0.0;
      themeManager := new ProtoThemeManager();
      particleSystem := new ParticleSystem();
      snake := new ProtoSnake(width / 2.0, height / 2.0);
      food := new ProtoFood(width, height);
    }

    /** start(now): running with score 0, the snake reset to the centre, the
        food spawned clear of it and no particles. */
    method Start(now: real, rng: Rng)
      requires Valid() && rng.Valid()
      requires ClearSpotAhead(rng.stream, rng.cursor, Column(width / 2.0, height / 2.0, PROTO_RESET_LENGTH as nat),
                              food.gameWidth, food.gameHeight)
      modifies this`running, this`score, this`lastTime, snake, food`x, food`y, particleSystem, rng`cursor
      ensures Valid() && running && score == 0 && lastTime == now
      ensures snake.segments == Column(width / 2.0, height / 2.0, PROTO_RESET_LENGTH as nat)
      ensures snake.angle == -PI / 2.0 && snake.growAmount == 0
      ensures ProtoClear(snake.segments, food.Position())
      ensures particleSystem.particles == []
    {
      running := true;
      score := 0;
      snake.Reset(width / 2.0, height / 2.0);
      ghost var attempt := food.Spawn(snake.segments, rng);
      particleSystem.Reset();
      lastTime := now;
    }

    /** stop(): the game is over; the score is kept. */
    method Stop()
      modifies this`running
      ensures !running
    {
      running := false;
    }

    /** loop(timestamp): a stopped game does nothing and schedules nothing;
        a running one updates by the seconds since the last frame and always
        schedules the next frame, even when this update stopped it. */
    method Loop(m: MathFns, timestamp: real, rng: Rng) returns (scheduled: bool)
      requires Valid() && m.Lawful() && rng.Valid()
      requires running ==> CanRespawn(m, (timestamp - lastTime) / 1000.0, rng)
      modifies this, snake, food, particleSystem, particleSystem.particles, themeManager, rng
      ensures Valid()
      ensures scheduled == old(running)
      ensures !old(running) ==> lastTime == old(lastTime) && score == old(score) && !running
      ensures old(running) ==> lastTime == timestamp
    {
      if !running {
        return false;
      }
      var deltaTime := (timestamp - lastTime) / 1000.0;
      lastTime := timestamp;
      Update(m, deltaTime, rng);
      return true;
    }

    /** update(deltaTime): the snake's step and the particles' ageing, the
        wrap, the food, then the self-collision. */
    method Update(m: MathFns, deltaTime: real, rng: Rng)
      requires Valid() && m.Lawful() && rng.Valid()
      requires CanRespawn(m, deltaTime, rng)
      modifies this, snake, food, particleSystem, particleSystem.particles, themeManager, rng
      ensures Valid()
      ensures snake.segments == old(NextBody(m, deltaTime)).segments
      ensures snake.length == old(NextBody(m, deltaTime)).length
      ensures old(Eats(m, deltaTime)) ==>
                && score == old(score) + PROTO_FOOD_VALUE
                && snake.growAmount == old(NextBody(m, deltaTime)).growAmount + PROTO_GROWTH
                && ProtoClear(snake.segments, food.Position())
                && themeManager.currentIndex == Progress(themeManager.themes, old(themeManager.currentIndex), score)
      ensures !old(Eats(m, deltaTime)) ==>
                && score == old(score)
                && snake.growAmount == old(NextBody(m, deltaTime)).growAmount
                && food.Position() == old(food.Position())
                && themeManager.currentIndex == old(themeManager.currentIndex)
      ensures running == (old(running) && !ProtoSelfCollides(snake.segments, snake.thickness))
      ensures lastTime == old(lastTime)
    {
      ghost var next := NextBody(m, deltaTime);
      ghost var eats := Eats(m, deltaTime);
      Move(m, deltaTime);
      assert snake.BodyOf() == next;
      EatFood(m, rng);
      EndOnSelfCollision(m, rng);
    }

    /** The snake's update, the particles' update and handleWallWrapping. */
    method Move(m: MathFns, deltaTime: real)
      requires Valid()
      modifies snake, particleSystem, particleSystem.particles
      ensures Valid()
      ensures snake.BodyOf() == old(NextBody(m, deltaTime))
      ensures snake.thickness == old(snake.thickness)
    {
      snake.Update(m, deltaTime);
      particleSystem.Update(deltaTime);
      HandleWallWrapping();
    }

    /** The self-collision test of update: on a hit, an explosion at the head
        and stop. */
    method EndOnSelfCollision(m: MathFns, rng: Rng)
      requires Valid() && m.Lawful() && rng.Valid()
      modifies this`running, particleSystem, rng`cursor
      ensures Valid()
      ensures running == (old(running) && !ProtoSelfCollides(snake.segments, snake.thickness))
    {
      var selfHit := snake.CheckSelfCollision(m);
      if selfHit {
        particleSystem.CreateExplosion(m, snake.segments[0].x, snake.segments[0].y, rng);
        Stop();
      }
    }

    /** handleWallWrapping(): the head object is moved to the opposite edge
        when it is past one. */
    method HandleWallWrapping()
      requires Valid()
      modifies snake`segments
      ensures Valid()
      ensures snake.segments == WrapFront(old(snake.segments), width, height)
    {
      snake.segments := snake.segments[0 := Wrap(snake.segments[0], width, height)];
    }

    /** The food test of update: on a hit, ten points, ten segments of
        growth, a new food clear of the body, an explosion and the theme
        check. */
    method EatFood(m: MathFns, rng: Rng)
      requires Valid() && m.Lawful() && rng.Valid()
      requires Within(snake.segments[0], food.Position(), snake.thickness + food.radius) ==>
                 ClearSpotAhead(rng.stream, rng.cursor, snake.segments, food.gameWidth, food.gameHeight)
      modifies this`score, snake`growAmount, food, particleSystem, themeManager, rng
      ensures Valid()
      ensures old(Within(snake.segments[0], food.Position(), snake.thickness + food.radius)) ==>
                && score == old(score) + PROTO_FOOD_VALUE
                && snake.growAmount == old(snake.growAmount) + PROTO_GROWTH
                && ProtoClear(snake.segments, food.Position())
                && themeManager.currentIndex == Progress(themeManager.themes, old(themeManager.currentIndex), score)
      ensures !old(Within(snake.segments[0], food.Position(), snake.thickness + food.radius)) ==>
                && score == old(score) && snake.growAmount == old(snake.growAmount)
                && food.Position() == old(food.Position())
                && themeManager.currentIndex == old(themeManager.currentIndex)
      ensures |particleSystem.particles| == |old(particleSystem.particles)|
                + (if old(Within(snake.segments[0], food.Position(), snake.thickness + food.radius))
                   then EXPLOSION_SIZE else 0)
      ensures particleSystem.particles[..|old(particleSystem.particles)|] == old(particleSystem.particles)
    {
      var hit := snake.CheckFoodCollision(m, food.Position(), food.radius);
      if hit {
        Feed(m, rng);
      }
    }

    /** The body of the food test: the score, the growth, the new food, the
        explosion at it and the theme check. */
    method Feed(m: MathFns, rng: Rng)
      requires Valid() && rng.Valid()
      requires ClearSpotAhead(rng.stream, rng.cursor, snake.segments, food.gameWidth, food.gameHeight)
      modifies this`score, snake`growAmount, food, particleSystem, themeManager, rng
      ensures Valid()
      ensures score == old(score) + PROTO_FOOD_VALUE
      ensures snake.growAmount == old(snake.growAmount) + PROTO_GROWTH
      ensures ProtoClear(snake.segments, food.Position())
      ensures themeManager.currentIndex == Progress(themeManager.themes, old(themeManager.currentIndex), score)
      ensures |particleSystem.particles| == |old(particleSystem.particles)| + EXPLOSION_SIZE
      ensures particleSystem.particles[..|old(particleSystem.particles)|] == old(particleSystem.particles)
    {
      score := score + PROTO_FOOD_VALUE;
      snake.Grow();
      ghost var attempt := food.Spawn(snake.segments, rng);
      particleSystem.CreateExplosion(m, food.x, food.y, rng);
      themeManager.CheckProgression(score);
    }
  }

  /** The scores the game reaches while eating n foods in a row. */
  function FoodScores(n: nat): (r: seq<int>)
    ensures |r| == n && forall k :: 0 <= k < n ==> r[k] == PROTO_FOOD_VALUE * (k + 1)
  {
    seq(n, k => PROTO_FOOD_VALUE * (k + 1))
  }

  lemma {:induction false} ProgressRunSnoc(themes: seq<Theme>, index: int, scores: seq<int>, last: int)
    requires 0 <= index < |themes|
    ensures ProgressRun(themes, index, scores + [last]) == Progress(themes, ProgressRun(themes, index, scores), last)
    decreases |scores|
  {
    if scores == [] {
      assert [] + [last] == [last];
    } else {
      ProgressStep(themes, index, scores[0]);
      assert (scores + [last])[1..] == scores[1..] + [last];
      ProgressRunSnoc(themes, Progress(themes, index, scores[0]), scores[1..], last);
    }
  }

  /** From the first theme, every ten foods move the game to the next
      theme, up to the last of the four. */
  lemma {:induction false} TenFoodsPerTheme(n: nat)
    ensures ProgressRun(PROTO_THEMES, 0, FoodScores(n)) == MinInt(n / 10, 3)
    decreases n
  {
    if n > 0 {
      TenFoodsPerTheme(n - 1);
      assert FoodScores(n) == FoodScores(n - 1) + [PROTO_FOOD_VALUE * n];
      ProgressRunSnoc(PROTO_THEMES, 0, FoodScores(n - 1), PROTO_FOOD_VALUE * n);
      var before := MinInt((n - 1) / 10, 3);
      ProgressStep(PROTO_THEMES, before, PROTO_FOOD_VALUE * n);
    }
  }
}

=== FILE: proto_snake.dfy ===
/** The snake of the prototype game (src/Snake.js): it steers by an angle
    that the left and right keys turn at a fixed rate, and moves its head
    along that angle by speed * deltaTime each frame. */
module ProtoSnakes {
  import opened Common
  import opened Geometry
  import opened Body
  import Snakes

  const PROTO_RESET_LENGTH: int := 20
  const PROTO_SAFE_ZONE: nat := 20
  const PROTO_TURN_SPEED: real := 4.0
  const PROTO_SPEED: real := 150.0
  const PROTO_THICKNESS: real := 12.0
  const PROTO_GROWTH: int := 10

  /** The two turning tests of update: left subtracts turnSpeed * deltaTime,
      right adds it, and both apply when both keys are held. */
  function Turn(angle: real, left: bool, right: bool, turnSpeed: real, deltaTime: real): real
  {
    var a := if left then angle - turnSpeed * deltaTime else angle;
    if right then a + turnSpeed * deltaTime else a
  }

  /** Holding no key or both keys keeps the angle; one key turns it by
      exactly turnSpeed * deltaTime in its direction. */
  lemma TurnCases(angle: real, left: bool, right: bool, turnSpeed: real, deltaTime: real)
    ensures left == right ==> Turn(angle, left, right, turnSpeed, deltaTime) == angle
    ensures left && !right ==> Turn(angle, left, right, turnSpeed, deltaTime) == angle - turnSpeed * deltaTime
    ensures right && !left ==> Turn(angle, left, right, turnSpeed, deltaTime) == angle + turnSpeed * deltaTime
  {
  }

  /** The head moved by dist along the angle. */
  function Step(m: MathFns, head: Point, angle: real, dist: real): Point
  {
    Point(head.x + m.cos(angle) * dist, head.y + m.sin(angle) * dist)
  }

  lemma UnitTimesBounded(c: real, dist: real)
    requires -1.0 <= c <= 1.0 && 0.0 <= dist
    ensures -dist <= c * dist <= dist
  {
    if c >= 0.0 {
      assert c * dist <= 1.0 * dist;
    } else {
      assert (-c) * dist <= 1.0 * dist;
    }
  }

  /** A step moves the head by at most dist along each axis. */
  lemma StepBounded(m: MathFns, head: Point, angle: real, dist: real)
    requires m.Lawful() && 0.0 <= dist
    ensures Abs(Step(m, head, angle, dist).x - head.x) <= dist
    ensures Abs(Step(m, head, angle, dist).y - head.y) <= dist
  {
    var c, s := m.cos(angle), m.sin(angle);
    assert -1.0 <= c <= 1.0 && -1.0 <= s <= 1.0;
    UnitTimesBounded(c, dist);
    UnitTimesBounded(s, dist);
    assert Step(m, head, angle, dist) == Point(head.x + c * dist, head.y + s * dist);
  }

  /** The head is strictly within r of a segment at index 20 or later. */
  predicate ProtoSelfCollides(segments: seq<Point>, r: real)
    requires |segments| > 0
  {
    exists i :: PROTO_SAFE_ZONE <= i < |segments| && Within(segments[0], segments[i], r)
  }

  /** A snake of at most 20 segments, a fresh one included, never collides
      with itself: the scan starts past its tail. */
  lemma ShortSnakeNeverSelfCollides(segments: seq<Point>, r: real)
    requires 0 < |segments| <= PROTO_RESET_LENGTH
    ensures !ProtoSelfCollides(segments, r)
  {
  }

  class ProtoSnake {
    var x: real
    var y: real
    var angle: real
    var segments: seq<Point>
    var growAmount: int
    var length: int
    var turnSpeed: real
    var speed: real
    var baseSpeed: real
    var thickness: real
    var gap: real
    var left: bool
    var right: bool

    function BodyOf(): Body
      reads this
    {
      Body(segments, length, growAmount)
    }

    ghost predicate Valid()
      reads this
    {
      Bounded(BodyOf())
    }

    /** The head the next update adds, deltaTime seconds on. */
    function NextHead(m: MathFns, deltaTime: real): Point
      requires |segments| > 0
      reads this
    {
      Step(m, segments[0], Turn(angle, left, right, turnSpeed, deltaTime), speed * deltaTime)
    }

    /** constructor(x, y): reset, then the fixed turn rate, speed and
        thickness, with neither key held. */
    constructor (x: real, y: real)
      ensures Valid()
      ensures segments == Column(x, y, PROTO_RESET_LENGTH as nat) && angle == -PI / 2.0
      ensures turnSpeed == PROTO_TURN_SPEED && speed == PROTO_SPEED && baseSpeed == PROTO_SPEED
      ensures thickness == PROTO_THICKNESS && gap == 8.0
      ensures !left && !right
    {
      new;
      Reset(x, y);
      turnSpeed := PROTO_TURN_SPEED;
      speed := PROTO_SPEED;
      baseSpeed := PROTO_SPEED;
      thickness := PROTO_THICKNESS;
      gap := 8.0;
      left, right := false, false;
    }

    /** reset(x, y): facing up, 20 segments at (x, y + 2i), no pending
        growth. Speed, thickness and the keys are kept. */
    method Reset(x: real, y: real)
      modifies this
      ensures this.x == x && this.y == y && angle == -PI / 2.0
      ensures segments == Column(x, y, PROTO_RESET_LENGTH as nat)
      ensures growAmount == 0 && length == PROTO_RESET_LENGTH
      ensures turnSpeed == old(turnSpeed) && speed == old(speed) && baseSpeed == old(baseSpeed)
      ensures thickness == old(thickness) && gap == old(gap)
      ensures left == old(left) && right == old(right)
      ensures Valid()
    {
      this.x, this.y := x, y;
      angle := -PI / 2.0;
      segments := [];
      growAmount := 0;
      length := PROTO_RESET_LENGTH;
      segments := BuildColumn(x, y, length);
    }

    /** update(deltaTime): turn by the keys held, then advance the body by
        one head stepped speed * deltaTime along the new angle. */
    method Update(m: MathFns, deltaTime: real)
      requires Valid()
      modifies this
      ensures Valid()
      ensures angle == Turn(old(angle), left, right, turnSpeed, deltaTime)
      ensures BodyOf() == Advance(old(BodyOf()), old(NextHead(m, deltaTime)))
      ensures x == old(x) && y == old(y) && turnSpeed == old(turnSpeed) && speed == old(speed)
      ensures baseSpeed == old(baseSpeed) && thickness == old(thickness) && gap == old(gap)
      ensures left == old(left) && right == old(right)
    {
      ghost var body := BodyOf();
      ghost var turned := Turn(angle, left, right, turnSpeed, deltaTime);
      ghost var d := speed * deltaTime;
      ghost var next := Step(m, segments[0], turned, d);
      assert next == NextHead(m, deltaTime);
      Steer(deltaTime);
      assert BodyOf() == body;
      var moveDist := speed * deltaTime;
      assert angle == turned;
      var newHead := Step(m, segments[0], angle, moveDist);
      assert moveDist == d;
      assert newHead == next;
      AdvanceBody(newHead);
    }

    /** The two key tests at the top of update. */
    method Steer(deltaTime: real)
      modifies this`angle
      ensures angle == Turn(old(angle), left, right, turnSpeed, deltaTime)
    {
      var a := angle;
      if left {
        a := a - turnSpeed * deltaTime;
      }
      if right {
        a := a + turnSpeed * deltaTime;
      }
      angle := a;
    }

    /** The unshift / grow / pop sequence of update. */
    method AdvanceBody(head: Point)
      requires Valid()
      modifies this`segments, this`length, this`growAmount
      ensures BodyOf() == Advance(old(BodyOf()), head)
      ensures Valid()
    {
      AdvanceKeepsBounded(BodyOf(), head);
      segments := [head] + segments;
      if growAmount > 0 {
        length := length + 1;
        growAmount := growAmount - 1;
      }
      if |segments| > length {
        segments := segments[..|segments| - 1];
      }
    }

    /** grow(): ten more history points to come. */
    method Grow()
      modifies this`growAmount
      ensures growAmount == old(growAmount) + PROTO_GROWTH
    {
      growAmount := growAmount + PROTO_GROWTH;
    }

    /** checkFoodCollision(food): the same strict distance test as the
        expanded game's snake. */
    method CheckFoodCollision(m: MathFns, food: Point, foodRadius: real) returns (hit: bool)
      requires m.Lawful() && |segments| > 0
      ensures hit <==> Within(segments[0], food, thickness + foodRadius)
    {
      hit := Snakes.CheckFoodCollision(m, segments[0], thickness, food, foodRadius);
    }

    /** checkSelfCollision(): scan from index 20 on for a segment strictly
        within thickness of the head. */
    method CheckSelfCollision(m: MathFns) returns (hit: bool)
      requires m.Lawful() && |segments| > 0
      ensures hit <==> ProtoSelfCollides(segments, thickness)
    {
      var i := PROTO_SAFE_ZONE;
      while i < |segments|
        invariant PROTO_SAFE_ZONE <= i
        invariant forall j :: PROTO_SAFE_ZONE <= j < i && j < |segments| ==>
                    !Within(segments[0], segments[j], thickness)
      {
        var seg := segments[i];
        var dx := segments[0].x - seg.x;
        var dy := segments[0].y - seg.y;
        assert dx * dx + dy * dy == DistSq(segments[0], seg);
        var dist := m.sqrt(dx * dx + dy * dy);
        SqrtBelow(m, segments[0], seg, thickness);
        if dist < thickness {
          return true;
        }
        i := i + 1;
      }
      return false;
    }
  }
}

=== FILE: proto_theme_manager.dfy ===
/** Theme progression of the prototype game (src/ThemeManager.js): four
    themes whose thresholds increase, and the same one-step progression. */
module ProtoThemes {
  import opened Config
  import opened Themes

  const PROTO_THEMES: seq<Theme> := [
    Theme("Neon Night", 0),
    Theme("Cyber Red", 100),
    Theme("Deep Ocean", 200),
    Theme("Solar Flare", 300)
  ]

  /** The thresholds strictly increase. */
  predicate Increasing(themes: seq<Theme>)
  {
    forall i, j :: 0 <= i < j < |themes| ==> themes[i].score < themes[j].score
  }

  lemma ProtoThemesIncrease()
    ensures Increasing(PROTO_THEMES)
  {
  }

  /** With increasing thresholds, every theme up to the current one has a
      threshold the best score has reached. */
  lemma ProgressRunReached(themes: seq<Theme>, index: int, scores: seq<int>, best: int)
    requires Increasing(themes) && 0 <= index < |themes| && themes[index].score <= best
    ensures forall k :: 0 <= k <= ProgressRun(themes, index, scores) ==> themes[k].score <= MaxOf(best, scores)
  {
    ProgressRunFacts(themes, index, scores, best);
  }

  class ProtoThemeManager {
    const themes: seq<Theme>
    var currentIndex: int

    ghost predicate Valid()
      reads this
    {
      themes == PROTO_THEMES && 0 <= currentIndex < |themes|
    }

    constructor ()
      ensures Valid() && currentIndex == 0
    {
      themes := PROTO_THEMES;
      currentIndex := 0;
    }

    /** checkProgression(score): the index never exceeds 3. */
    method CheckProgression(score: int)
      requires Valid()
      modifies this`currentIndex
      ensures Valid() && currentIndex <= 3
      ensures currentIndex == Progress(themes, old(currentIndex), score)
      ensures score < 0 ==> currentIndex == old(currentIndex)
      ensures old(currentIndex) == 3 ==> currentIndex == 3
    {
      ProgressStep(themes, currentIndex, score);
      if currentIndex < |themes| - 1 {
        if score >= themes[currentIndex + 1].score {
          currentIndex := currentIndex + 1;
        }
      }
    }
  }
}

=== FILE: snakes.dfy ===
/** The player snake of the expanded game (js/classes/Snake.js): a body of
    segments, a velocity along one axis under keyboard input, a queue of keyboard
    directions and the ghost flag set by a power-up. */
module Snakes {
  import opened Common
  import opened Geometry
  import opened Body
  import Config

  const RESET_LENGTH: int := 30

  /** The four directions the keyboard handler queues. */
  predicate KeyDir(d: Point)
  {
    d == Point(0.0, -1.0) || d == Point(0.0, 1.0) || d == Point(-1.0, 0.0) || d == Point(1.0, 0.0)
  }

  /** Moving along exactly one axis at the given speed. */
  predicate OnAxis(v: Point, speed: real)
  {
    (v.x == 0.0 && Abs(v.y) == speed) || (v.y == 0.0 && Abs(v.x) == speed)
  }

  /** One queued direction applied to the velocity: a horizontal input turns a
      vertically moving snake, a vertical input turns a horizontally moving
      one, anything else leaves the velocity as it is. */
  function Steer(v: Point, speed: real, d: Point): Point
  {
    if v.y != 0.0 && d.x != 0.0 then Point(d.x * speed, 0.0)
    else if v.x != 0.0 && d.y != 0.0 then Point(0.0, d.y * speed)
    else v
  }

  /** A key turn perpendicular to the motion leaves exactly one component
      non-zero, of magnitude speed; an input on the current axis, a reversal
      included, leaves the velocity unchanged. */
  lemma SteerTurnsOrKeeps(v: Point, speed: real, d: Point)
    requires 0.0 < speed && OnAxis(v, speed) && KeyDir(d)
    ensures OnAxis(Steer(v, speed, d), speed)
    ensures v.x == 0.0 && d.x != 0.0 ==> Steer(v, speed, d) == Point(d.x * speed, 0.0)
    ensures v.y == 0.0 && d.y != 0.0 ==> Steer(v, speed, d) == Point(0.0, d.y * speed)
    ensures v.x == 0.0 && d.x == 0.0 ==> Steer(v, speed, d) == v
    ensures v.y == 0.0 && d.y == 0.0 ==> Steer(v, speed, d) == v
  {
  }

  /** A reversal (the exact opposite key) never changes the velocity. */
  lemma SteerIgnoresReversal(v: Point, speed: real, d: Point)
    requires 0.0 < speed && OnAxis(v, speed) && KeyDir(d)
    requires Sign(d.x) == -Sign(v.x) && Sign(d.y) == -Sign(v.y)
    ensures Steer(v, speed, d) == v
  {
  }

  /** The new head: the old head moved by dist in the direction of each
      non-zero velocity component. */
  function Displace(head: Point, v: Point, dist: real): Point
  {
    Point(head.x + (if v.x != 0.0 then Sign(v.x) * dist else 0.0),
          head.y + (if v.y != 0.0 then Sign(v.y) * dist else 0.0))
  }

  /** With a velocity along one axis, the head moves by exactly dist along
      that axis and not at all along the other. */
  lemma DisplaceAlongAxis(head: Point, v: Point, speed: real, dist: real)
    requires 0.0 < speed && OnAxis(v, speed) && 0.0 <= dist
    ensures v.x == 0.0 ==> Displace(head, v, dist).x == head.x
                           && Abs(Displace(head, v, dist).y - head.y) == dist
    ensures v.y == 0.0 ==> Displace(head, v, dist).y == head.y
                           && Abs(Displace(head, v, dist).x - head.x) == dist
  {
  }

  /** The head is within r of some segment at index SAFE_COLLISION_ZONE or
      later. */
  predicate SelfCollides(segments: seq<Point>, r: real)
    requires |segments| > 0
  {
    exists i :: Config.SAFE_COLLISION_ZONE <= i < |segments| && Within(segments[0], segments[i], r)
  }

  /** The body reset leaves is clear of itself: segment i is 2i below the
      head, and every segment past the safe zone is at least 20 away, more
      than thickness - 2 = 18. */
  lemma ResetBodyClear(x: real, y: real)
    ensures !SelfCollides(Column(x, y, RESET_LENGTH as nat), Config.SNAKE_THICKNESS - 2.0)
  {
    var segs := Column(x, y, RESET_LENGTH as nat);
    forall i | Config.SAFE_COLLISION_ZONE <= i < |segs|
      ensures !Within(segs[0], segs[i], Config.SNAKE_THICKNESS - 2.0)
    {
      var d := 2.0 * i as real;
      assert 20.0 <= d;
      assert DistSq(segs[0], segs[i]) == d * d;
      SquareMonotone(18.0, d);
    }
  }

  /** checkFoodCollision(food), shared by the player and the enemies: the
      head is strictly closer to the food than thickness + the food's radius.
      The food is given by its position and radius. */
  method CheckFoodCollision(m: MathFns, head: Point, thickness: real, food: Point, foodRadius: real)
    returns (hit: bool)
    requires m.Lawful()
    ensures hit <==> Within(head, food, thickness + foodRadius)
  {
    var dx := head.x - food.x;
    var dy := head.y - food.y;
    assert dx * dx + dy * dy == DistSq(head, food);
    var dist := m.sqrt(dx * dx + dy * dy);
    SqrtBelow(m, head, food, thickness + foodRadius);
    hit := dist < thickness + foodRadius;
  }

  class Snake {
    var x: real
    var y: real
    var segments: seq<Point>
    var growAmount: int
    var length: int
    var speed: real
    var thickness: real
    var vx: real
    var vy: real
    var inputQueue: seq<Point>
    var ghostMode: bool

    function BodyOf(): Body
      reads this
    {
      Body(segments, length, growAmount)
    }

    function Velocity(): Point
      reads this
    {
      Point(vx, vy)
    }

    /** The body keeps a head and stays within its target length. */
    ghost predicate Valid()
      reads this
    {
      Bounded(BodyOf())
    }

    /** The velocity after the next update has taken its queued direction. */
    function NextVelocity(): Point
      reads this
    {
      if |inputQueue| > 0 then Steer(Velocity(), speed, inputQueue[0]) else Velocity()
    }

    /** The head the next update adds, deltaTime seconds on. */
    function NextHead(deltaTime: real): Point
      requires |segments| > 0
      reads this
    {
      Displace(segments[0], NextVelocity(), speed * deltaTime)
    }

    /** constructor(x, y): reset, then speed, thickness, an upward velocity,
        an empty queue and ghost mode off. */
    constructor (x: real, y: real)
      ensures Valid()
      ensures segments == Column(x, y, RESET_LENGTH as nat)
      ensures speed == Config.SNAKE_SPEED && thickness == Config.SNAKE_THICKNESS
      ensures Velocity() == Point(0.0, -Config.SNAKE_SPEED)
      ensures inputQueue == [] && !ghostMode
    {
      speed := Config.SNAKE_SPEED;
      thickness := Config.SNAKE_THICKNESS;
      ghostMode := false;
      new;
      Reset(x, y);
    }

    /** reset(x, y): 30 segments at (x, y + 2i), no pending growth, moving
        up at the current speed, with an empty queue. Speed, thickness and
        ghost mode are kept. */
    method Reset(x: real, y: real)
      modifies this
      ensures this.x == x && this.y == y
      ensures segments == Column(x, y, RESET_LENGTH as nat)
      ensures |segments| == RESET_LENGTH
      ensures forall i :: 0 <= i < |segments| ==> segments[i] == Point(x, y + 2.0 * i as real)
      ensures growAmount == 0 && length == RESET_LENGTH
      ensures Velocity() == Point(0.0, -speed) && inputQueue == []
      ensures speed == old(speed) && thickness == old(thickness) && ghostMode == old(ghostMode)
      ensures Valid()
    {
      this.x, this.y := x, y;
      segments := [];
      growAmount := 0;
      length := RESET_LENGTH;
      vx, vy := 0.0, -speed;
      inputQueue := [];
      segments := BuildColumn(x, y, length);
    }

    /** update(deltaTime): take at most one queued direction and steer with
        it, then advance the body by one head displaced by speed * deltaTime
        along the velocity. */
    method Update(deltaTime: real)
      requires Valid()
      modifies this
      ensures Valid()
      ensures inputQueue == if |old(inputQueue)| > 0 then old(inputQueue)[1..] else []
      ensures Velocity() == old(NextVelocity())
      ensures BodyOf() == Advance(old(BodyOf()), old(NextHead(deltaTime)))
      ensures x == old(x) && y == old(y) && speed == old(speed) && thickness == old(thickness)
      ensures ghostMode == old(ghostMode)
    {
      ghost var next := NextHead(deltaTime);
      TakeInput();
      var moveDist := speed * deltaTime;
      var newHead := Displace(segments[0], Velocity(), moveDist);
      assert newHead == next;
      AdvanceBody(newHead);
    }

    /** The queue handling at the top of update: at most one direction is
        taken and steers the velocity. */
    method TakeInput()
      modifies this`inputQueue, this`vx, this`vy
      ensures inputQueue == if |old(inputQueue)| > 0 then old(inputQueue)[1..] else []
      ensures Velocity() == old(NextVelocity())
    {
      if |inputQueue| > 0 {
        var nextDir := inputQueue[0];
        inputQueue := inputQueue[1..];
        if vy != 0.0 && nextDir.x != 0.0 {
          vx := nextDir.x * speed;
          vy := 0.0;
        } else if vx != 0.0 && nextDir.y != 0.0 {
          vx := 0.0;
          vy := nextDir.y * speed;
        }
      }
    }

    /** The unshift / grow / pop sequence of update. */
    method AdvanceBody(head: Point)
      requires Valid()
      modifies this`segments, this`length, this`growAmount
      ensures BodyOf() == Advance(old(BodyOf()), head)
      ensures Valid()
    {
      AdvanceKeepsBounded(BodyOf(), head);
      segments := [head] + segments;
      if growAmount > 0 {
        length := length + 1;
        growAmount := growAmount - 1;
      }
      if |segments| > length {
        segments := segments[..|segments| - 1];
      }
    }

    /** grow(): one more unit of pending growth. */
    method Grow()
      modifies this`growAmount
      ensures growAmount == old(growAmount) + Config.GROWTH_AMOUNT
    {
      growAmount := growAmount + Config.GROWTH_AMOUNT;
    }

    /** checkSelfCollision(): scan from the safe zone on for a segment
        strictly within thickness - 2 of the head. */
    method CheckSelfCollision(m: MathFns) returns (hit: bool)
      requires m.Lawful() && |segments| > 0
      ensures hit <==> SelfCollides(segments, thickness - 2.0)
    {
      var i := Config.SAFE_COLLISION_ZONE;
      while i < |segments|
        invariant Config.SAFE_COLLISION_ZONE <= i
        invariant forall j :: Config.SAFE_COLLISION_ZONE <= j < i && j < |segments| ==>
                    !Within(segments[0], segments[j], thickness - 2.0)
      {
        var seg := segments[i];
        var dx := segments[0].x - seg.x;
        var dy := segments[0].y - seg.y;
        assert dx * dx + dy * dy == DistSq(segments[0], seg);
        var dist := m.sqrt(dx * dx + dy * dy);
        SqrtBelow(m, segments[0], seg, thickness - 2.0);
        if dist < thickness - 2.0 {
          return true;
        }
        i := i + 1;
      }
      return false;
    }

    /** What other snakes' decisions and collision tests see of this one. */
    function View(): SnakeView
      reads this
    {
      SnakeView(this, segments, length, thickness)
    }
  }
}

=== FILE: theme_manager.dfy ===
/** Theme progression of the expanded game (js/classes/ThemeManager.js): an
    index into the theme table that the player may set directly and that
    score advances by one theme at a time. */
module Themes {
  import opened Config

  /** checkProgression(score) as a value: move to the next theme when there
      is one and the score has reached its threshold. */
  function Progress(themes: seq<Theme>, index: int, score: int): int
    requires 0 <= index < |themes|
  {
    if index < |themes| - 1 && score >= themes[index + 1].score then index + 1 else index
  }

  /** One call advances by at most one, exactly when a next theme exists and
      the score has reached its threshold, and keeps the index in range. */
  lemma ProgressStep(themes: seq<Theme>, index: int, score: int)
    requires 0 <= index < |themes|
    ensures 0 <= Progress(themes, index, score) < |themes|
    ensures Progress(themes, index, score) == index || Progress(themes, index, score) == index + 1
    ensures (Progress(themes, index, score) == index + 1)
              <==> (index < |themes| - 1 && score >= themes[index + 1].score)
  {
  }

  /** Progression over a sequence of scores, one call per score. */
  function ProgressRun(themes: seq<Theme>, index: int, scores: seq<int>): (r: int)
    requires 0 <= index < |themes|
    ensures 0 <= r < |themes|
    decreases |scores|
  {
    if scores == [] then index
    else
      ProgressStep(themes, index, scores[0]);
      ProgressRun(themes, Progress(themes, index, scores[0]), scores[1..])
  }

  function MaxOf(best: int, scores: seq<int>): int
    decreases |scores|
  {
    if scores == [] then best
    else MaxOf(if scores[0] > best then scores[0] else best, scores[1..])
  }

  /** Over any run the index stays in range, moves up by at most one per
      call, and the current theme's threshold never exceeds the best score
      seen, provided it did not at the start. */
  lemma {:induction false} ProgressRunFacts(themes: seq<Theme>, index: int, scores: seq<int>, best: int)
    requires 0 <= index < |themes| && themes[index].score <= best
    ensures index <= ProgressRun(themes, index, scores) <= index + |scores|
    ensures themes[ProgressRun(themes, index, scores)].score <= MaxOf(best, scores)
    decreases |scores|
  {
    if scores != [] {
      ProgressStep(themes, index, scores[0]);
      var next := Progress(themes, index, scores[0]);
      var best' := if scores[0] > best then scores[0] else best;
      ProgressRunFacts(themes, next, scores[1..], best');
    }
  }

  /** The configured thresholds are not increasing (600, then 0): from the
      seventh theme (index 6) any non-negative score advances. */
  lemma AdvancesFromSixOnAnyScore(score: int)
    requires 0 <= score
    ensures Progress(THEMES, 6, score) == 7
  {
  }

  class ThemeManager {
    const themes: seq<Theme>
    var currentIndex: int

    ghost predicate Valid()
      reads this
    {
      0 <= currentIndex < |themes|
    }

    constructor ()
      ensures themes == THEMES && currentIndex == 0 && Valid()
    {
      themes := THEMES;
      currentIndex := 0;
    }

    function CurrentTheme(): Theme
      reads this
      requires Valid()
    {
      themes[currentIndex]
    }

    /** setTheme(index): an index inside the table is taken as it is, any
        other index is ignored. */
    method SetTheme(index: int)
      requires Valid()
      modifies this`currentIndex
      ensures Valid()
      ensures 0 <= index < |themes| ==> currentIndex == index
      ensures !(0 <= index < |themes|) ==> currentIndex == old(currentIndex)
    {
      if index >= 0 && index < |themes| {
        currentIndex := index;
      }
    }

    /** checkProgression(score). */
    method CheckProgression(score: int)
      requires Valid()
      modifies this`currentIndex
      ensures Valid()
      ensures currentIndex == Progress(themes, old(currentIndex), score)
    {
      ProgressStep(themes, currentIndex, score);
      if currentIndex < |themes| - 1 {
        if score >= themes[currentIndex + 1].score {
          currentIndex := currentIndex + 1;
        }
      }
    }
  }
}

=== FILE: touch_controller.dfy ===
/** The on-screen joystick of the expanded game
    (js/classes/TouchController.js): a touch that starts anywhere and is
    dragged; outside a dead zone, the drag's direction is snapped to one of
    eight directions and written to the player's velocity, unless that would
    be a reversal. */
module Touch {
  import opened Common
  import opened Geometry
  import Snakes

  const DEADZONE: real := 15.0
  const MAX_DISTANCE: real := 50.0

  /** The eight-way mapping of a drag angle in degrees. */
  function Octant(degrees: real): Point
  {
    if -22.5 <= degrees < 22.5 then Point(1.0, 0.0)
    else if 22.5 <= degrees < 67.5 then Point(1.0, 1.0)
    else if 67.5 <= degrees < 112.5 then Point(0.0, 1.0)
    else if 112.5 <= degrees < 157.5 then Point(-1.0, 1.0)
    else if degrees >= 157.5 || degrees < -157.5 then Point(-1.0, 0.0)
    else if -157.5 <= degrees < -112.5 then Point(-1.0, -1.0)
    else if -112.5 <= degrees < -67.5 then Point(0.0, -1.0)
    else if -67.5 <= degrees < -22.5 then Point(1.0, -1.0)
    else Point(0.0, 0.0)
  }

  predicate Unit(c: real)
  {
    c == -1.0 || c == 0.0 || c == 1.0
  }

  /** Every angle, in range or not, is mapped to one of the eight directions:
      components in {-1, 0, 1}, never both zero; the final fall-through of
      the source's if-chain is unreachable. Each direction is chosen exactly
      on its 45-degree sector. */
  lemma OctantIsEightWay(degrees: real)
    ensures Unit(Octant(degrees).x) && Unit(Octant(degrees).y)
    ensures Octant(degrees) != Point(0.0, 0.0)
    ensures Octant(degrees) == Point(1.0, 0.0) <==> -22.5 <= degrees < 22.5
    ensures Octant(degrees) == Point(1.0, 1.0) <==> 22.5 <= degrees < 67.5
    ensures Octant(degrees) == Point(0.0, 1.0) <==> 67.5 <= degrees < 112.5
    ensures Octant(degrees) == Point(-1.0, 1.0) <==> 112.5 <= degrees < 157.5
    ensures Octant(degrees) == Point(-1.0, 0.0) <==> degrees >= 157.5 || degrees < -157.5
    ensures Octant(degrees) == Point(-1.0, -1.0) <==> -157.5 <= degrees < -112.5
    ensures Octant(degrees) == Point(0.0, -1.0) <==> -112.5 <= degrees < -67.5
    ensures Octant(degrees) == Point(1.0, -1.0) <==> -67.5 <= degrees < -22.5
  {
  }

  /** The guard of updateSnakeDirection: the velocity is overwritten with d
      only when d differs from it and is not its exact negation. */
  function TouchSteer(v: Point, d: Point): Point
  {
    if (v.x != d.x || v.y != d.y) && !(d.x == -v.x && d.y == -v.y) then d else v
  }

  /** Between unit velocities the guard blocks exactly the reversals. */
  lemma TouchSteerBlocksUnitReversal(v: Point, d: Point)
    requires d != Point(0.0, 0.0)
    ensures d == Point(-v.x, -v.y) ==> TouchSteer(v, d) == v
    ensures d != Point(-v.x, -v.y) ==> TouchSteer(v, d) == d
  {
  }

  /** The keyboard writes velocities scaled by speed, the joystick unit
      ones, so the guard does not see a keyboard-set upward motion and a
      downward drag as a reversal: the snake is turned straight back. */
  lemma TouchReversesKeyboardVelocity()
    ensures TouchSteer(Point(0.0, -250.0), Point(0.0, 1.0)) == Point(0.0, 1.0)
  {
  }

  /** |c * l| <= l for |c| <= 1 and l >= 0. */
  lemma BoundedProduct(c: real, l: real)
    requires -1.0 <= c <= 1.0 && 0.0 <= l
    ensures -l <= c * l <= l
  {
    if c >= 0.0 {
      assert (1.0 - c) * l >= 0.0;
    } else {
      assert (1.0 + c) * l >= 0.0;
    }
  }

  /** One component of the normalised direction: the clamped drag length
      times the cosine or sine of its angle, divided by maxDistance. */
  function StickComponent(c: real, limitedDistance: real): (r: real)
    requires -1.0 <= c <= 1.0 && 0.0 <= limitedDistance <= MAX_DISTANCE
    ensures -1.0 <= r <= 1.0
  {
    BoundedProduct(c, limitedDistance);
    c * limitedDistance / MAX_DISTANCE
  }

  /** The direction of a drag from start to touch: the drag length, capped
      at MAX_DISTANCE, along the drag's angle, as a fraction of MAX_DISTANCE. */
  function StickDirection(m: MathFns, start: Point, touch: Point): (d: Point)
    requires m.Lawful()
    ensures -1.0 <= d.x <= 1.0 && -1.0 <= d.y <= 1.0
  {
    var a := m.atan2(touch.y - start.y, touch.x - start.x);
    DistSqNonNegative(touch, start);
    var limitedDistance := Min(m.sqrt(DistSq(touch, start)), MAX_DISTANCE);
    Point(StickComponent(m.cos(a), limitedDistance), StickComponent(m.sin(a), limitedDistance))
  }

  class TouchController {
    const snake: Snakes.Snake
    var active: bool
    var touchStartPos: Point
    var currentPos: Point
    var direction: Point

    constructor (snake: Snakes.Snake)
      ensures this.snake == snake && !active
      ensures touchStartPos == Point(0.0, 0.0) && currentPos == Point(0.0, 0.0)
      ensures direction == Point(0.0, 0.0)
    {
      this.snake := snake;
      active := false;
      touchStartPos := Point(0.0, 0.0);
      currentPos := Point(0.0, 0.0);
      direction := Point(0.0, 0.0);
    }

    /** handleTouchStart(e), with the first touch's client position. */
    method HandleTouchStart(touch: Point)
      modifies this
      ensures active && touchStartPos == touch && currentPos == touch
      ensures direction == old(direction)
    {
      active := true;
      touchStartPos := touch;
      currentPos := touch;
    }

    /** handleTouchEnd(e). */
    method HandleTouchEnd()
      modifies this
      ensures !active && direction == Point(0.0, 0.0)
      ensures touchStartPos == old(touchStartPos) && currentPos == old(currentPos)
    {
      active := false;
      direction := Point(0.0, 0.0);
    }

    /** handleTouchMove(e), with the first touch's client position. Ignored
        while inactive. Inside the dead zone the direction is cleared and the
        snake is not touched; outside it the drag is clamped to maxDistance,
        scaled into a direction with components in [-1, 1], and handed to
        updateSnakeDirection. */
    method HandleTouchMove(m: MathFns, touch: Point)
      requires m.Lawful()
      modifies this, snake`vx, snake`vy
      ensures !old(active) ==> unchanged(this) && unchanged(snake)
      ensures old(active) ==> active && currentPos == touch && touchStartPos == old(touchStartPos)
      ensures old(active) && Within(touch, touchStartPos, DEADZONE) ==>
                direction == Point(0.0, 0.0) && unchanged(snake)
      ensures old(active) && !Within(touch, touchStartPos, DEADZONE) ==>
                && direction == StickDirection(m, old(touchStartPos), touch)
                && snake.Velocity() == TouchSteer(old(snake.Velocity()),
                                                  Octant(m.atan2(direction.y, direction.x) * (180.0 / PI)))
    {
      if !active {
        return;
      }
      currentPos := touch;
      var deltaX := currentPos.x - touchStartPos.x;
      var deltaY := currentPos.y - touchStartPos.y;
      assert deltaX * deltaX + deltaY * deltaY == DistSq(touch, touchStartPos);
      var distance := m.sqrt(deltaX * deltaX + deltaY * deltaY);
      SqrtBelow(m, touch, touchStartPos, DEADZONE);
      if distance < DEADZONE {
        direction := Point(0.0, 0.0);
        return;
      }
      direction := StickDirection(m, touchStartPos, touch);
      UpdateSnakeDirection(m);
    }

    /** updateSnakeDirection(): the eight-way direction of the current
        drag, through the reversal guard. */
    method UpdateSnakeDirection(m: MathFns)
      modifies snake`vx, snake`vy
      ensures snake.Velocity() == TouchSteer(old(snake.Velocity()),
                                             Octant(m.atan2(direction.y, direction.x) * (180.0 / PI)))
    {
      var angle := m.atan2(direction.y, direction.x);
      var degrees := angle * (180.0 / PI);
      var d := Octant(degrees);
      if snake.vx != d.x || snake.vy != d.y {
        if !(d.x == -snake.vx && d.y == -snake.vy) {
          snake.vx := d.x;
          snake.vy := d.y;
        }
      }
    }
  }
}
